=== FILE: README.md ===
# Multivariable municipal similarity: a verified model of the core

This project models, in Dafny, the core of a Python pipeline that compares
Mexican municipalities (identified by their five-character `CVEGEO` code).
It builds several N×N similarity matrices:

- monthly series, by L2 distance;
- numeric climate attributes, by proportional similarity;
- categorical soil and landform texts, by string metrics;
- correlated time series;
- topological (TDA) distances.

The pipeline fuses these matrices with normalised weights, links every
municipality to its k most similar ones in a graph, and imputes the series
of municipalities without data from the mean of their most similar
neighbours. Around these sit the scalar scorers, the id normaliser, the
progress throttle, the Takens embedding, the detection of `YYYY-MM` columns
with its report, and the hourly-to-daily aggregation.

The model has one module per source file, plus shared utility modules:

- `Wrappers`: `Option`, `Result` and Python exceptions as values.
- `Text`: strip, lower, split, join, `in`, `zfill` and lexicographic order.
- `Seqs`: sums, a stable descending sort, `head`.
- `Aritmetica`: ceiling division.
- `Matrices`: pair enumerations and last-wins merges.
- `Tablas`: the two id lookups.
- `Distancia`: L2 distance and distance-to-similarity.
- `Agrupacion`: group-by sum and mean.
- `Vecinos`: ranking of a labelled row.

## How the model represents the system

- A DataFrame is a sequence of records, or a labelled square matrix (`Etiquetada`: an index and a `seq<seq<real>>`).
- Similarities are `real`, except in the numeric comparators and the numeric matrix builder, where they are `AnalisisNumerico.Flotante` (a real or NaN). Float rounding and `float32` storage are not modelled.
- A missing value in the series, monthly and daily tables is an explicit `Option` or is skipped by a NaN-aware sum. In the numeric comparators NaN follows Python's rules: comparisons with NaN are false, `max` keeps its first argument next to NaN, and arithmetic on NaN gives NaN.
- The labelled similarity matrices that the ranking, the graph and the fusion read (`MatrizGral.Etiquetada`) hold numbers only; NaN cells in them are not modelled (see Left out).
- An exception is a `Result` error of the same name: `ValueError`, `KeyError`, `ZeroDivisionError`, `AssertionError`, `IndexError`.
- The parallel maps (process pools, joblib) are sequential loops. Every result carries its own indices, so the merged matrix does not depend on arrival order. `Matrices.MergeOrderIndependent` and `Matrices.MergeRowsOrderIndependent` prove this.
- Foreign numerics are function parameters, with the assumptions the model relies on stated as predicates:
  - `sqrt` under `Distancia.SqrtLike`;
  - Levenshtein ratio and Jaro-Winkler under `AnalisisCategorico.MetricaLike`;
  - `np.corrcoef` under `MatrizSeries.CorrLike`;
  - `float()` and `pd.to_numeric` parsing under `AnalisisNumerico.ParseLike`;
  - the persistence-diagram distance under `TdaMatriz.DistLike`;
  - the CPU count, which is a plain parameter.
- HDF5 and parquet files are parameters and results. Prints are not modelled.
- `completar_dataset` aborts on the first municipality whose imputation fails; it does not skip it and go on. The model does the same.
- The monthly builder's worker blocks have ceil(n/w) rows each, so ten rows on three workers give [0,4), [4,8), [8,10). `MatrizMensual.BloquesEjemplo` states this case.

## Model

| member | source | states |
|---|---|---|
| Helpers.NormalizarCvegeo | src/utils/helpers.py:4-5 | `zfill(5)`: the result has length max(5, len); ids of length ≥5 are unchanged; digit strings get leading zeros |
| Helpers.NormalizarCvegeoIdempotent | src/utils/helpers.py:4-5 | normalising twice is normalising once |
| Helpers.NormalizarCvegeoSigned | src/utils/helpers.py:4-5 | Python's `zfill` puts the zeros after a sign: "-12" becomes "-0012" |
| Helpers.NuevoProgreso | src/utils/helpers.py:14-19 | a new reporter starts at `ultimo = 0` with the given total, step and label |
| Helpers.Paso | src/utils/helpers.py:21-30 | below the threshold nothing changes; otherwise `ultimo` becomes `i`; the call fails exactly when it reports with `total = 0`; the configuration never changes |
| Helpers.PasosEspaciados | src/utils/helpers.py:21-27 | over a run of calls the reported counts come from the calls in order, the first at least `cada` past the start and each next at least `cada` after the previous; `ultimo` ends at the last report |
| Helpers.PasosEjemplo | src/utils/helpers.py:21-27 | with step 100, calls at 50, 100, 150, 250 report 100 and 250 |
| Helpers.PasosSinError | src/utils/helpers.py:21-30 | with a nonzero total no run of calls fails |
| Helpers.PasosErrPersiste | src/utils/helpers.py:21-30 | once a call raises, the rest of the run has failed |
| Text.Strip | src/analisis/analisis_categorico.py:23 | the result has no whitespace at either end, and it is a slice of the input with only whitespace outside it; whitespace is what `str.isspace()` accepts in ASCII, 0x1C-0x1F included |
| Text.StripUnico | src/analisis/analisis_categorico.py:23 | any slice with only whitespace around it and none at its own ends is the strip, so the two properties define strip completely |
| Text.StripIdempotent | src/analisis/analisis_categorico.py:23 | stripping twice is stripping once |
| Text.StripEmptyIff | src/analisis/analisis_categorico.py:23 | strip gives "" exactly for all-whitespace strings |
| Text.Lower | src/analisis/analisis_categorico.py:23 | lower-casing maps each character and keeps the length |
| Text.StripLower | src/analisis/analisis_categorico.py:23 | strip and lower commute |
| Text.JoinSplit | src/analisis/analisis_numerico.py:33 | joining the parts of a split with the separator gives back the string |
| Text.SplitJoin | src/analisis/analisis_categorico.py:65 | splitting a join of separator-free parts gives back the parts |
| Text.SplitParts | src/analisis/analisis_numerico.py:33 | a split has one part more than separators, and no part holds the separator |
| Text.ContainsIff | src/analisis/analisis_diario.py:93-95 | `sub in s` holds exactly when `sub` occurs at some position of `s` |
| Text.StrLessTransitive | src/analisis/analisis_mensual.py:15 | string order is transitive |
| Text.StrLessTotal | src/analisis/analisis_mensual.py:15 | any two strings are equal or ordered one way |
| Text.ZFillUnsigned | src/utils/helpers.py:5 | an unsigned string is padded with zeros in front |
| Text.ZFillIdempotent | src/utils/helpers.py:5 | padding twice is padding once |
| Tablas.Primero | src/analisis/analisis_numerico.py:69-92 | filtering by id and taking `.iloc[0]`: None exactly when no row has the id, otherwise the first row's value |
| Tablas.Ultimo | src/construccion_matriz/matriz_numerica.py:14-18 | the value a dict comprehension keeps: None exactly when absent, otherwise the last row's value |
| Tablas.PrimeroUltimoUnicos | src/construccion_matriz/matriz_numerica.py:14-18 | with unique ids the two lookups agree |
| Tablas.PrimeroUltimoDuplicado | src/construccion_matriz/matriz_numerica.py:14-18 | with a duplicated id they disagree: `.iloc[0]` gives the first value, the dict the second |
| Seqs.SortDesc | src/analisis/analisis_matriz_completa.py:17 | sorting descending gives a non-increasing permutation |
| Seqs.Head | src/analisis/analisis_matriz_completa.py:19 | `head(n)` is a prefix of length min(n, len), and Python's negative `n` drops from the end |
| Seqs.SumOfPermutation | src/construccion_matriz/matriz_gral.py:62-65 | a sum does not depend on the order of its terms |
| Aritmetica.CeilDiv | src/construccion_matriz/matriz_mensual.py:62 | `ceil(n / w)` is the least `b` with `b * w >= n` |
| Matrices.UpperPairsExactlyOnce | src/construccion_matriz/matriz_numerica.py:48-50 | `for i in range(n) for j in range(i, n)` yields each pair i ≤ j exactly once, n(n+1)/2 pairs |
| Matrices.StrictPairsExactlyOnce | src/construccion_matriz/matriz_series.py:34 | `combinations(range(n), 2)` yields each pair i < j exactly once, n(n-1)/2 pairs, and never a diagonal pair |
| Matrices.MergePairs | src/construccion_matriz/matriz_series.py:39-43 | writing each result to (i, j) and (j, i) leaves each cell with the value of the last result aimed at it, and the matrix is symmetric |
| Matrices.LastWriteSymmetric | src/construccion_matriz/matriz_numerica.py:41-42 | the mirrored write makes cell (a, b) equal cell (b, a) |
| Matrices.LastWriteOfUnique | src/construccion_matriz/matriz_numerica.py:38-42 | when every cell is aimed at once, it holds that result's value, and an unaimed cell stays 0 |
| Matrices.MergeOrderIndependent | src/construccion_matriz/matriz_numerica.py:48-53 | with every cell aimed at once, the merged matrix does not depend on the order of the results |
| Matrices.WriteRowAndMirror | src/construccion_matriz/matriz_mensual.py:74-77 | writing row `i` from the diagonal on and its mirror changes exactly the cells whose smaller index is `i` |
| Matrices.MergeRows | src/construccion_matriz/matriz_mensual.py:72-77 | merging upper-triangle rows fills cell (a, b) from the last row numbered min(a, b), at position max(a, b); the matrix is symmetric |
| Matrices.LastRowWriteOfUnique | src/construccion_matriz/matriz_mensual.py:74-77 | with each row index arriving once, cell (a, b) holds entry max(a, b) of row min(a, b) |
| Matrices.MergeRowsOrderIndependent | src/construccion_matriz/matriz_mensual.py:73-77 | with each row index arriving once, the merged matrix does not depend on block arrival order |
| Matrices.WriteBlock | src/construccion_matriz/matriz_blocks.py:83 | `out[s:s+nA, :] = resultado` replaces exactly those rows |
| Distancia.SumSqProperties | src/construccion_matriz/matriz_blocks.py:11-14 | the sum of squared differences is nonnegative, symmetric and 0 exactly on equal vectors |
| Distancia.DistanciaL2Properties | src/construccion_matriz/matriz_blocks.py:11-14 | the L2 distance is nonnegative, symmetric and 0 exactly on equal vectors |
| Distancia.DistanciaASimilitud | src/construccion_matriz/matriz_blocks.py:21-23 | `1/(1+d)` lies in (0, 1] for d ≥ 0 and is 1 exactly when d = 0 |
| Distancia.SimilitudDecreciente | src/construccion_matriz/matriz_blocks.py:21-23 | the similarity strictly decreases as the distance grows |
| Distancia.SimilitudL2 | src/analisis/analisis_series.py:45-57 | the similarity of two vectors lies in (0, 1] and is 1 exactly when they are equal |
| Distancia.SimilitudL2Symmetric | src/analisis/analisis_series.py:45-57 | the similarity is symmetric |
| MatrizMensual.NumWorkers | src/construccion_matriz/matriz_mensual.py:61 | `max(2, cpu - 1)`: at least 2 workers |
| MatrizMensual.BloquesDisjuntos | src/construccion_matriz/matriz_mensual.py:62-70 | the worker ranges are pairwise disjoint and none holds more than ceil(n/w) rows |
| MatrizMensual.BloquesCubren | src/construccion_matriz/matriz_mensual.py:62-70 | every row below n lies in the range of worker i / b; no range reaches past n; ranges starting at or past n are empty |
| MatrizMensual.BloquesEjemplo | src/construccion_matriz/matriz_mensual.py:62-70 | n = 10 on 3 workers gives [0,4), [4,8), [8,10) |
| MatrizMensual.CalcularBloque | src/construccion_matriz/matriz_mensual.py:12-24 | one row per index of [start, end), in order; entries left of the diagonal are 0 and the rest are the similarity of the two rows |
| MatrizMensual.FilaSuperiorAcotada | src/construccion_matriz/matriz_mensual.py:18-21 | every upper-triangle entry lies in (0, 1] and the diagonal entry is 1 |
| MatrizMensual.ConstruirMatrizOptimizada | src/construccion_matriz/matriz_mensual.py:60-77 | after all blocks the matrix is symmetric, every cell (a, b) is the similarity of rows a and b, the diagonal is 1, and the id axis is the input's |
| MatrizBlocks.Inicios | src/construccion_matriz/matriz_blocks.py:67-70 | `range(0, N, bs)`: ceil(N/bs) starts k·bs < N; an empty range for a negative step; ValueError for step 0 |
| MatrizBlocks.IniciosParticion | src/construccion_matriz/matriz_blocks.py:67-70 | the blocks [s, min(s+bs, N)) cover [0, N), and each row lies in block i / bs only |
| MatrizBlocks.CompararBloque | src/construccion_matriz/matriz_blocks.py:30-45 | an nA×nB result whose entry (i, j) is the similarity of A[i] and B[j] |
| MatrizBlocks.EscribirBloque | src/construccion_matriz/matriz_blocks.py:87-90 | writing one block extends the finished row prefix to the block's end |
| MatrizBlocks.ConstruirMatrizSimilitudBlocks | src/construccion_matriz/matriz_blocks.py:52-92 | ValueError exactly for block size 0, a used pool of fewer than one process, or (with a block) data rows that are neither `len(lista_mun)` nor 1; otherwise the axis is `lista_mun`; with one data row per id every cell (a, b) is the similarity of rows a and b, symmetric with diagonal 1; one data row against more ids fills row 0 with 1; a negative block size leaves all zeros |
| MatrizBlocks.EjemplosDeFalla | src/construccion_matriz/matriz_blocks.py:52-92 | three ids on one data row build, two ids on three data rows fail, a zero pool fails only when used, and a negative block size never reaches a write |
| MatrizPares.ResultadosCeldas | src/construccion_matriz/matriz_numerica.py:48-50 | the n(n+1)/2 results each aim at one cell of the upper triangle, once, so after the merge cell (a, b) holds the score of (min, max) |
| MatrizPares.Multiplos | src/construccion_matriz/matriz_numerica.py:43-45 | the callback reports exactly at the counts 1..m that are multiples of `cada`, in increasing order |
| MatrizPares.Reconstruir | src/construccion_matriz/matriz_numerica.py:38-45 | the callback loop: `count % 0` fails at the first result; otherwise the loop fails exactly when the reporter does; on success the matrix is the symmetric last-wins merge and the reporter is in the state the reported counts leave it |
| MatrizPares.CadaLlamadaInforma | src/construccion_matriz/matriz_numerica.py:33-45 | with a positive `cada` every call the callback makes is printed, because successive multiples lie exactly `cada` apart |
| MatrizPares.MatrizDePares | src/construccion_matriz/matriz_numerica.py:33-55 | the shared pair loop fails exactly when `n_jobs = 0` (ValueError from `Parallel`, raised first) or `cada = 0` with at least one id (ZeroDivisionError); otherwise cell (a, b) is the score of (min, max) and the matrix is symmetric |
| MatrizNumerica.SimPar | src/construccion_matriz/matriz_numerica.py:18-30 | the score is NaN exactly when the first id's `TIPO_N` is NaN, or the second's is NaN and the first's is not 0; otherwise it lies in [-1, 1] |
| MatrizNumerica.SimParPropiedades | src/construccion_matriz/matriz_numerica.py:18-30 | with numeric units the score is symmetric; an id scores 1 against itself, or NaN when its unit is NaN; the score is 1 exactly when the two midpoints of each range and the two units agree and the unit is a number |
| MatrizNumerica.SimParNaNAsimetrica | src/construccion_matriz/matriz_numerica.py:18-30 | a NaN unit next to a unit of 0 scores a number when it comes second and NaN when it comes first |
| MatrizNumerica.SimParAusentes | src/construccion_matriz/matriz_numerica.py:25-27 | two ids missing from every dict default to 0.0 and score 1 |
| MatrizNumerica.Rango | src/construccion_matriz/matriz_numerica.py:14-17 | an id missing from the dict gives 0.0 |
| MatrizNumerica.Unidad | src/construccion_matriz/matriz_numerica.py:18 | an id missing from the unit dict gives 0.0 |
| MatrizNumerica.ConstruirMatrizNumerica | src/construccion_matriz/matriz_numerica.py:6-55 | ValueError exactly for `n_jobs = 0`, else ZeroDivisionError exactly for `cada = 0` with ids; otherwise cells (a, b) and (b, a) hold `sim_pair` of the smaller index against the larger, NaN included; the matrix is symmetric, number cells lie in [-1, 1], the diagonal is 1 except NaN for an id with a NaN unit, and between ids with numeric units cell (a, b) is the score of (a, b) |
| MatrizNumerica.LeerCeldas | src/construccion_matriz/matriz_numerica.py:38-42 | cell (a, b) holds the float score of the ordered pair (min, max), NaN included |
| MatrizNumerica.CeldasSimetricas | src/construccion_matriz/matriz_numerica.py:41-42 | writing each pair's score to (i, j) and (j, i) gives a symmetric matrix with number cells in [-1, 1] |
| MatrizNumerica.CeldasDiagonal | src/construccion_matriz/matriz_numerica.py:27-29 | a diagonal cell is 1, or NaN for an id whose unit is NaN |
| MatrizNumerica.CeldasEnOrden | src/construccion_matriz/matriz_numerica.py:21-30 | between ids with numeric units, cell (a, b) is the score of (a, b) whichever index is smaller |
| MatrizCategorica.Edafologia | src/construccion_matriz/matriz_categorica.py:12-13 | a missing id gives ""; a present one gives a joined text of at least 5 characters |
| MatrizCategorica.SimPar | src/construccion_matriz/matriz_categorica.py:18-30 | an id absent from both dicts scores 0 against anything |
| MatrizCategorica.SimParPropiedades | src/construccion_matriz/matriz_categorica.py:18-30 | the mean of the two text scores lies in [0, 1] and is symmetric |
| MatrizCategorica.ConstruirMatrizCategorica | src/construccion_matriz/matriz_categorica.py:7-56 | ValueError exactly for `n_jobs = 0`, else ZeroDivisionError exactly for `cada = 0` with ids; otherwise a symmetric matrix of `sim_pair` scores in [0, 1], with 0 on the diagonal of ids absent from both tables |
| MatrizSeries.SimilitudSeries | src/construccion_matriz/matriz_series.py:8-15 | 0 when either series is all NaN; otherwise ValueError exactly when the lengths differ, 0 when the correlation is NaN, else the correlation |
| MatrizSeries.SimilitudSeriesAcotada | src/construccion_matriz/matriz_series.py:8-15 | a score that is computed lies in [-1, 1] |
| MatrizSeries.SerieDeLineaUnica | src/construccion_matriz/matriz_series.py:26-29 | the series of an id on one row is that row's values |
| MatrizSeries.EscriturasUnicas | src/construccion_matriz/matriz_series.py:34-43 | with unique ids there are n(n-1)/2 writes, and cell (a, b) holds the score of (min, max) off the diagonal and 0 on it |
| MatrizSeries.EscriturasDuplicadas | src/construccion_matriz/matriz_series.py:26-43 | with a duplicated id `cves.index` sends the write to the first occurrence, which holds the score of the concatenated series, and the second row stays 0 |
| MatrizSeries.DuplicadoFalla | src/construccion_matriz/matriz_series.py:8-43 | [("A", [1, 2]), ("A", [3, 4]), ("B", [5, 7])] compares four values of "A" with two of "B", so the build raises |
| MatrizSeries.MismaLongitudNoFalla | src/construccion_matriz/matriz_series.py:8-43 | unique ids on rows of one common length never raise |
| MatrizSeries.ConstruirMatrizSimilitud | src/construccion_matriz/matriz_series.py:24-48 | ValueError exactly when some pair of lines compares series of different lengths; otherwise the axis is the id column, the matrix is symmetric and the last-wins merge, and with unique ids the diagonal is 0 and cell (a, b) is the correlation score of rows a and b |
| TdaMatriz.NumJobs | src/construccion_matriz/tda_matriz.py:36-37 | the default job count `max(1, cpu - 1)` is at least 1; a given count is kept; the count is 0 exactly when 0 was given |
| TdaMatriz.ProcesarI | src/construccion_matriz/tda_matriz.py:39-44 | row `i` is 0 left of the diagonal and the diagram distance from it on |
| TdaMatriz.ConstruirMatrizTda | src/construccion_matriz/tda_matriz.py:36-51 | ValueError exactly when `n_jobs` is 0; otherwise writing `dset[i, i:]` and `dset[i:, i]` for every row gives a symmetric matrix with both (a, b) and (b, a) holding the distance of diagrams a and b, and the axis is the ids cut to 5 characters |
| TdaMatriz.MatrizTdaDistancia | src/construccion_matriz/tda_matriz.py:49-51 | for a distance the diagonal is 0 and every cell is nonnegative |
| TdaUtils.TakensEmbedding | src/utils/tda_utils.py:11-20 | ValueError exactly when M = N − (dimension−1)·delay ≤ 0; otherwise M rows of `dimension` columns with entry (r, c) = X[c·delay + r], every index inside X |
| TdaUtils.IndicesEnRango | src/utils/tda_utils.py:13-19 | when M > 0 every index c·delay + r read by the slices lies below N |
| TdaUtils.TakensDimensionUno | src/utils/tda_utils.py:18-19 | with dimension 1 the embedding is X as one column |
| MatrizGral.Faltante | src/construccion_matriz/matriz_gral.py:44 | finds a label of the order missing from the index, or none exactly when every label is present |
| MatrizGral.AlinearMatriz | src/construccion_matriz/matriz_gral.py:40-44 | `df.loc[orden, orden]`: KeyError exactly when a label is missing; otherwise cell (a, b) is the old cell of labels orden[a], orden[b] |
| MatrizGral.AlinearIdentidad | src/construccion_matriz/matriz_gral.py:40-44 | re-ordering to the matrix's own unique index changes nothing |
| MatrizGral.AlinearConservaEtiquetas | src/construccion_matriz/matriz_gral.py:40-44 | re-ordering keeps each labelled cell and keeps symmetry |
| MatrizGral.ConstruirMatrizGeneral | src/construccion_matriz/matriz_gral.py:51-69 | AssertionError exactly on unequal counts; IndexError with no matrices; ZeroDivisionError exactly on a zero weight sum; a shape error exactly on differing sizes; otherwise the axis is the first matrix's index and cell (i, j) is Σ (w_k/S)·M_k[i][j] |
| MatrizGral.PesosNormalizadosSuman | src/construccion_matriz/matriz_gral.py:59-60 | normalised weights sum to 1 |
| MatrizGral.PesosInvariantesEscala | src/construccion_matriz/matriz_gral.py:59-60 | scaling all weights by c ≠ 0 leaves the normalised weights unchanged |
| MatrizGral.PesosEjemplo | src/construccion_matriz/matriz_gral.py:59-60 | weights [2, 2] and [1, 1] both normalise to [0.5, 0.5] |
| MatrizGral.FusionLineal | src/construccion_matriz/matriz_gral.py:59-65 | fusing with weights divided by S is the plain weighted sum divided by S |
| MatrizGral.FusionPermutacion | src/construccion_matriz/matriz_gral.py:62-65 | permuting the (matrix, weight) pairs does not change the fused cell |
| MatrizGral.FusionPropiedades | src/construccion_matriz/matriz_gral.py:62-65 | symmetric inputs give a symmetric output; inputs in [0, 1] with nonnegative weights give an output in [0, 1] |
| MatrizGral.SumarPonderada | src/construccion_matriz/matriz_gral.py:64-65 | `matriz_final += w * df.values` adds the weighted cell to each cell |
| Vecinos.CandidatosPropiedades | src/analisis/analisis_matriz_completa.py:16 | the row without the id itself holds the n−1 other labels once each, with their scores |
| Vecinos.Mejores | src/analisis/analisis_matriz_completa.py:17-19 | sort descending then `head`: a prefix of the sorted row with Python's length rule |
| Vecinos.MejoresPropiedades | src/analisis/analisis_matriz_completa.py:17-19 | the chosen are in non-increasing order, come from the row, keep labels distinct, and no excluded candidate scores above a chosen one |
| MatrizCompleta.ObtenerSimilares | src/analisis/analisis_matriz_completa.py:12-19 | ValueError exactly when the id is not in the index; otherwise min(top_n, n−1) distinct other labels by non-increasing score, none excluded scoring higher, never the id itself |
| MatrizCompleta.SimilaresPropiedades | src/analisis/analisis_matriz_completa.py:16-19 | the ranked candidates exclude the id, are distinct, and carry their row scores in non-increasing order |
| MatrizCompleta.ObtenerSeriesVecinos | src/analisis/analisis_matriz_completa.py:27-28 | exactly the rows whose id is a neighbour |
| MatrizCompleta.SeriesVecinosConcat | src/analisis/analisis_matriz_completa.py:27-28 | filtering distributes over concatenation, so the original row order is kept |
| MatrizCompleta.PromediarSeries | src/analisis/analisis_matriz_completa.py:36-43 | one row per instant with a value, instants strictly increasing, each the mean of the values at that instant |
| MatrizCompleta.PromedioAcotado | src/analisis/analisis_matriz_completa.py:36-43 | each mean lies between the bounds of the values it averages |
| MatrizCompleta.ImputarSerie | src/analisis/analisis_matriz_completa.py:51-55 | keeps the instants and means and labels every row with the missing id |
| MatrizCompleta.RellenarUnMunicipio | src/analisis/analisis_matriz_completa.py:63-73 | every imputed row carries the missing id; failures are ValueErrors |
| MatrizCompleta.RellenarPropiedades | src/analisis/analisis_matriz_completa.py:63-73 | fails exactly when the id is not in the matrix or no neighbour has rows; otherwise the imputed series of the neighbours' mean, in increasing time |
| MatrizCompleta.Faltantes | src/analisis/analisis_matriz_completa.py:84-85 | the listed ids without data, in list order |
| MatrizCompleta.FaltantesConcat | src/analisis/analisis_matriz_completa.py:85 | the filter keeps list order |
| MatrizCompleta.ImputarFaltantes | src/analisis/analisis_matriz_completa.py:93-96 | the loop aborts on the first failing id with its error; otherwise it concatenates the blocks in order |
| MatrizCompleta.AplanarIds | src/analisis/analisis_matriz_completa.py:98-101 | every concatenated row carries one of the imputed ids |
| MatrizCompleta.CompletarDataset | src/analisis/analisis_matriz_completa.py:81-104 | fails exactly when some missing id fails, with the first failure's error; otherwise the original rows unchanged followed by one block per missing id, each drawn from the original rows only; no missing ids returns the input |
| GrafoKnn.TopPropiedades | src/utils/grafo.py:37 | `fila.drop(i).nlargest(k)`: min(k, n−1) other labels, distinct, with their scores in non-increasing order, none excluded scoring higher |
| GrafoKnn.ConstruirGrafoKnn | src/utils/grafo.py:17-44 | every label is a node; every edge joins two distinct nodes with the weight from the row that inserted it; no edge twice; the first insertion wins; every chosen neighbour is linked; at most n·k edges |
| GrafoKnn.GrafoCorrecto | src/utils/grafo.py:34-42 | the loop invariant at the end gives the graph's edge properties |
| GrafoKnn.GradoMinimo | src/utils/grafo.py:34-42 | each node has at least min(k, n−1) neighbours |
| AnalisisNumerico.SimilitudProporcional | src/analisis/analisis_numerico.py:11-19 | 1 exactly for equal inputs; within [-1, 1]; nonnegative for inputs of the same sign |
| AnalisisNumerico.SimilitudProporcionalSimetrica | src/analisis/analisis_numerico.py:11-19 | the similarity is symmetric |
| AnalisisNumerico.SinDivisionPorCero | src/analisis/analisis_numerico.py:15-19 | past the (0, 0) guard the divisor is positive, so the `else 0.0` branch cannot be reached |
| AnalisisNumerico.SimilitudProporcionalNegativa | src/analisis/analisis_numerico.py:17-19 | opposite signs can go negative: (5, −5) gives −1 |
| AnalisisNumerico.MaxPy | src/analisis/analisis_numerico.py:17 | Python's `max`: the larger of two numbers, and the first argument whenever NaN is involved |
| AnalisisNumerico.SimilitudProporcionalF | src/analisis/analisis_numerico.py:11-19 | on two numbers it is `SimilitudProporcional`; a NaN first argument gives NaN; a NaN second argument gives NaN, except 0.0 against a first argument of 0 |
| AnalisisNumerico.SimilitudProporcionalNaNAsimetrica | src/analisis/analisis_numerico.py:15-19 | (0, NaN) gives 0.0 and (NaN, 0) gives NaN |
| AnalisisNumerico.Media3 | src/analisis/analisis_numerico.py:98 | the mean of three scores is NaN exactly when one of them is, and lies in [-1, 1] when they do |
| AnalisisNumerico.Media3Uno | src/analisis/analisis_numerico.py:98 | the mean of three numeric scores at most 1 is 1 exactly when all three are 1 |
| AnalisisNumerico.AFloat | src/analisis/analisis_numerico.py:21-26 | `float(v)` of a value that `es_numerico` accepts, NaN included, is NaN exactly for a NaN cell |
| AnalisisNumerico.RangoAPromedio | src/analisis/analisis_numerico.py:31-36 | a non-string, or a string without exactly one '-', gives 0.0; with one '-' a part that does not parse after strip gives 0.0, and two parsing parts give their mean |
| AnalisisNumerico.RangoAPromedioDeRango | src/analisis/analisis_numerico.py:31-36 | "a-b" with two parseable parts gives their mean |
| AnalisisNumerico.RangoAPromedioMalFormado | src/analisis/analisis_numerico.py:31-36 | "1-2-3" and "-5" give 0.0 |
| AnalisisNumerico.ComparaValoresNum | src/analisis/analisis_numerico.py:21-50 | two numeric values (a NaN cell is numeric) are compared as numbers by `SimilitudProporcionalF`, even when they are also ranges; otherwise two ranges by their means; a range against a non-range number by its mean; anything else scores 0; a number result lies in [-1, 1]; NaN comes only from a NaN cell, and a NaN first value against a number or range gives NaN |
| AnalisisNumerico.NumeroAntesQueRango | src/analisis/analisis_numerico.py:38-45 | "-5" is both numeric and a range; against 5 it scores -1 as a number, where its range mean 0.0 would have scored 0 |
| AnalisisNumerico.ComparaValoresNumSimetrica | src/analisis/analisis_numerico.py:38-50 | without NaN cells the dispatch is symmetric in its arguments |
| AnalisisNumerico.ComparaValoresNumNaNAsimetrica | src/analisis/analisis_numerico.py:42-43 | a NaN cell against the number 0 scores 0.0 when it comes second and NaN when it comes first |
| AnalisisNumerico.ComparaValoresNumReflexiva | src/analisis/analisis_numerico.py:38-50 | a numeric or range value compared with itself scores 1 exactly when it is not a NaN cell; a NaN cell scores NaN |
| AnalisisNumerico.ComparaMunicipiosNum | src/analisis/analisis_numerico.py:61-98 | None exactly when one of the six lookups of the normalised ids is empty; otherwise a number score lies in [-1, 1], a NaN `TIPO_N` of the first id gives NaN, and without NaN cells the score is a number |
| AnalisisNumerico.Combinar | src/analisis/analisis_numerico.py:78-98 | None exactly when a looked-up cell is missing; a NaN first unit gives NaN; without NaN cells the score is a number in [-1, 1] |
| AnalisisNumerico.Puntaje | src/analisis/analisis_numerico.py:94-98 | the mean of the three component scores: NaN for a NaN first unit, a number in [-1, 1] without NaN cells |
| AnalisisNumerico.PuntajeSimetrico | src/analisis/analisis_numerico.py:94-98 | without NaN cells the mean does not depend on the order of the two rows |
| AnalisisNumerico.CombinarSimetrica | src/analisis/analisis_numerico.py:78-98 | without NaN cells the combined score does not depend on the order of the two rows |
| AnalisisNumerico.ComparaMunicipiosNumSimetrica | src/analisis/analisis_numerico.py:61-98 | without NaN cells the comparison is symmetric in the two municipalities |
| AnalisisCategorico.LimpiarTexto | src/analisis/analisis_categorico.py:19-23 | None and NaN give ""; a text gives its lower-cased form with the surrounding whitespace removed and nothing else removed (the strip of the lower-cased text); the result has no surrounding whitespace and is lower case |
| AnalisisCategorico.LimpiarTextoIdempotente | src/analisis/analisis_categorico.py:19-23 | cleaning a cleaned text changes nothing |
| AnalisisCategorico.ComparaEdafologia | src/analisis/analisis_categorico.py:30-41 | 0 when either cleaned text is empty, otherwise the ratio of the cleaned texts |
| AnalisisCategorico.ComparaTopoforma | src/analisis/analisis_categorico.py:44-55 | 0 when either cleaned text is empty, otherwise the Jaro-Winkler score of the cleaned texts |
| AnalisisCategorico.ComparadoresAcotados | src/analisis/analisis_categorico.py:30-55 | both scorers lie in [0, 1] and are symmetric |
| AnalisisCategorico.UnirEdafologia | src/analisis/analisis_categorico.py:62-65 | six fields joined by spaces: at least 5 characters |
| AnalisisCategorico.UnirEdafologiaSeparable | src/analisis/analisis_categorico.py:62-65 | splitting the joined text on spaces gives back the six cleaned fields when none holds a space |
| AnalisisCategorico.UnirEdafologiaVacia | src/analisis/analisis_categorico.py:35-65 | six empty fields give "     ", which cleans back to "" and scores 0 |
| AnalisisCategorico.ModeloGral | src/analisis/analisis_categorico.py:79-82 | the score is 0 when both texts of the first municipality are empty, and lies in [0, 1] when both metrics do |
| AnalisisCategorico.ModeloGralAcotado | src/analisis/analisis_categorico.py:79-82 | the mean of the two scores lies in [0, 1] and is symmetric |
| AnalisisCategorico.ComparaMunicipios | src/analisis/analisis_categorico.py:89-116 | None exactly when one of the four lookups of the normalised ids is empty |
| AnalisisCategorico.ComparaMunicipiosAcotada | src/analisis/analisis_categorico.py:89-116 | a score lies in [0, 1], and the comparison is symmetric |
| AnalisisSeries.NormalizarCvegeo | src/analisis/analisis_series.py:13-15 | the id is stripped, then padded to length max(5, len) with leading zeros for digit strings |
| AnalisisSeries.NormalizarCvegeoIgnoraEspacios | src/analisis/analisis_series.py:13-15 | surrounding whitespace does not change the normalised id |
| AnalisisSeries.LimpiarSerie | src/analisis/analisis_series.py:18-29 | ValueError exactly when no entry is numeric; otherwise the numeric entries, each once and in their original order (entry j is the value at the j-th converting position) |
| AnalisisSeries.Posiciones | src/analisis/analisis_series.py:23-24 | the positions kept by `dropna` are increasing, all convert, and every converting position is among them |
| AnalisisSeries.NumericosEnOrden | src/analisis/analisis_series.py:23-24 | the kept values are exactly the converted entries at those positions, in order |
| AnalisisSeries.NumericosConcat | src/analisis/analisis_series.py:23-24 | dropping non-numeric entries keeps the original order |
| AnalisisSeries.NumericosTodos | src/analisis/analisis_series.py:23-24 | an all-numeric series keeps every value |
| AnalisisSeries.AlinearSeries | src/analisis/analisis_series.py:32-38 | two prefixes of length min(len s1, len s2) |
| AnalisisSeries.AlinearSeriesConservaCorta | src/analisis/analisis_series.py:32-38 | the shorter series is kept whole |
| AnalisisSeries.ComparaSeriesArrays | src/analisis/analisis_series.py:64-80 | the score lies in (0, 1] and is 1 exactly when one array is a prefix of the other |
| AnalisisSeries.ComparaSeriesArraysSimetrica | src/analisis/analisis_series.py:64-80 | the score is symmetric |
| Agrupacion.Claves | src/analisis/analisis_diario.py:25-27 | the group keys of a group-by: strictly increasing and exactly the keys present |
| Agrupacion.AgruparSuma | src/analisis/analisis_diario.py:25 | one row per key, in key order, with the sum of the group's present values |
| Agrupacion.AgruparMedia | src/analisis/analisis_diario.py:27 | one row per key, in key order, with the mean of the group's present values |
| Agrupacion.MediaGrupo | src/analisis/analisis_diario.py:27 | the mean is NaN exactly when the group has no present value |
| Agrupacion.AgruparSumaTotal | src/analisis/analisis_diario.py:25 | summing by groups keeps the total of the present values |
| Agrupacion.MediaAcotada | src/analisis/analisis_diario.py:27 | a group's mean lies between the bounds of its values |
| AnalisisMensual.ColumnasMes | src/analisis/analisis_mensual.py:9-12 | each `YYYY-MM` label is kept as often as it appears, and nothing else is kept |
| AnalisisMensual.ColumnaSeleccionada | src/analisis/analisis_mensual.py:9-12 | a column is selected exactly when it is a string of the form `YYYY-MM` |
| AnalisisMensual.EjemplosDeMes | src/analisis/analisis_mensual.py:11 | "2020-13" and "1999-00" pass; "2020-1", "2020/01", "20a0-01" and non-strings do not |
| AnalisisMensual.Ordenar | src/analisis/analisis_mensual.py:15 | `sorted` gives an ordered permutation |
| AnalisisMensual.OrdenadaUnica | src/analisis/analisis_mensual.py:15 | there is only one ordered permutation |
| AnalisisMensual.OrdenarEsLaPermutacionOrdenada | src/analisis/analisis_mensual.py:15 | the sort equals any ordered permutation of its input |
| AnalisisMensual.ValorOrden | src/analisis/analisis_mensual.py:15 | for equal-length digit strings, string order is numeric order |
| AnalisisMensual.OrdenCronologico | src/analisis/analisis_mensual.py:15 | for `YYYY-MM` labels, string order is (year, month) order |
| AnalisisMensual.MesesOrdenados | src/analisis/analisis_mensual.py:9-15 | the selected month columns, each as often as it appears, in chronological order |
| AnalisisMensual.EjemploCronologico | src/analisis/analisis_mensual.py:15 | "2021-01", "2020-13", "2020-12" sort to "2020-12", "2020-13", "2021-01" |
| AnalisisMensual.FilasIncompletas | src/analisis/analisis_mensual.py:28 | the count of rows with a missing month is at most the rows and is 0 exactly when none has one |
| AnalisisMensual.MesesIncompletos | src/analisis/analisis_mensual.py:29 | the count of months with a missing row is at most the months and is 0 exactly when none has one |
| AnalisisMensual.FilasIncompletasCuenta | src/analisis/analisis_mensual.py:28 | the row count is the size of the set of rows with a missing month |
| AnalisisMensual.MesesIncompletosCuenta | src/analisis/analisis_mensual.py:29 | the month count is the size of the set of month columns with a missing row |
| AnalisisMensual.Reportar | src/analisis/analisis_mensual.py:18-29 | input and municipality counts are the rows; month counts are the selected columns; the sample is the first min(5, n) months; the missing counts are the numbers of rows and of month columns with a missing cell, each 0 exactly when no month cell is missing |
| AnalisisMensual.SinMeses | src/analisis/analisis_mensual.py:18-29 | a table without month columns reports no months and no missing values |
| AnalisisDiario.TieneHoraSiCambia | src/analisis/analisis_diario.py:7-11 | more than one distinct hour or minute exactly when two dated rows differ in hour or in minute |
| AnalisisDiario.MediodiaEsDiario | src/analisis/analisis_diario.py:7-11 | all stamps at 12:00 count as daily |
| AnalisisDiario.DosHorasEsHorario | src/analisis/analisis_diario.py:7-11 | two stamps an hour apart count as hourly |
| AnalisisDiario.MenorClaveOrden | src/analisis/analisis_diario.py:25-27 | the (id, day) group order is a strict total order |
| AnalisisDiario.ConvertirADiario | src/analisis/analisis_diario.py:17-33 | one midnight row per (id, day) of the dated rows, in increasing key order; with "sum" the group's sum, with any other method the group's mean |
| AnalisisDiario.DiarioSinHora | src/analisis/analisis_diario.py:17-33 | the converted series is daily |
| AnalisisDiario.DiarioSumaTotal | src/analisis/analisis_diario.py:24-25 | with "sum" the output total equals the total of the dated input values |
| AnalisisDiario.DiarioMediaAcotada | src/analisis/analisis_diario.py:26-27 | with the mean every daily value lies between the bounds of the input values |
| AnalisisDiario.MetodoAutomatico | src/analisis/analisis_diario.py:90-99 | a method other than "auto" is used verbatim |
| AnalisisDiario.MetodoAutomaticoSuma | src/analisis/analisis_diario.py:90-99 | "auto" selects "sum" exactly when the lower-cased name holds "prec" or "eva", else "mean" |
| AnalisisDiario.EjemplosDeMetodo | src/analisis/analisis_diario.py:90-99 | "PREC" and "evavt" sum, "t2m" averages, and an explicit "sum" is kept |
| AnalisisDiario.Diarizar | src/analisis/analisis_diario.py:87-101 | the result is daily; a daily input is returned unchanged; an hourly input is converted, and with a summing method its total is preserved |

## Left out

- File I/O is not modelled: parquet and HDF5 reads and writes, and the module-level loads of the tables and the similarity matrix. Tables and matrices are parameters and results.
- Parallelism is not modelled. Process pools, joblib and executors are sequential loops. The order-independence lemmas cover arrival order.
- Floating point is not modelled: `float32` storage and rounding are absent. Infinities are not modelled, and `parse` returns a real, so a string that `float()` reads as `nan` or `inf` is not modelled.
- NaN is modelled in these places only: the numeric comparators and the numeric matrix builder (`AnalisisNumerico.Flotante.NaN`), the missing values of the series, monthly and daily tables, and the imputed `variable` column (`Option` or NaN-aware sums). The labelled similarity matrices (`MatrizGral.Etiquetada`, over `seq<seq<real>>`) hold numbers only. So the NaN cells that `construir_matriz_numerica` writes for a NaN `TIPO_N` are outside the domain of the members that read a saved matrix, listed below.
- Some numerics are parameters with stated assumptions, not definitions:
  - `np.linalg.norm` and `sqrt`;
  - `np.corrcoef`;
  - Levenshtein ratio and Jaro-Winkler;
  - the sliced-Wasserstein diagram distance;
  - `float()` and `pd.to_numeric`.
- MinMax scaling in `construir_matriz_optimizada` is not modelled. The model starts from the matrix the rows are computed from.
- The interpolation steps are not modelled: pandas linear interpolation of the monthly columns, and the daily interpolation.
- `Progreso.paso` is modelled for its state only. The clock, the ETA computation and the printed line are left out; the model keeps only the division `i / total`, which fails on a zero total.
- The pipeline's `print` calls are not modelled. This includes the missing-value counts printed by the daily analysis.
- Strings are ASCII only: `strip` removes the ASCII characters `str.isspace()` accepts (tab to carriage return, 0x1C-0x1F and space), and `lower` and `isdigit` use ASCII letters and digits. Non-ASCII whitespace such as U+00A0 is not removed.
- `str(valor)` of non-string cells is not modelled. Table cells are already strings, NaN or missing.
- pandas `sort_values` ties are modelled by a stable sort. The default quicksort is not stable; the stated properties do not depend on tie order.
- MatrizCompleta.ObtenerSimilares: requires unique index labels. With duplicated labels, pandas `loc` returns several rows.
- MatrizCompleta.ObtenerSimilares: the matrix cells are NaN-free. With NaN cells, as in a numeric matrix read from disk, `sort_values(ascending=False)` ranks NaN after every number, so a NaN neighbour is taken only when fewer than `top_n` numbers remain.
- GrafoKnn.ConstruirGrafoKnn: requires unique index labels, for the same reason.
- GrafoKnn.ConstruirGrafoKnn: the matrix cells are NaN-free. With NaN cells, `nlargest(k)` ranks NaN after every number and keeps it only when fewer than `k` numbers remain; such an edge gets weight NaN.
- AnalisisMensual.Reportar: requires unique column labels. With duplicated labels, pandas selection repeats columns.
- MatrizGral.ConstruirMatrizGeneral: any size mismatch is a shape error. numpy would also broadcast a 1×1 matrix onto the first one.
- MatrizGral.ConstruirMatrizGeneral: the matrix cells are NaN-free. With a NaN cell in any input, `matriz_final += w * df.values` makes the fused cell NaN whatever the weights.
- MatrizGral.AlinearMatriz: with a duplicated index label the first occurrence is used. pandas would return repeated rows.
- The lines of `construir_matriz_tda_from_cache` outside the write-back are not modelled. The cache read uses `pickle` without importing it, and the final mirror loop writes to an undefined `d_matriz`.
- `construir_matriz_general` rebinds the weight list to a new list and does not mutate its inputs. The model is pure, so this needs no separate statement.
- In `completar_dataset`, the imputed blocks carry only the columns `valid_time`, `variable` and `CVEGEO`. pandas fills the other columns with NaN on concatenation; the model's records have just these fields.
- The daily analysis is left out around the conversion:
  - `to_datetime(..., errors="coerce")` is not modelled; an unparseable stamp is an undated row;
  - the initial sort by id and date is not modelled;
  - the steps after the conversion are not modelled.
- `normalizar_cvegeo` in `analisis_categorico` wraps `zfill` in a `try` that can never fail on a string, so `Helpers.NormalizarCvegeo` models both.
- `comparar_municipios_detallado` only formats a report string and is not modelled.
- The benchmarking harnesses, the TDA cache, the persistence images and the inspection utilities are not modelled.

=== FILE: agrupacion.dfy ===
/** Group-by with sorted keys, shared by `promediar_series`
    (`src/analisis/analisis_matriz_completa.py`, a `pivot_table` with the
    mean) and `convertir_a_diario` (`src/analisis/analisis_diario.py`, a
    `groupby` with the sum or the mean).

    pandas sorts the group keys and skips missing values: a value is
    `Option<real>`, `None` for NaN. The key order is a parameter `lt` that
    must be a strict total order. */
module Agrupacion {
  import opened Wrappers
  import opened Seqs

  ghost predicate OrdenEstricto<K(!new)>(lt: (K, K) -> bool) {
    && (forall a :: !lt(a, a))
    && (forall a, b, c :: lt(a, b) && lt(b, c) ==> lt(a, c))
    && (forall a, b :: a == b || lt(a, b) || lt(b, a))
  }

  /** Keys in strictly increasing order, hence without repeats. */
  predicate Creciente<K>(lt: (K, K) -> bool, ks: seq<K>) {
    forall i, j :: 0 <= i < j < |ks| ==> lt(ks[i], ks[j])
  }

  /** Inserts `k` into an increasing sequence unless it is already there. */
  function InsertarUnico<K(==, !new)>(lt: (K, K) -> bool, k: K, ks: seq<K>): (r: seq<K>)
    requires OrdenEstricto(lt) && Creciente(lt, ks)
    ensures Creciente(lt, r)
    ensures forall x :: x in r <==> x == k || x in ks
  {
    if |ks| == 0 then [k]
    else if k == ks[0] then ks
    else if lt(k, ks[0]) then
      assert forall j :: 0 <= j < |ks| ==> lt(k, ks[j]);
      [k] + ks
    else
      var resto := InsertarUnico(lt, k, ks[1..]);
      assert forall x :: x in resto ==> lt(ks[0], x) by {
        forall x | x in resto
          ensures lt(ks[0], x)
        {
          if x != k {
            var j :| 0 <= j < |ks[1..]| && ks[1..][j] == x;
            assert ks[j + 1] == x;
          }
        }
      }
      assert forall x :: x in ks <==> x == ks[0] || x in ks[1..];
      var r := [ks[0]] + resto;
      assert forall j :: 1 <= j < |r| ==> r[j] in resto;
      r
  }

  /** The distinct keys in increasing order: the groups' keys. */
  function Claves<K(==, !new)>(lt: (K, K) -> bool, filas: seq<(K, Option<real>)>): (ks: seq<K>)
    requires OrdenEstricto(lt)
    ensures Creciente(lt, ks)
    ensures forall x :: x in ks <==> x in Primeros(filas)
  {
    if |filas| == 0 then []
    else
      assert forall x :: x in Primeros(filas) <==> x == filas[0].0 || x in Primeros(filas[1..]) by {
        assert Primeros(filas) == [filas[0].0] + Primeros(filas[1..]);
      }
      InsertarUnico(lt, filas[0].0, Claves(lt, filas[1..]))
  }

  lemma CrecienteDistinto<K(!new)>(lt: (K, K) -> bool, ks: seq<K>)
    requires OrdenEstricto(lt) && Creciente(lt, ks)
    ensures Distinct(ks)
  {
  }

  /** The present values of group `k`, in row order. */
  function Presentes<K(==)>(filas: seq<(K, Option<real>)>, k: K): (xs: seq<real>) {
    if |filas| == 0 then []
    else (if filas[0].0 == k && filas[0].1.Some? then [filas[0].1.value] else []) + Presentes(filas[1..], k)
  }

  /** All present values, in row order. */
  function Todos<K>(filas: seq<(K, Option<real>)>): (xs: seq<real>) {
    if |filas| == 0 then []
    else (if filas[0].1.Some? then [filas[0].1.value] else []) + Todos(filas[1..])
  }

  /** `.sum()` of a group: NaN skipped, an all-NaN group sums to 0. */
  function SumaGrupo<K(==)>(filas: seq<(K, Option<real>)>, k: K): real {
    Sum(Presentes(filas, k))
  }

  /** `.mean()` of a group: NaN skipped, an all-NaN group has mean NaN. */
  function MediaGrupo<K(==)>(filas: seq<(K, Option<real>)>, k: K): (m: Option<real>)
    ensures m.None? <==> |Presentes(filas, k)| == 0
  {
    var xs := Presentes(filas, k);
    if |xs| == 0 then None else Some(Sum(xs) / |xs| as real)
  }

  lemma SumaCons(x: real, xs: seq<real>)
    ensures Sum([x] + xs) == x + Sum(xs)
  {
    assert ([x] + xs)[1..] == xs;
  }

  /** The sums of the groups add up to the sum of all present values, for
      any repeat-free key list that holds every row's key. */
  lemma {:induction false} SumaPorGrupos<K>(filas: seq<(K, Option<real>)>, ks: seq<K>)
    requires Distinct(ks)
    requires forall i :: 0 <= i < |filas| ==> filas[i].0 in ks
    ensures SumOf(ks, k => SumaGrupo(filas, k)) == Sum(Todos(filas))
  {
    if |filas| == 0 {
      SumOfEqual(ks, k => SumaGrupo(filas, k), k => 0.0);
      SumOfCero(ks);
    } else {
      var resto := filas[1..];
      SumaPorGrupos(resto, ks);
      var v := if filas[0].1.Some? then filas[0].1.value else 0.0;
      var ind := (k: K) => if k == filas[0].0 then v else 0.0;
      forall k | k in ks
        ensures SumaGrupo(filas, k) == ind(k) + SumaGrupo(resto, k)
      {
        if filas[0].0 == k && filas[0].1.Some? {
          SumaCons(v, Presentes(resto, k));
        } else {
          assert Presentes(filas, k) == [] + Presentes(resto, k) == Presentes(resto, k);
        }
      }
      SumOfSuma(ks, k => SumaGrupo(filas, k), ind, k => SumaGrupo(resto, k));
      assert filas[0].0 in ks;
      SumOfIndicador(ks, filas[0].0, v, ind);
      if filas[0].1.Some? {
        SumaCons(v, Todos(resto));
      } else {
        assert Todos(filas) == [] + Todos(resto) == Todos(resto);
      }
    }
  }

  lemma {:induction false} SumOfCero<T>(xs: seq<T>)
    ensures SumOf(xs, (x: T) => 0.0) == 0.0
  {
    if |xs| > 0 {
      SumOfCero(xs[1..]);
    }
  }

  lemma {:induction false} SumOfSuma<T>(xs: seq<T>, h: T -> real, f: T -> real, g: T -> real)
    requires forall x :: x in xs ==> h(x) == f(x) + g(x)
    ensures SumOf(xs, h) == SumOf(xs, f) + SumOf(xs, g)
  {
    if |xs| > 0 {
      SumOfSuma(xs[1..], h, f, g);
    }
  }

  /** Summing a function that is `v` at one key and 0 elsewhere gives `v`. */
  lemma {:induction false} SumOfIndicador<T>(xs: seq<T>, y: T, v: real, ind: T -> real)
    requires Distinct(xs) && y in xs
    requires forall x :: ind(x) == if x == y then v else 0.0
    ensures SumOf(xs, ind) == v
  {
    if xs[0] == y {
      forall x | x in xs[1..]
        ensures ind(x) == 0.0
      {
        var j :| 0 <= j < |xs[1..]| && xs[1..][j] == x;
        assert xs[j + 1] != xs[0];
      }
      SumOfEqual(xs[1..], ind, (x: T) => 0.0);
      SumOfCero(xs[1..]);
    } else {
      SumOfIndicador(xs[1..], y, v, ind);
    }
  }

  /** The groups' sums: one `(key, sum)` per distinct key, keys increasing. */
  function AgruparSuma<K(==, !new)>(lt: (K, K) -> bool, filas: seq<(K, Option<real>)>): (r: seq<(K, real)>)
    requires OrdenEstricto(lt)
    ensures |r| == |Claves(lt, filas)|
    ensures forall i :: 0 <= i < |r| ==> r[i] == (Claves(lt, filas)[i], SumaGrupo(filas, Claves(lt, filas)[i]))
  {
    var ks := Claves(lt, filas);
    seq(|ks|, i requires 0 <= i < |ks| => (ks[i], SumaGrupo(filas, ks[i])))
  }

  /** The groups' means: one `(key, mean)` per distinct key, keys increasing. */
  function AgruparMedia<K(==, !new)>(lt: (K, K) -> bool, filas: seq<(K, Option<real>)>): (r: seq<(K, Option<real>)>)
    requires OrdenEstricto(lt)
    ensures |r| == |Claves(lt, filas)|
    ensures forall i :: 0 <= i < |r| ==> r[i] == (Claves(lt, filas)[i], MediaGrupo(filas, Claves(lt, filas)[i]))
  {
    var ks := Claves(lt, filas);
    seq(|ks|, i requires 0 <= i < |ks| => (ks[i], MediaGrupo(filas, ks[i])))
  }

  lemma {:induction false} SumOfMapa<K>(ks: seq<K>, f: K -> real, r: seq<(K, real)>)
    requires |r| == |ks| && forall i :: 0 <= i < |r| ==> r[i] == (ks[i], f(ks[i]))
    ensures SumOf(r, (p: (K, real)) => p.1) == SumOf(ks, f)
  {
    if |ks| > 0 {
      SumOfMapa(ks[1..], f, r[1..]);
    }
  }

  /** Summing by groups loses nothing: the group sums add up to the sum of
      all present values. */
  lemma AgruparSumaTotal<K(!new)>(lt: (K, K) -> bool, filas: seq<(K, Option<real>)>)
    requires OrdenEstricto(lt)
    ensures SumOf(AgruparSuma(lt, filas), (p: (K, real)) => p.1) == Sum(Todos(filas))
  {
    var ks := Claves(lt, filas);
    CrecienteDistinto(lt, ks);
    forall i | 0 <= i < |filas|
      ensures filas[i].0 in ks
    {
      assert Primeros(filas)[i] == filas[i].0;
    }
    SumaPorGrupos(filas, ks);
    SumOfMapa(ks, k => SumaGrupo(filas, k), AgruparSuma(lt, filas));
  }

  /** A group has present values exactly when one of its rows has a value. */
  lemma {:induction false} PresentesNoVacio<K>(filas: seq<(K, Option<real>)>, k: K)
    ensures |Presentes(filas, k)| > 0 <==> exists i :: 0 <= i < |filas| && filas[i].0 == k && filas[i].1.Some?
  {
    if |filas| > 0 {
      PresentesNoVacio(filas[1..], k);
      assert forall i :: 1 <= i < |filas| ==> filas[i] == filas[1..][i - 1];
    }
  }

  /** Every present value of group `k` comes from a row of that group. */
  lemma {:induction false} PresentesDeGrupo<K>(filas: seq<(K, Option<real>)>, k: K, lo: real, hi: real)
    requires forall i :: 0 <= i < |filas| && filas[i].0 == k && filas[i].1.Some? ==> lo <= filas[i].1.value <= hi
    ensures forall j :: 0 <= j < |Presentes(filas, k)| ==> lo <= Presentes(filas, k)[j] <= hi
  {
    if |filas| > 0 {
      assert forall i :: 1 <= i < |filas| ==> filas[i] == filas[1..][i - 1];
      PresentesDeGrupo(filas[1..], k, lo, hi);
    }
  }

  lemma {:induction false} SumaAcotada(xs: seq<real>, lo: real, hi: real)
    requires forall j :: 0 <= j < |xs| ==> lo <= xs[j] <= hi
    ensures |xs| as real * lo <= Sum(xs) <= |xs| as real * hi
  {
    if |xs| > 0 {
      SumaAcotada(xs[1..], lo, hi);
    }
  }

  /** The mean of a group lies between any bounds of its values; a group
      whose values all equal `lo == hi` has exactly that mean. */
  lemma MediaAcotada<K>(filas: seq<(K, Option<real>)>, k: K, lo: real, hi: real)
    requires forall i :: 0 <= i < |filas| && filas[i].0 == k && filas[i].1.Some? ==> lo <= filas[i].1.value <= hi
    requires MediaGrupo(filas, k).Some?
    ensures lo <= MediaGrupo(filas, k).value <= hi
  {
    var xs := Presentes(filas, k);
    PresentesDeGrupo(filas, k, lo, hi);
    SumaAcotada(xs, lo, hi);
    var n := |xs| as real;
    CocienteAcotado(Sum(xs), n, lo, hi);
  }

  lemma CocienteAcotado(s: real, n: real, lo: real, hi: real)
    requires n > 0.0 && n * lo <= s <= n * hi
    ensures lo <= s / n <= hi
  {
    assert s / n - lo == (s - n * lo) / n;
    assert hi - s / n == (n * hi - s) / n;
  }
}

=== FILE: analisis_categorico.dfy ===
/** `src/analisis/analisis_categorico.py`: text cleaning, the soil (edafología)
    and landform (topoforma) comparators with their empty-text guards, the
    joining of the six soil fields, and the municipality comparator.

    The string metrics are parameters: `ratio` stands for
    `Levenshtein.ratio` and `jaro` for `Levenshtein.jaro_winkler`. */
module AnalisisCategorico {
  import opened Wrappers
  import opened Text
  import opened Tablas
  import Helpers

  /** A table cell as `limpiar_texto` sees it: `None`, a float NaN, or any
      other value, held as its `str(...)` form. */
  datatype Celda = Nulo | NaN | Texto(s: string)

  /** What the model assumes of a string metric: values in [0, 1] and
      symmetric. */
  ghost predicate MetricaLike(f: (string, string) -> real) {
    forall a, b :: 0.0 <= f(a, b) <= 1.0 && f(a, b) == f(b, a)
  }

  predicate EnMinusculas(s: string) {
    Lower(s) == s
  }

  /** `limpiar_texto(valor)`: "" for None and NaN, otherwise the stripped,
      lower-cased string: the lower-cased text with the whitespace at both
      ends removed and nothing else. */
  function LimpiarTexto(c: Celda): (r: string)
    ensures c.Nulo? || c.NaN? ==> r == ""
    ensures r == [] || (!IsSpace(r[0]) && !IsSpace(r[|r| - 1]))
    ensures EnMinusculas(r)
    ensures c.Texto? ==> RecorteDe(Lower(c.s), r)
    ensures c.Texto? ==> r == Lower(Strip(c.s))
  {
    match c
    case Nulo => ""
    case NaN => ""
    case Texto(s) =>
      LimpioSinBordes(s);
      Lower(Strip(s))
  }

  /** A stripped, lower-cased text has no space at either end and is
      already in lower case. */
  lemma LimpioSinBordes(s: string)
    ensures var r := Lower(Strip(s));
      (r == [] || (!IsSpace(r[0]) && !IsSpace(r[|r| - 1]))) && EnMinusculas(r)
    ensures RecorteDe(Lower(s), Lower(Strip(s)))
  {
    StripLower(s);
    LowerIdempotent(Strip(s));
    assert Lower(Strip(s)) == Strip(Lower(s));
  }

  /** Cleaning an already cleaned text changes nothing. */
  lemma LimpiarTextoIdempotente(c: Celda)
    ensures LimpiarTexto(Texto(LimpiarTexto(c))) == LimpiarTexto(c)
  {
    var r := LimpiarTexto(c);
    StripOfStripped(r);
  }

  /** `comparar_edafologia(text1, text2)`: 0.0 when either cleaned text is
      empty, otherwise the Levenshtein ratio of the cleaned texts. */
  function ComparaEdafologia(ratio: (string, string) -> real, text1: Celda, text2: Celda): (s: real)
    ensures LimpiarTexto(text1) == [] || LimpiarTexto(text2) == [] ==> s == 0.0
    ensures LimpiarTexto(text1) != [] && LimpiarTexto(text2) != [] ==>
      s == ratio(LimpiarTexto(text1), LimpiarTexto(text2))
  {
    var t1, t2 := LimpiarTexto(text1), LimpiarTexto(text2);
    if t1 == [] || t2 == [] then 0.0 else ratio(t1, t2)
  }

  /** `comparar_topoforma(text1, text2)`: the same guard, with Jaro-Winkler. */
  function ComparaTopoforma(jaro: (string, string) -> real, text1: Celda, text2: Celda): (s: real)
    ensures LimpiarTexto(text1) == [] || LimpiarTexto(text2) == [] ==> s == 0.0
    ensures LimpiarTexto(text1) != [] && LimpiarTexto(text2) != [] ==>
      s == jaro(LimpiarTexto(text1), LimpiarTexto(text2))
  {
    var t1, t2 := LimpiarTexto(text1), LimpiarTexto(text2);
    if t1 == [] || t2 == [] then 0.0 else jaro(t1, t2)
  }

  /** A guarded comparator stays in [0, 1] and is symmetric when its metric is. */
  lemma ComparadoresAcotados(ratio: (string, string) -> real, jaro: (string, string) -> real, a: Celda, b: Celda)
    requires MetricaLike(ratio) && MetricaLike(jaro)
    ensures 0.0 <= ComparaEdafologia(ratio, a, b) <= 1.0
    ensures ComparaEdafologia(ratio, a, b) == ComparaEdafologia(ratio, b, a)
    ensures 0.0 <= ComparaTopoforma(jaro, a, b) <= 1.0
    ensures ComparaTopoforma(jaro, a, b) == ComparaTopoforma(jaro, b, a)
  {
  }

  /** The six soil columns of a row of the soil table. */
  datatype FilaEdafologia = FilaEdafologia(claveWrb: Celda, grupo1: Celda, grupo2: Celda,
                                           grupo3: Celda, claseText: Celda, frudica: Celda)

  function CamposLimpios(f: FilaEdafologia): (campos: seq<string>)
    ensures |campos| == 6
  {
    [LimpiarTexto(f.claveWrb), LimpiarTexto(f.grupo1), LimpiarTexto(f.grupo2),
     LimpiarTexto(f.grupo3), LimpiarTexto(f.claseText), LimpiarTexto(f.frudica)]
  }

  /** `unir_edafologia(fila)`: the six cleaned fields joined by single
      spaces; five separators make it at least 5 characters long. */
  function UnirEdafologia(f: FilaEdafologia): (r: string)
    ensures |r| >= 5
  {
    JoinLength(CamposLimpios(f), " ");
    Join(CamposLimpios(f), " ")
  }

  /** When no cleaned field contains a space, splitting the joined text on
      spaces recovers the six cleaned fields. */
  lemma UnirEdafologiaSeparable(f: FilaEdafologia)
    requires forall k :: 0 <= k < 6 ==> ' ' !in CamposLimpios(f)[k]
    ensures Split(UnirEdafologia(f), ' ') == CamposLimpios(f)
  {
    SplitJoin(CamposLimpios(f), ' ');
  }

  /** A row with six empty fields joins to five spaces, which the soil
      comparator cleans back to "" and scores 0.0 against anything. */
  lemma UnirEdafologiaVacia(ratio: (string, string) -> real, otra: Celda)
    ensures UnirEdafologia(FilaEdafologia(Nulo, Nulo, NaN, Nulo, Nulo, Nulo)) == "     "
    ensures ComparaEdafologia(ratio, Texto(UnirEdafologia(FilaEdafologia(Nulo, Nulo, NaN, Nulo, Nulo, Nulo))), otra) == 0.0
  {
    var f := FilaEdafologia(Nulo, Nulo, NaN, Nulo, Nulo, Nulo);
    assert CamposLimpios(f) == ["", "", "", "", "", ""];
    assert UnirEdafologia(f) == "     ";
    StripEmptyIff("     ");
  }

  /** `modelo_gral`: the mean of the soil and landform scores, in [0, 1]
      when both metrics are. */
  function ModeloGral(ratio: (string, string) -> real, jaro: (string, string) -> real,
                      val1Eda: Celda, val2Eda: Celda, val1Topo: Celda, val2Topo: Celda): (s: real)
    ensures LimpiarTexto(val1Eda) == [] && LimpiarTexto(val1Topo) == [] ==> s == 0.0
    ensures MetricaLike(ratio) && MetricaLike(jaro) ==> 0.0 <= s <= 1.0
  {
    (ComparaEdafologia(ratio, val1Eda, val2Eda) + ComparaTopoforma(jaro, val1Topo, val2Topo)) / 2.0
  }

  /** The mean of two scores in [0, 1] lies in [0, 1] and is symmetric. */
  lemma ModeloGralAcotado(ratio: (string, string) -> real, jaro: (string, string) -> real,
                          val1Eda: Celda, val2Eda: Celda, val1Topo: Celda, val2Topo: Celda)
    requires MetricaLike(ratio) && MetricaLike(jaro)
    ensures 0.0 <= ModeloGral(ratio, jaro, val1Eda, val2Eda, val1Topo, val2Topo) <= 1.0
    ensures ModeloGral(ratio, jaro, val1Eda, val2Eda, val1Topo, val2Topo)
         == ModeloGral(ratio, jaro, val2Eda, val1Eda, val2Topo, val1Topo)
  {
    ComparadoresAcotados(ratio, jaro, val1Eda, val2Eda);
    ComparadoresAcotados(ratio, jaro, val1Topo, val2Topo);
    var e, t := ComparaEdafologia(ratio, val1Eda, val2Eda), ComparaTopoforma(jaro, val1Topo, val2Topo);
    assert ModeloGral(ratio, jaro, val1Eda, val2Eda, val1Topo, val2Topo) == (e + t) / 2.0;
    assert ModeloGral(ratio, jaro, val2Eda, val1Eda, val2Topo, val1Topo) == (e + t) / 2.0;
  }

  /** `comparar_municipios(mun1, mun2)`: None when one of the four lookups
      (soil and landform, each id zero-padded) is empty; otherwise
      `modelo_gral` over the first soil row joined and the first landform
      key cleaned. */
  function ComparaMunicipios(ratio: (string, string) -> real, jaro: (string, string) -> real,
                             edafologia: Tabla<FilaEdafologia>, topoforma: Tabla<Celda>,
                             mun1: string, mun2: string): (r: Option<real>)
    ensures r.None? <==>
      var m1, m2 := Helpers.NormalizarCvegeo(mun1), Helpers.NormalizarCvegeo(mun2);
      !Tiene(edafologia, m1) || !Tiene(edafologia, m2) || !Tiene(topoforma, m1) || !Tiene(topoforma, m2)
  {
    var m1, m2 := Helpers.NormalizarCvegeo(mun1), Helpers.NormalizarCvegeo(mun2);
    var e1, e2 := Primero(edafologia, m1), Primero(edafologia, m2);
    var t1, t2 := Primero(topoforma, m1), Primero(topoforma, m2);
    if e1.None? || e2.None? then None
    else if t1.None? || t2.None? then None
    else
      var v1Eda, v2Eda := UnirEdafologia(e1.value), UnirEdafologia(e2.value);
      var v1Topo, v2Topo := LimpiarTexto(t1.value), LimpiarTexto(t2.value);
      Some(ModeloGral(ratio, jaro, Texto(v1Eda), Texto(v2Eda), Texto(v1Topo), Texto(v2Topo)))
  }

  /** The municipality comparator lies in [0, 1] and ignores argument order. */
  lemma ComparaMunicipiosAcotada(ratio: (string, string) -> real, jaro: (string, string) -> real,
                                 edafologia: Tabla<FilaEdafologia>, topoforma: Tabla<Celda>,
                                 mun1: string, mun2: string)
    requires MetricaLike(ratio) && MetricaLike(jaro)
    ensures var r := ComparaMunicipios(ratio, jaro, edafologia, topoforma, mun1, mun2);
      r.Some? ==> 0.0 <= r.value <= 1.0
    ensures ComparaMunicipios(ratio, jaro, edafologia, topoforma, mun1, mun2)
         == ComparaMunicipios(ratio, jaro, edafologia, topoforma, mun2, mun1)
  {
    var m1, m2 := Helpers.NormalizarCvegeo(mun1), Helpers.NormalizarCvegeo(mun2);
    var e1, e2 := Primero(edafologia, m1), Primero(edafologia, m2);
    var t1, t2 := Primero(topoforma, m1), Primero(topoforma, m2);
    if e1.Some? && e2.Some? && t1.Some? && t2.Some? {
      var a1, a2 := Texto(UnirEdafologia(e1.value)), Texto(UnirEdafologia(e2.value));
      var b1, b2 := Texto(LimpiarTexto(t1.value)), Texto(LimpiarTexto(t2.value));
      ModeloGralAcotado(ratio, jaro, a1, a2, b1, b2);
    }
  }
}

=== FILE: analisis_diario.dfy ===
/** `src/analisis/analisis_diario.py`: deciding whether a long series table
    is hourly (`tiene_hora`), turning it into one row per id and day
    (`convertir_a_diario`), and the choice between summing and averaging in
    `analizar_series_diarias`.

    A timestamp is its day number, hour and minute; `None` stands for NaT
    (an unparseable date after `errors="coerce"`). A value is `None` for
    NaN. The parquet I/O, the prints, the interpolation and the sort by id
    and date are not modelled. */
module AnalisisDiario {
  import opened Wrappers
  import opened Text
  import opened Seqs
  import opened Agrupacion

  datatype Marca = Marca(dia: int, hora: nat, minuto: nat)

  /** One row: the id column, the date column and the variable column. */
  datatype Fila = Fila(id: string, fecha: Option<Marca>, valor: Option<real>)

  // ---------------------------------------------------------------
  // tiene_hora
  // ---------------------------------------------------------------

  /** `serie.dt.hour` without NaT (`nunique` skips it). */
  function Horas(filas: seq<Fila>): set<nat> {
    set i | 0 <= i < |filas| && filas[i].fecha.Some? :: filas[i].fecha.value.hora
  }

  function Minutos(filas: seq<Fila>): set<nat> {
    set i | 0 <= i < |filas| && filas[i].fecha.Some? :: filas[i].fecha.value.minuto
  }

  /** `dt.hour.nunique() > 1 or dt.minute.nunique() > 1`. */
  predicate TieneHora(filas: seq<Fila>) {
    |Horas(filas)| > 1 || |Minutos(filas)| > 1
  }

  /** Two dated rows whose hours differ. */
  predicate HorasDistintas(filas: seq<Fila>) {
    exists i, j :: 0 <= i < |filas| && 0 <= j < |filas| && filas[i].fecha.Some? && filas[j].fecha.Some? &&
      filas[i].fecha.value.hora != filas[j].fecha.value.hora
  }

  /** Two dated rows whose minutes differ. */
  predicate MinutosDistintos(filas: seq<Fila>) {
    exists i, j :: 0 <= i < |filas| && 0 <= j < |filas| && filas[i].fecha.Some? && filas[j].fecha.Some? &&
      filas[i].fecha.value.minuto != filas[j].fecha.value.minuto
  }

  /** A set has more than one element exactly when it holds two different ones. */
  lemma MasDeUno(s: set<nat>)
    ensures |s| > 1 <==> exists a, b :: a in s && b in s && a != b
  {
    if |s| > 1 {
      var a :| a in s;
      assert |s - {a}| > 0;
      var b :| b in s - {a};
    }
    if exists a, b :: a in s && b in s && a != b {
      var a, b :| a in s && b in s && a != b;
      SubsetCardinality({a, b}, s);
    }
  }

  /** The data is hourly exactly when two dated rows differ in the hour or
      two differ in the minute. */
  lemma TieneHoraSiCambia(filas: seq<Fila>)
    ensures TieneHora(filas) <==> HorasDistintas(filas) || MinutosDistintos(filas)
  {
    MasDeUno(Horas(filas));
    MasDeUno(Minutos(filas));
    if HorasDistintas(filas) {
      var i, j :| 0 <= i < |filas| && 0 <= j < |filas| && filas[i].fecha.Some? && filas[j].fecha.Some? &&
        filas[i].fecha.value.hora != filas[j].fecha.value.hora;
      assert filas[i].fecha.value.hora in Horas(filas) && filas[j].fecha.value.hora in Horas(filas);
    }
    if MinutosDistintos(filas) {
      var i, j :| 0 <= i < |filas| && 0 <= j < |filas| && filas[i].fecha.Some? && filas[j].fecha.Some? &&
        filas[i].fecha.value.minuto != filas[j].fecha.value.minuto;
      assert filas[i].fecha.value.minuto in Minutos(filas) && filas[j].fecha.value.minuto in Minutos(filas);
    }
  }

  /** Every timestamp at 12:00 counts as daily data, whatever the days. */
  lemma MediodiaEsDiario(filas: seq<Fila>)
    requires forall i :: 0 <= i < |filas| && filas[i].fecha.Some? ==>
      filas[i].fecha.value.hora == 12 && filas[i].fecha.value.minuto == 0
    ensures !TieneHora(filas)
  {
    TieneHoraSiCambia(filas);
  }

  /** Two readings an hour apart on the same day count as hourly. */
  lemma DosHorasEsHorario(d: int, v: Option<real>)
    ensures TieneHora([Fila("01001", Some(Marca(d, 0, 0)), v), Fila("01001", Some(Marca(d, 1, 0)), v)])
  {
    var filas := [Fila("01001", Some(Marca(d, 0, 0)), v), Fila("01001", Some(Marca(d, 1, 0)), v)];
    assert filas[0].fecha.value.hora != filas[1].fecha.value.hora;
    TieneHoraSiCambia(filas);
  }

  // ---------------------------------------------------------------
  // convertir_a_diario
  // ---------------------------------------------------------------

  /** The group key `[id_col, "fecha"]`: the id and the day. */
  type Clave = (string, int)

  /** pandas sorts the group keys by id (string order), then by day. */
  function MenorClave(): (Clave, Clave) -> bool {
    (a: Clave, b: Clave) => StrLess(a.0, b.0) || (a.0 == b.0 && a.1 < b.1)
  }

  lemma MenorClaveOrden()
    ensures OrdenEstricto(MenorClave())
  {
    var lt := MenorClave();
    forall a: Clave
      ensures !lt(a, a)
    {
      StrLessIrreflexive(a.0);
    }
    forall a: Clave, b: Clave, c: Clave | lt(a, b) && lt(b, c)
      ensures lt(a, c)
    {
      if StrLess(a.0, b.0) && StrLess(b.0, c.0) {
        StrLessTransitive(a.0, b.0, c.0);
      }
    }
    forall a: Clave, b: Clave
      ensures a == b || lt(a, b) || lt(b, a)
    {
      StrLessTotal(a.0, b.0);
    }
  }

  /** The rows with a date: `groupby` drops the rows whose key is NaT. */
  function ConFecha(filas: seq<Fila>): (r: seq<Fila>)
    ensures forall f :: f in r <==> f in filas && f.fecha.Some?
    ensures |r| <= |filas|
  {
    if |filas| == 0 then []
    else
      assert forall f :: f in filas <==> f == filas[0] || f in filas[1..];
      (if filas[0].fecha.Some? then [filas[0]] else []) + ConFecha(filas[1..])
  }

  function ClaveDe(f: Fila): Clave
    requires f.fecha.Some?
  {
    (f.id, f.fecha.value.dia)
  }

  /** The (id, day) pairs of the dated rows. */
  function Dias(filas: seq<Fila>): set<Clave> {
    set f | f in filas && f.fecha.Some? :: ClaveDe(f)
  }

  /** Each dated row as a key and its value, the input of the grouping. */
  function Pares(filas: seq<Fila>): (ps: seq<(Clave, Option<real>)>)
    requires forall i :: 0 <= i < |filas| ==> filas[i].fecha.Some?
    ensures |ps| == |filas|
    ensures forall i :: 0 <= i < |filas| ==> ps[i] == (ClaveDe(filas[i]), filas[i].valor)
  {
    seq(|filas|, i requires 0 <= i < |filas| => (ClaveDe(filas[i]), filas[i].valor))
  }

  /** The grouping input of `convertir_a_diario`. */
  function Agrupable(filas: seq<Fila>): seq<(Clave, Option<real>)> {
    var fs := ConFecha(filas);
    assert forall i :: 0 <= i < |fs| ==> fs[i] in fs;
    Pares(fs)
  }

  /** The keys of the grouping input are exactly the (id, day) pairs of the
      dated rows. */
  lemma ClavesAgrupables(filas: seq<Fila>)
    ensures forall k :: k in Primeros(Agrupable(filas)) <==> k in Dias(filas)
  {
    var fs := ConFecha(filas);
    assert forall i :: 0 <= i < |fs| ==> fs[i] in fs;
    var ps := Agrupable(filas);
    forall k | k in Dias(filas)
      ensures k in Primeros(ps)
    {
      var f :| f in filas && f.fecha.Some? && ClaveDe(f) == k;
      assert f in fs;
      var i :| 0 <= i < |fs| && fs[i] == f;
      assert Primeros(ps)[i] == k;
    }
    forall k | k in Primeros(ps)
      ensures k in Dias(filas)
    {
      var i :| 0 <= i < |ps| && Primeros(ps)[i] == k;
      assert fs[i] in filas;
    }
  }

  /** A daily row for the key: midnight of that day, and its value. */
  function FilaDiaria(k: Clave, v: Option<real>): Fila {
    Fila(k.0, Some(Marca(k.1, 0, 0)), v)
  }

  /** `convertir_a_diario(df, fecha_col, id_col, var_col, metodo)`. One row
      per (id, day) of the dated rows, in increasing key order, stamped at
      midnight. With `metodo == "sum"` its value is the group's sum of
      present values (0 for a group without any), with any other `metodo`
      the group's mean (NaN for a group without any). */
  function ConvertirADiario(filas: seq<Fila>, metodo: string): (r: seq<Fila>)
    ensures forall i :: 0 <= i < |r| ==> r[i].fecha.Some? && r[i].fecha.value.hora == 0 && r[i].fecha.value.minuto == 0
    ensures forall i, j :: 0 <= i < j < |r| ==> MenorClave()(ClaveDe(r[i]), ClaveDe(r[j]))
    ensures forall k :: (exists i :: 0 <= i < |r| && ClaveDe(r[i]) == k) <==> k in Dias(filas)
    ensures metodo == "sum" ==> forall i :: 0 <= i < |r| ==>
      r[i].valor == Some(SumaGrupo(Agrupable(filas), ClaveDe(r[i])))
    ensures metodo != "sum" ==> forall i :: 0 <= i < |r| ==>
      r[i].valor == MediaGrupo(Agrupable(filas), ClaveDe(r[i]))
  {
    MenorClaveOrden();
    var ps := Agrupable(filas);
    var r := if metodo == "sum" then
      var g := AgruparSuma(MenorClave(), ps);
      seq(|g|, i requires 0 <= i < |g| => FilaDiaria(g[i].0, Some(g[i].1)))
    else
      var g := AgruparMedia(MenorClave(), ps);
      seq(|g|, i requires 0 <= i < |g| => FilaDiaria(g[i].0, g[i].1));
    ClavesDeSalida(filas, r);
    r
  }

  /** Rows carrying the group keys in order have one row per (id, day) of
      the dated input, in increasing key order. */
  lemma ClavesDeSalida(filas: seq<Fila>, r: seq<Fila>)
    requires OrdenEstricto(MenorClave())
    requires |r| == |Claves(MenorClave(), Agrupable(filas))|
    requires forall i :: 0 <= i < |r| ==> r[i].fecha.Some? && ClaveDe(r[i]) == Claves(MenorClave(), Agrupable(filas))[i]
    ensures forall i, j :: 0 <= i < j < |r| ==> MenorClave()(ClaveDe(r[i]), ClaveDe(r[j]))
    ensures forall k :: (exists i :: 0 <= i < |r| && ClaveDe(r[i]) == k) <==> k in Dias(filas)
  {
    var ks := Claves(MenorClave(), Agrupable(filas));
    ClavesAgrupables(filas);
    forall k | k in Dias(filas)
      ensures exists i :: 0 <= i < |r| && ClaveDe(r[i]) == k
    {
      assert k in ks;
      var i :| 0 <= i < |ks| && ks[i] == k;
      assert ClaveDe(r[i]) == k;
    }
    forall k | exists i :: 0 <= i < |r| && ClaveDe(r[i]) == k
      ensures k in Dias(filas)
    {
      var i :| 0 <= i < |r| && ClaveDe(r[i]) == k;
      assert ks[i] in ks;
    }
  }

  /** The converted data is daily: `tiene_hora` no longer holds. */
  lemma DiarioSinHora(filas: seq<Fila>, metodo: string)
    ensures !TieneHora(ConvertirADiario(filas, metodo))
  {
    var r := ConvertirADiario(filas, metodo);
    SubsetCardinality(Horas(r), {0});
    SubsetCardinality(Minutos(r), {0});
  }

  /** The present values, in row order. */
  function Valores(filas: seq<Fila>): seq<real> {
    if |filas| == 0 then []
    else (if filas[0].valor.Some? then [filas[0].valor.value] else []) + Valores(filas[1..])
  }

  lemma {:induction false} ValoresDePares(fs: seq<Fila>)
    requires forall i :: 0 <= i < |fs| ==> fs[i].fecha.Some?
    ensures Todos(Pares(fs)) == Valores(fs)
  {
    if |fs| > 0 {
      ValoresDePares(fs[1..]);
      assert Pares(fs)[1..] == Pares(fs[1..]);
    }
  }

  lemma {:induction false} ValoresDeSumas(g: seq<(Clave, real)>, r: seq<Fila>)
    requires |r| == |g| && forall i :: 0 <= i < |r| ==> r[i] == FilaDiaria(g[i].0, Some(g[i].1))
    ensures Sum(Valores(r)) == SumOf(g, (p: (Clave, real)) => p.1)
  {
    if |r| > 0 {
      ValoresDeSumas(g[1..], r[1..]);
      SumaCons(g[0].1, Valores(r[1..]));
    }
  }

  /** Summing into days loses nothing: the daily values add up to the
      present values of the dated rows. */
  lemma DiarioSumaTotal(filas: seq<Fila>)
    ensures Sum(Valores(ConvertirADiario(filas, "sum"))) == Sum(Valores(ConFecha(filas)))
  {
    MenorClaveOrden();
    var ps := Agrupable(filas);
    var fs := ConFecha(filas);
    assert forall i :: 0 <= i < |fs| ==> fs[i] in fs;
    AgruparSumaTotal(MenorClave(), ps);
    ValoresDePares(fs);
    ValoresDeSumas(AgruparSuma(MenorClave(), ps), ConvertirADiario(filas, "sum"));
  }

  /** A daily mean lies within any bounds of the present values. */
  lemma DiarioMediaAcotada(filas: seq<Fila>, metodo: string, lo: real, hi: real)
    requires metodo != "sum"
    requires forall i :: 0 <= i < |filas| && filas[i].valor.Some? ==> lo <= filas[i].valor.value <= hi
    ensures forall i :: 0 <= i < |ConvertirADiario(filas, metodo)| && ConvertirADiario(filas, metodo)[i].valor.Some? ==>
      lo <= ConvertirADiario(filas, metodo)[i].valor.value <= hi
  {
    var r := ConvertirADiario(filas, metodo);
    var ps := Agrupable(filas);
    var fs := ConFecha(filas);
    assert forall i :: 0 <= i < |fs| ==> fs[i] in fs;
    forall i | 0 <= i < |r| && r[i].valor.Some?
      ensures lo <= r[i].valor.value <= hi
    {
      forall q | 0 <= q < |ps| && ps[q].0 == ClaveDe(r[i]) && ps[q].1.Some?
        ensures lo <= ps[q].1.value <= hi
      {
        assert fs[q] in filas;
      }
      MediaAcotada(ps, ClaveDe(r[i]), lo, hi);
    }
  }

  // ---------------------------------------------------------------
  // the method choice in analizar_series_diarias
  // ---------------------------------------------------------------

  /** `metodo_horario == "auto"` looks at the lower-cased variable name:
      "prec" sums, "evap" or "eva" sums, anything else averages. Any other
      `metodo_horario` is used as given. */
  function MetodoAutomatico(metodoHorario: string, variable: string): (m: string)
    ensures metodoHorario != "auto" ==> m == metodoHorario
  {
    if metodoHorario == "auto" then
      if Contains(Lower(variable), "prec") then "sum"
      else if Contains(Lower(variable), "evap") || Contains(Lower(variable), "eva") then "sum"
      else "mean"
    else metodoHorario
  }

  /** Every string holding "evap" holds "eva". */
  lemma EvapContieneEva(s: string)
    requires Contains(s, "evap")
    ensures Contains(s, "eva")
  {
    ContainsIff(s, "evap");
    ContainsIff(s, "eva");
    var i :| OccursAt(s, "evap", i);
    assert s[i..i + 3] == s[i..i + 4][..3];
    assert OccursAt(s, "eva", i);
  }

  /** A string holding a non-empty `sub` holds its first character. */
  lemma {:induction false} ContieneInicial(s: string, sub: string)
    requires Contains(s, sub) && |sub| > 0
    ensures sub[0] in s
  {
    if !(sub <= s) {
      ContieneInicial(s[1..], sub);
    }
  }

  /** In auto mode the variable is summed exactly when its lower-cased name
      contains "prec" or "eva", and averaged otherwise. */
  lemma MetodoAutomaticoSuma(variable: string)
    ensures MetodoAutomatico("auto", variable) == "sum" <==>
      Contains(Lower(variable), "prec") || Contains(Lower(variable), "eva")
    ensures MetodoAutomatico("auto", variable) in {"sum", "mean"}
  {
    if Contains(Lower(variable), "evap") {
      EvapContieneEva(Lower(variable));
    }
  }

  /** Typical names: precipitation and evaporation are summed, temperature
      averaged, whatever their case. */
  lemma EjemplosDeMetodo()
    ensures MetodoAutomatico("auto", "PREC") == "sum"
    ensures MetodoAutomatico("auto", "evavt") == "sum"
    ensures MetodoAutomatico("auto", "t2m") == "mean"
    ensures MetodoAutomatico("sum", "t2m") == "sum"
  {
    assert Lower("PREC") == "prec";
    assert "prec" <= Lower("PREC");
    assert "eva" <= Lower("evavt");
    MetodoAutomaticoSuma("t2m");
    assert !Contains(Lower("t2m"), "prec") && !Contains(Lower("t2m"), "eva") by {
      assert Lower("t2m") == "t2m";
      if Contains("t2m", "prec") {
        ContieneInicial("t2m", "prec");
      }
      if Contains("t2m", "eva") {
        ContieneInicial("t2m", "eva");
      }
    }
  }

  /** The daily step of `analizar_series_diarias`: hourly data is converted
      with the chosen method, daily data is kept as it is. The result is
      daily either way, and summing keeps the total of the dated values. */
  function Diarizar(filas: seq<Fila>, variable: string, metodoHorario: string): (r: seq<Fila>)
    ensures !TieneHora(r)
    ensures !TieneHora(filas) ==> r == filas
    ensures TieneHora(filas) ==> forall i :: 0 <= i < |r| ==> r[i].fecha.Some?
    ensures TieneHora(filas) && MetodoAutomatico(metodoHorario, variable) == "sum" ==>
      Sum(Valores(r)) == Sum(Valores(ConFecha(filas)))
  {
    if TieneHora(filas) then
      var metodo := MetodoAutomatico(metodoHorario, variable);
      DiarioSinHora(filas, metodo);
      DiarioSumaTotal(filas);
      ConvertirADiario(filas, metodo)
    else filas
  }
}

=== FILE: analisis_matriz_completa.dfy ===
/** `src/analisis/analisis_matriz_completa.py`: similarity-based imputation.
    Each municipality missing from a long table (one row per id and time)
    gets the per-time mean of its most similar municipalities' series.

    The table is a sequence of `Registro`s with the columns the code uses.
    `valid_time` is an integer instant, and `variable` is `None` for NaN.
    The similarity matrix is a labelled square frame. */
module MatrizCompleta {
  import opened Wrappers
  import opened Seqs
  import opened MatrizGral
  import opened Vecinos
  import opened Agrupacion

  datatype Registro = Registro(cvegeo: string, tiempo: int, valor: Option<real>)

  /** `obtener_similares(cvegeo, matriz_sim, top_n)`: ValueError for an id
      the matrix lacks. Otherwise the ids of the `top_n` highest similarities
      in its row, itself excluded: `min(top_n, n - 1)` distinct ids (a
      negative `top_n` drops that many from the end, as `head` does), from
      the most similar down, none less similar than an id left out. */
  function ObtenerSimilares(sim: Etiquetada, cve: string, topN: int): (r: Result<seq<string>>)
    requires Valida(sim) && Distinct(sim.index)
    ensures r.Err? <==> cve !in sim.index
    ensures r.Err? ==> r.error.ValueError?
    ensures r.Ok? ==> cve !in r.value && Distinct(r.value)
    ensures r.Ok? ==> forall x :: x in r.value ==> x in sim.index
    ensures r.Ok? && topN >= 0 ==> |r.value| == if topN < |sim.index| - 1 then topN else |sim.index| - 1
    ensures r.Ok? && topN < 0 ==> |r.value| == if |sim.index| - 1 + topN > 0 then |sim.index| - 1 + topN else 0
    ensures r.Ok? ==> forall a, b :: 0 <= a < b < |r.value| ==>
      Loc(sim, cve, r.value[a]) >= Loc(sim, cve, r.value[b])
    ensures r.Ok? ==> forall x, y :: x in sim.index && x != cve && x !in r.value && y in r.value ==>
      Loc(sim, cve, x) <= Loc(sim, cve, y)
  {
    if cve !in sim.index then Err(ValueError(cve + " no está en la matriz de similitud"))
    else
      var ms := Mejores(Candidatos(sim, cve), topN);
      SimilaresPropiedades(sim, cve, topN);
      assert Distinct(Primeros(ms)) && cve !in Primeros(ms);
      Ok(Primeros(ms))
  }

  lemma SimilaresPropiedades(sim: Etiquetada, cve: string, topN: int)
    requires Valida(sim) && Distinct(sim.index) && cve in sim.index
    ensures |Candidatos(sim, cve)| == |sim.index| - 1
    ensures var ms := Mejores(Candidatos(sim, cve), topN);
      && Distinct(Primeros(ms))
      && cve !in Primeros(ms)
      && (forall x :: x in Primeros(ms) ==> x in sim.index)
      && (forall e :: e in ms ==> e.0 in sim.index && e.0 != cve && e.1 == Loc(sim, cve, e.0))
      && (forall a, b :: 0 <= a < b < |ms| ==> Loc(sim, cve, ms[a].0) >= Loc(sim, cve, ms[b].0))
      && (forall x, y :: x in sim.index && x != cve && x !in Primeros(ms) && y in Primeros(ms) ==>
            Loc(sim, cve, x) <= Loc(sim, cve, y))
  {
    var cs := Candidatos(sim, cve);
    var ms := Mejores(cs, topN);
    CandidatosPropiedades(sim, cve);
    MejoresPropiedades(cs, topN);
    forall a, b | 0 <= a < b < |ms|
      ensures Loc(sim, cve, ms[a].0) >= Loc(sim, cve, ms[b].0)
    {
      assert ms[a] in ms && ms[b] in ms;
    }
    forall x | x in Primeros(ms)
      ensures x in sim.index && x != cve
    {
      var q :| 0 <= q < |ms| && Primeros(ms)[q] == x;
      assert ms[q] in ms;
    }
    forall x, y | x in sim.index && x != cve && x !in Primeros(ms) && y in Primeros(ms)
      ensures Loc(sim, cve, x) <= Loc(sim, cve, y)
    {
      var q :| 0 <= q < |ms| && Primeros(ms)[q] == y;
      assert ms[q] in ms;
      assert (x, Loc(sim, cve, x)) in cs;
    }
  }

  /** `obtener_series_vecinos(df, vecinos)`: the rows whose id is one of
      `vecinos`, in their original order. */
  function ObtenerSeriesVecinos(filas: seq<Registro>, vecinos: seq<string>): (r: seq<Registro>)
    ensures |r| <= |filas|
    ensures forall f :: f in r <==> f in filas && f.cvegeo in vecinos
  {
    if |filas| == 0 then []
    else
      var resto := ObtenerSeriesVecinos(filas[1..], vecinos);
      assert forall f :: f in filas <==> f == filas[0] || f in filas[1..];
      if filas[0].cvegeo in vecinos then [filas[0]] + resto else resto
  }

  /** The selection distributes over concatenation: it keeps the rows'
      relative order. */
  lemma {:induction false} SeriesVecinosConcat(a: seq<Registro>, b: seq<Registro>, vecinos: seq<string>)
    ensures ObtenerSeriesVecinos(a + b, vecinos) == ObtenerSeriesVecinos(a, vecinos) + ObtenerSeriesVecinos(b, vecinos)
  {
    if |a| == 0 {
      assert a + b == b;
    } else {
      assert (a + b)[1..] == a[1..] + b;
      SeriesVecinosConcat(a[1..], b, vecinos);
    }
  }

  /** The `(valid_time, variable)` columns. */
  function Mediciones(filas: seq<Registro>): (ms: seq<(int, Option<real>)>)
    ensures |ms| == |filas|
    ensures forall i :: 0 <= i < |filas| ==> ms[i] == (filas[i].tiempo, filas[i].valor)
  {
    seq(|filas|, i requires 0 <= i < |filas| => (filas[i].tiempo, filas[i].valor))
  }

  function Menor(): (int, int) -> bool {
    (a: int, b: int) => a < b
  }

  lemma MenorOrden()
    ensures OrdenEstricto(Menor())
  {
  }

  /** The rows of a `pivot_table` whose mean is not NaN. */
  function SoloPresentes(ms: seq<(int, Option<real>)>): (r: seq<(int, real)>)
    ensures forall p :: p in r ==> (p.0, Some(p.1)) in ms
    ensures forall k :: 0 <= k < |ms| && ms[k].1.Some? ==> (ms[k].0, ms[k].1.value) in r
  {
    if |ms| == 0 then []
    else
      var resto := SoloPresentes(ms[1..]);
      assert forall q :: q in ms[1..] ==> q in ms;
      assert forall k :: 1 <= k < |ms| ==> ms[k] == ms[1..][k - 1];
      match ms[0].1
      case Some(v) => [(ms[0].0, v)] + resto
      case None => resto
  }

  predicate InstantesCrecientes(r: seq<(int, real)>) {
    forall a, b :: 0 <= a < b < |r| ==> r[a].0 < r[b].0
  }

  /** Dropping the NaN rows keeps increasing instants increasing. */
  lemma {:induction false} SoloPresentesCreciente(ms: seq<(int, Option<real>)>)
    requires forall a, b :: 0 <= a < b < |ms| ==> ms[a].0 < ms[b].0
    ensures InstantesCrecientes(SoloPresentes(ms))
  {
    if |ms| > 0 {
      var resto := SoloPresentes(ms[1..]);
      SoloPresentesCreciente(ms[1..]);
      if ms[0].1.Some? {
        forall p | p in resto
          ensures ms[0].0 < p.0
        {
          var j :| 0 <= j < |ms[1..]| && ms[1..][j] == (p.0, Some(p.1));
          assert ms[j + 1].0 == p.0;
        }
        ConsCreciente((ms[0].0, ms[0].1.value), resto);
      }
    }
  }

  lemma ConsCreciente(x: (int, real), resto: seq<(int, real)>)
    requires InstantesCrecientes(resto)
    requires forall p :: p in resto ==> x.0 < p.0
    ensures InstantesCrecientes([x] + resto)
  {
    var r := [x] + resto;
    forall a, b | 0 <= a < b < |r|
      ensures r[a].0 < r[b].0
    {
      assert r[b] == resto[b - 1];
      if a > 0 {
        assert r[a] == resto[a - 1];
      }
    }
  }

  /** The present values of the rows at time `t`. */
  function ValoresEn(filas: seq<Registro>, t: int): seq<real> {
    Presentes(Mediciones(filas), t)
  }

  /** Some row at instant `t` has a value. */
  predicate TieneValorEn(filas: seq<Registro>, t: int) {
    exists i :: 0 <= i < |filas| && filas[i].tiempo == t && filas[i].valor.Some?
  }

  /** The mean of the values at instant `t`. */
  predicate EsMediaEn(filas: seq<Registro>, t: int, v: real) {
    |ValoresEn(filas, t)| > 0 && v == Sum(ValoresEn(filas, t)) / |ValoresEn(filas, t)| as real
  }

  /** `promediar_series(series_vecinos)`: one row per instant at which some
      row has a value, instants increasing, each with the mean of the
      values at that instant (NaN skipped). */
  function PromediarSeries(filas: seq<Registro>): (r: seq<(int, real)>)
    ensures InstantesCrecientes(r)
    ensures forall t :: t in Primeros(r) <==> TieneValorEn(filas, t)
    ensures forall p :: p in r ==> EsMediaEn(filas, p.0, p.1)
  {
    MenorOrden();
    var r := SoloPresentes(AgruparMedia(Menor(), Mediciones(filas)));
    PromediarLema(filas, r);
    r
  }

  lemma PromediarLema(filas: seq<Registro>, r: seq<(int, real)>)
    requires OrdenEstricto(Menor())
    requires r == SoloPresentes(AgruparMedia(Menor(), Mediciones(filas)))
    ensures InstantesCrecientes(r)
    ensures forall t :: t in Primeros(r) <==> TieneValorEn(filas, t)
    ensures forall p :: p in r ==> EsMediaEn(filas, p.0, p.1)
  {
    MediasCrecientes(filas);
    SoloPresentesCreciente(AgruparMedia(Menor(), Mediciones(filas)));
    PromediarValores(filas);
    PromediarInstantes(filas);
  }

  lemma MediasCrecientes(filas: seq<Registro>)
    requires OrdenEstricto(Menor())
    ensures var medias := AgruparMedia(Menor(), Mediciones(filas));
      forall a, b :: 0 <= a < b < |medias| ==> medias[a].0 < medias[b].0
  {
    var ks := Claves(Menor(), Mediciones(filas));
    var medias := AgruparMedia(Menor(), Mediciones(filas));
    forall a, b | 0 <= a < b < |medias|
      ensures medias[a].0 < medias[b].0
    {
      assert Menor()(ks[a], ks[b]);
    }
  }

  lemma PromediarValores(filas: seq<Registro>)
    requires OrdenEstricto(Menor())
    ensures forall p :: p in SoloPresentes(AgruparMedia(Menor(), Mediciones(filas))) ==> EsMediaEn(filas, p.0, p.1)
  {
    var ms := Mediciones(filas);
    var medias := AgruparMedia(Menor(), ms);
    forall p | p in SoloPresentes(medias)
      ensures EsMediaEn(filas, p.0, p.1)
    {
      var j :| 0 <= j < |medias| && medias[j] == (p.0, Some(p.1));
      assert MediaGrupo(ms, p.0) == Some(p.1);
    }
  }

  lemma PromediarInstantes(filas: seq<Registro>)
    requires OrdenEstricto(Menor())
    ensures var r := SoloPresentes(AgruparMedia(Menor(), Mediciones(filas)));
      forall t :: t in Primeros(r) <==> TieneValorEn(filas, t)
  {
    var ms := Mediciones(filas);
    var ks := Claves(Menor(), ms);
    var medias := AgruparMedia(Menor(), ms);
    var r := SoloPresentes(medias);
    forall t
      ensures t in Primeros(r) <==> TieneValorEn(filas, t)
    {
      PresentesNoVacio(ms, t);
      if TieneValorEn(filas, t) {
        var i :| 0 <= i < |filas| && filas[i].tiempo == t && filas[i].valor.Some?;
        assert ms[i].0 == t && ms[i].1.Some?;
        assert Primeros(ms)[i] == t;
        assert t in ks;
        var j :| 0 <= j < |ks| && ks[j] == t;
        assert medias[j] == (t, MediaGrupo(ms, t));
        assert (t, MediaGrupo(ms, t).value) in r;
        var q :| 0 <= q < |r| && r[q] == (t, MediaGrupo(ms, t).value);
        assert Primeros(r)[q] == t;
      }
      if t in Primeros(r) {
        var q :| 0 <= q < |r| && Primeros(r)[q] == t;
        assert r[q] in r;
        var j :| 0 <= j < |medias| && medias[j] == (t, Some(r[q].1));
        var i :| 0 <= i < |ms| && ms[i].0 == t && ms[i].1.Some?;
        assert filas[i].tiempo == t && filas[i].valor.Some?;
      }
    }
  }

  /** The mean at an instant lies between any bounds of the neighbours'
      values at that instant. */
  lemma PromedioAcotado(filas: seq<Registro>, t: int, v: real, lo: real, hi: real)
    requires (t, v) in PromediarSeries(filas)
    requires forall i :: 0 <= i < |filas| && filas[i].tiempo == t && filas[i].valor.Some? ==>
      lo <= filas[i].valor.value <= hi
    ensures lo <= v <= hi
  {
    var ms := Mediciones(filas);
    forall i | 0 <= i < |ms| && ms[i].0 == t && ms[i].1.Some?
      ensures lo <= ms[i].1.value <= hi
    {
      assert filas[i].tiempo == t;
    }
    assert EsMediaEn(filas, t, v);
    MediaAcotada(ms, t, lo, hi);
  }

  /** `imputar_serie(cvegeo_faltante, promedio_series)`: the averaged series
      as rows of the missing id, times and values kept. */
  function ImputarSerie(cve: string, promedio: seq<(int, real)>): (r: seq<Registro>)
    ensures |r| == |promedio|
    ensures forall k :: 0 <= k < |r| ==> r[k] == Registro(cve, promedio[k].0, Some(promedio[k].1))
  {
    seq(|promedio|, k requires 0 <= k < |promedio| => Registro(cve, promedio[k].0, Some(promedio[k].1)))
  }

  /** `rellenar_un_municipio`: a ValueError, or rows all labelled with the
      missing id. */
  function RellenarUnMunicipio(sim: Etiquetada, filas: seq<Registro>, cve: string, topN: int): (r: Result<seq<Registro>>)
    requires Valida(sim) && Distinct(sim.index)
    ensures r.Err? ==> r.error.ValueError?
    ensures r.Ok? ==> forall k :: 0 <= k < |r.value| ==> r.value[k].cvegeo == cve
  {
    var vecinos :- ObtenerSimilares(sim, cve, topN);
    var series := ObtenerSeriesVecinos(filas, vecinos);
    if |series| == 0 then Err(ValueError("Vecinos de " + cve + " no tienen series."))
    else Ok(ImputarSerie(cve, PromediarSeries(series)))
  }

  /** `rellenar_un_municipio` fails exactly when the id is not in the matrix
      or none of its neighbours has rows. Otherwise it returns the
      neighbours' mean series labelled with the id, one row per instant,
      instants increasing. */
  lemma RellenarPropiedades(sim: Etiquetada, filas: seq<Registro>, cve: string, topN: int)
    requires Valida(sim) && Distinct(sim.index)
    ensures var r := RellenarUnMunicipio(sim, filas, cve, topN);
      r.Err? <==> (cve !in sim.index ||
        forall i :: 0 <= i < |filas| ==> filas[i].cvegeo !in ObtenerSimilares(sim, cve, topN).value)
    ensures var r := RellenarUnMunicipio(sim, filas, cve, topN);
      r.Ok? ==> r.value == ImputarSerie(cve, PromediarSeries(
        ObtenerSeriesVecinos(filas, ObtenerSimilares(sim, cve, topN).value)))
    ensures var r := RellenarUnMunicipio(sim, filas, cve, topN);
      r.Ok? ==> forall a, b :: 0 <= a < b < |r.value| ==> r.value[a].tiempo < r.value[b].tiempo
  {
    if cve in sim.index {
      var vecinos := ObtenerSimilares(sim, cve, topN).value;
      var series := ObtenerSeriesVecinos(filas, vecinos);
      if |series| > 0 {
        assert series[0] in series;
      }
      if exists i :: 0 <= i < |filas| && filas[i].cvegeo in vecinos {
        var i :| 0 <= i < |filas| && filas[i].cvegeo in vecinos;
        assert filas[i] in series;
      }
    }
  }

  /** The ids of the table. */
  function Existentes(filas: seq<Registro>): (s: set<string>)
    ensures forall x :: x in s <==> exists i :: 0 <= i < |filas| && filas[i].cvegeo == x
  {
    if |filas| == 0 then {}
    else
      assert forall i :: 1 <= i < |filas| ==> filas[i] == filas[1..][i - 1];
      {filas[0].cvegeo} + Existentes(filas[1..])
  }

  /** `faltantes`: the ids of `lista_cvegeo` absent from the table, in list
      order (repeats kept). */
  function Faltantes(lista: seq<string>, existentes: set<string>): (r: seq<string>)
    ensures |r| <= |lista|
    ensures forall x :: x in r <==> x in lista && x !in existentes
  {
    if |lista| == 0 then []
    else
      var resto := Faltantes(lista[1..], existentes);
      assert forall x :: x in lista <==> x == lista[0] || x in lista[1..];
      if lista[0] in existentes then resto else [lista[0]] + resto
  }

  /** `faltantes` keeps the list order: it distributes over concatenation. */
  lemma {:induction false} FaltantesConcat(a: seq<string>, b: seq<string>, existentes: set<string>)
    ensures Faltantes(a + b, existentes) == Faltantes(a, existentes) + Faltantes(b, existentes)
  {
    if |a| == 0 {
      assert a + b == b;
    } else {
      assert (a + b)[1..] == a[1..] + b;
      FaltantesConcat(a[1..], b, existentes);
    }
  }

  function Aplanar(bs: seq<seq<Registro>>): seq<Registro> {
    if |bs| == 0 then [] else Aplanar(bs[..|bs| - 1]) + bs[|bs| - 1]
  }

  /** `rellenar_un_municipio` with the matrix, the table and `top_n` fixed:
      the function the loop of `completar_dataset` applies to each missing id. */
  function Rellenador(sim: Etiquetada, filas: seq<Registro>, topN: int): (f: string -> Result<seq<Registro>>)
    requires Valida(sim) && Distinct(sim.index)
    ensures forall cve :: f(cve) == RellenarUnMunicipio(sim, filas, cve, topN)
  {
    (cve: string) => RellenarUnMunicipio(sim, filas, cve, topN)
  }

  /** The imputed blocks of the missing ids, one per id. */
  function Bloques(f: string -> Result<seq<Registro>>, faltantes: seq<string>): (bs: seq<seq<Registro>>)
    requires forall k :: 0 <= k < |faltantes| ==> f(faltantes[k]).Ok?
    ensures |bs| == |faltantes|
  {
    seq(|faltantes|, k requires 0 <= k < |faltantes| => f(faltantes[k]).value)
  }

  /** The imputation of some missing id fails. */
  predicate AlgunaFalla(sim: Etiquetada, filas: seq<Registro>, faltantes: seq<string>, topN: int)
    requires Valida(sim) && Distinct(sim.index)
  {
    exists k :: 0 <= k < |faltantes| && RellenarUnMunicipio(sim, filas, faltantes[k], topN).Err?
  }

  /** The missing id at `k` is the first whose imputation fails. */
  predicate PrimerFallo(f: string -> Result<seq<Registro>>, faltantes: seq<string>, k: nat) {
    k < |faltantes| && f(faltantes[k]).Err? &&
    forall j :: 0 <= j < k ==> f(faltantes[j]).Ok?
  }

  /** The loop of `completar_dataset` over the missing ids, with `f` the
      imputation of one id from the original table: the first failure
      aborts the loop with its error, otherwise the blocks are concatenated
      in order. */
  method ImputarFaltantes(f: string -> Result<seq<Registro>>, faltantes: seq<string>)
    returns (r: Result<seq<Registro>>)
    ensures r.Err? <==> exists k :: 0 <= k < |faltantes| && f(faltantes[k]).Err?
    ensures r.Err? ==> exists k: nat :: (PrimerFallo(f, faltantes, k) && r.error == f(faltantes[k]).error)
    ensures r.Ok? ==> r.value == Aplanar(Bloques(f, faltantes))
  {
    var bloques: seq<seq<Registro>> := [];
    var imputadas: seq<Registro> := [];
    var k := 0;
    while k < |faltantes|
      invariant 0 <= k <= |faltantes| && |bloques| == k
      invariant forall j :: 0 <= j < k ==> f(faltantes[j]).Ok?
      invariant forall j :: 0 <= j < k ==> bloques[j] == f(faltantes[j]).value
      invariant imputadas == Aplanar(bloques)
    {
      var nueva := f(faltantes[k]);
      if nueva.Err? {
        assert PrimerFallo(f, faltantes, k);
        return Err(nueva.error);
      }
      assert (bloques + [nueva.value])[..k] == bloques;
      bloques := bloques + [nueva.value];
      imputadas := imputadas + nueva.value;
      k := k + 1;
    }
    assert bloques == Bloques(f, faltantes);
    return Ok(imputadas);
  }

  /** Every row of block `b` carries the id `cve`. */
  predicate Etiquetado(b: seq<Registro>, cve: string) {
    forall i :: 0 <= i < |b| ==> b[i].cvegeo == cve
  }

  /** When each block carries its own id, every row of the concatenation
      carries one of the ids. */
  lemma {:induction false} AplanarIds(bs: seq<seq<Registro>>, ids: seq<string>)
    requires |bs| == |ids|
    requires forall k :: 0 <= k < |bs| ==> Etiquetado(bs[k], ids[k])
    ensures forall i :: 0 <= i < |Aplanar(bs)| ==> Aplanar(bs)[i].cvegeo in ids
  {
    if |bs| > 0 {
      var n := |bs| - 1;
      AplanarIds(bs[..n], ids[..n]);
      var ini, xs := Aplanar(bs[..n]), Aplanar(bs);
      assert xs == ini + bs[n];
      forall i | 0 <= i < |xs|
        ensures xs[i].cvegeo in ids
      {
        if i >= |ini| {
          assert xs[i] == bs[n][i - |ini|];
          assert xs[i].cvegeo == ids[n];
        } else {
          assert xs[i] == ini[i];
          assert xs[i].cvegeo in ids[..n];
        }
      }
    }
  }

  /** `completar_dataset(df_incompleto, matriz_sim, lista_cvegeo, top_n)`.
      The missing ids are imputed in list order, each from the original rows
      only; the first failure aborts the whole call with its error. On
      success the result is the original rows, unchanged, followed by one
      block per missing id, each labelled with that id; with no missing id
      it is the table itself. */
  method CompletarDataset(filas: seq<Registro>, sim: Etiquetada, lista: seq<string>, topN: int)
    returns (r: Result<seq<Registro>>)
    requires Valida(sim) && Distinct(sim.index)
    ensures r.Err? <==> AlgunaFalla(sim, filas, Faltantes(lista, Existentes(filas)), topN)
    ensures var fs := Faltantes(lista, Existentes(filas));
      r.Err? ==> exists k: nat :: (PrimerFallo(Rellenador(sim, filas, topN), fs, k) &&
        r.error == RellenarUnMunicipio(sim, filas, fs[k], topN).error)
    ensures var fs := Faltantes(lista, Existentes(filas));
      r.Ok? ==> r.value == filas + Aplanar(Bloques(Rellenador(sim, filas, topN), fs))
    ensures r.Ok? ==> r.value[..|filas|] == filas
    ensures r.Ok? ==> forall i :: |filas| <= i < |r.value| ==>
      r.value[i].cvegeo in lista && r.value[i].cvegeo !in Existentes(filas)
    ensures Faltantes(lista, Existentes(filas)) == [] ==> r == Ok(filas)
  {
    var faltantes := Faltantes(lista, Existentes(filas));
    var f := Rellenador(sim, filas, topN);
    var res := ImputarFaltantes(f, faltantes);
    if res.Err? {
      var k: nat :| PrimerFallo(f, faltantes, k) && res.error == f(faltantes[k]).error;
      assert RellenarUnMunicipio(sim, filas, faltantes[k], topN).Err?;
      assert AlgunaFalla(sim, filas, faltantes, topN);
      r := Err(res.error);
      assert PrimerFallo(Rellenador(sim, filas, topN), faltantes, k) &&
        r.error == RellenarUnMunicipio(sim, filas, faltantes[k], topN).error;
      return;
    }
    var imputadas := res.value;
    assert forall k :: 0 <= k < |faltantes| ==> RellenarUnMunicipio(sim, filas, faltantes[k], topN).Ok? by {
      forall k | 0 <= k < |faltantes|
        ensures RellenarUnMunicipio(sim, filas, faltantes[k], topN).Ok?
      {
        assert f(faltantes[k]).Ok?;
      }
    }
    assert forall k :: 0 <= k < |faltantes| ==> Etiquetado(Bloques(f, faltantes)[k], faltantes[k]);
    AplanarIds(Bloques(f, faltantes), faltantes);
    r := Ok(filas + imputadas);
    assert r.value[..|filas|] == filas;
    assert forall i :: |filas| <= i < |r.value| ==> r.value[i] == imputadas[i - |filas|];
    if faltantes == [] {
      assert imputadas == [] && filas + [] == filas;
    }
  }
}

=== FILE: analisis_mensual.dfy ===
/** `src/analisis/analisis_mensual.py`: the month columns of a wide table
    (`limpiar_series_mensuales_sequia`), their order, and the report of
    missing values.

    The parquet read and write, the interpolation and the `guardado_en`
    path are not modelled. The table is its column labels and its rows; a
    cell is `None` when it is missing. */
module AnalisisMensual {
  import opened Text
  import opened Seqs
  import opened Wrappers
  import opened Aritmetica
  import opened Matrices

  // ---------------------------------------------------------------
  // month columns
  // ---------------------------------------------------------------

  /** A column label: pandas allows labels that are not strings. */
  datatype Columna = Nombre(s: string) | Otra(etiqueta: int)

  /** `len(c) == 7 and c[:4].isdigit() and c[4] == "-" and c[5:7].isdigit()`.
      The month is not range-checked. */
  predicate EsMesTexto(s: string) {
    |s| == 7 && AllDigits(s[..4]) && s[4] == '-' && AllDigits(s[5..])
  }

  /** `isinstance(c, str)` and the shape above. */
  predicate EsMes(c: Columna) {
    c.Nombre? && EsMesTexto(c.s)
  }

  /** The month columns in column order. Each string label of month shape
      appears as often as it labels a column, and nothing else appears. */
  function ColumnasMes(cols: seq<Columna>): (r: seq<string>)
    ensures forall s :: multiset(r)[s] == if EsMesTexto(s) then multiset(cols)[Nombre(s)] else 0
    ensures forall k :: 0 <= k < |r| ==> EsMesTexto(r[k])
  {
    if |cols| == 0 then []
    else
      assert cols == [cols[0]] + cols[1..];
      (if EsMes(cols[0]) then [cols[0].s] else []) + ColumnasMes(cols[1..])
  }

  /** A label is selected exactly when it is a string of month shape. */
  lemma ColumnaSeleccionada(cols: seq<Columna>, c: Columna)
    requires c in cols
    ensures EsMes(c) <==> c.Nombre? && c.s in ColumnasMes(cols)
  {
    if c.Nombre? {
      assert multiset(cols)[c] > 0;
    }
  }

  /** Only the shape is checked: a thirteenth month is accepted, while a
      short month, a letter among the digits or a non-string label is not. */
  lemma EjemplosDeMes()
    ensures EsMesTexto("2020-13")
    ensures EsMesTexto("1999-00")
    ensures !EsMesTexto("2020-1")
    ensures !EsMesTexto("2020/01")
    ensures !EsMesTexto("20a0-01")
    ensures !EsMes(Otra(202001))
  {
    assert "20a0-01"[..4][2] == 'a';
  }

  // ---------------------------------------------------------------
  // sorted(columnas_mes)
  // ---------------------------------------------------------------

  lemma StrLessAsimetrico(a: string, b: string)
    requires StrLess(a, b)
    ensures !StrLess(b, a)
  {
    if StrLess(b, a) {
      StrLessTransitive(a, b, a);
      StrLessIrreflexive(a);
    }
  }

  /** No later entry is smaller than an earlier one. */
  predicate Ordenada(xs: seq<string>) {
    forall i, j :: 0 <= i < j < |xs| ==> !StrLess(xs[j], xs[i])
  }

  function InsertarOrdenado(x: string, xs: seq<string>): (r: seq<string>)
    requires Ordenada(xs)
    ensures Ordenada(r)
    ensures multiset(r) == multiset(xs) + multiset{x}
  {
    if |xs| == 0 then [x]
    else if !StrLess(xs[0], x) then
      DelanteDeTodos(x, xs);
      [x] + xs
    else
      var resto := InsertarOrdenado(x, xs[1..]);
      assert xs == [xs[0]] + xs[1..];
      DetrasDeCabeza(x, xs, resto);
      [xs[0]] + resto
  }

  /** `x` goes first when the head is not smaller than it. */
  lemma DelanteDeTodos(x: string, xs: seq<string>)
    requires Ordenada(xs) && |xs| > 0 && !StrLess(xs[0], x)
    ensures Ordenada([x] + xs)
  {
    forall j | 0 <= j < |xs|
      ensures !StrLess(xs[j], x)
    {
      if StrLess(xs[j], x) {
        StrLessTotal(xs[0], xs[j]);
        if j > 0 {
          StrLessTransitive(xs[0], xs[j], x);
        }
      }
    }
  }

  /** The head stays first when `x` is inserted behind it. */
  lemma DetrasDeCabeza(x: string, xs: seq<string>, resto: seq<string>)
    requires Ordenada(xs) && |xs| > 0 && StrLess(xs[0], x)
    requires Ordenada(resto) && multiset(resto) == multiset(xs[1..]) + multiset{x}
    ensures Ordenada([xs[0]] + resto)
  {
    StrLessAsimetrico(xs[0], x);
    forall j | 0 <= j < |resto|
      ensures !StrLess(resto[j], xs[0])
    {
      assert resto[j] in multiset(xs[1..]) + multiset{x};
      if resto[j] != x {
        assert resto[j] in xs[1..];
      }
    }
  }

  /** `sorted(columnas_mes)`: the same labels in increasing order. */
  function Ordenar(xs: seq<string>): (r: seq<string>)
    ensures Ordenada(r)
    ensures multiset(r) == multiset(xs)
  {
    if |xs| == 0 then []
    else
      assert xs == [xs[0]] + xs[1..];
      InsertarOrdenado(xs[0], Ordenar(xs[1..]))
  }

  /** Two ordered arrangements of the same labels are the same sequence, so
      `Ordenar` is the one sorted permutation. */
  lemma {:induction false} OrdenadaUnica(a: seq<string>, b: seq<string>)
    requires Ordenada(a) && Ordenada(b) && multiset(a) == multiset(b)
    ensures a == b
  {
    if |a| > 0 {
      PrimeroIgual(a, b);
      assert a == [a[0]] + a[1..] && b == [b[0]] + b[1..];
      assert multiset(a[1..]) == multiset(b[1..]) by {
        assert multiset(a[1..]) == multiset(a) - multiset{a[0]};
        assert multiset(b[1..]) == multiset(b) - multiset{b[0]};
      }
      OrdenadaUnica(a[1..], b[1..]);
    }
  }

  /** Both start with the least label. */
  lemma PrimeroIgual(a: seq<string>, b: seq<string>)
    requires Ordenada(a) && Ordenada(b) && multiset(a) == multiset(b) && |a| > 0
    ensures |b| > 0 && a[0] == b[0]
  {
    assert a[0] in multiset(b) && b[0] in multiset(a);
    var i :| 0 <= i < |a| && a[i] == b[0];
    var j :| 0 <= j < |b| && b[j] == a[0];
    StrLessIrreflexive(a[0]);
    StrLessIrreflexive(b[0]);
    StrLessTotal(a[0], b[0]);
  }

  /** Any ordered permutation of the labels is what `sorted` returns. */
  lemma OrdenarEsLaPermutacionOrdenada(xs: seq<string>, ys: seq<string>)
    requires Ordenada(ys) && multiset(ys) == multiset(xs)
    ensures Ordenar(xs) == ys
  {
    OrdenadaUnica(Ordenar(xs), ys);
  }

  // ---------------------------------------------------------------
  // lexicographic order of YYYY-MM is chronological
  // ---------------------------------------------------------------

  function Digito(c: char): nat
    requires IsDigit(c)
  {
    c as int - '0' as int
  }

  /** The number a string of decimal digits writes. */
  function Valor(s: string): nat
    requires AllDigits(s)
  {
    if |s| == 0 then 0
    else
      assert AllDigits(s[..|s| - 1]) by {
        assert forall i :: 0 <= i < |s| - 1 ==> s[..|s| - 1][i] == s[i];
      }
      10 * Valor(s[..|s| - 1]) + Digito(s[|s| - 1])
  }

  /** For digit strings of one length, string order is numeric order, and
      equal strings are equal numbers. */
  lemma {:induction false} ValorOrden(a: string, b: string)
    requires AllDigits(a) && AllDigits(b) && |a| == |b|
    ensures StrLess(a, b) <==> Valor(a) < Valor(b)
    ensures a == b <==> Valor(a) == Valor(b)
  {
    if |a| > 0 {
      var n := |a|;
      var a1, b1 := a[..n - 1], b[..n - 1];
      assert AllDigits(a1) && AllDigits(b1) by {
        assert forall i :: 0 <= i < n - 1 ==> a1[i] == a[i] && b1[i] == b[i];
      }
      assert a == a1 + [a[n - 1]] && b == b1 + [b[n - 1]];
      StrLessConcat(a1, [a[n - 1]], b1, [b[n - 1]]);
      assert StrLess([a[n - 1]], [b[n - 1]]) <==> a[n - 1] < b[n - 1];
      ValorOrden(a1, b1);
    }
  }

  /** Comparing two concatenations whose first parts have one length
      compares the first parts, and on a tie the second parts. */
  lemma {:induction false} StrLessConcat(a1: string, a2: string, b1: string, b2: string)
    requires |a1| == |b1|
    ensures StrLess(a1 + a2, b1 + b2) <==> StrLess(a1, b1) || (a1 == b1 && StrLess(a2, b2))
  {
    if |a1| == 0 {
      assert a1 + a2 == a2 && b1 + b2 == b2;
    } else {
      assert (a1 + a2)[1..] == a1[1..] + a2 && (b1 + b2)[1..] == b1[1..] + b2;
      StrLessConcat(a1[1..], a2, b1[1..], b2);
      assert a1 == [a1[0]] + a1[1..] && b1 == [b1[0]] + b1[1..];
    }
  }

  function Anio(s: string): nat
    requires EsMesTexto(s)
  {
    Valor(s[..4])
  }

  function Mes(s: string): nat
    requires EsMesTexto(s)
  {
    Valor(s[5..])
  }

  /** Year first, then month number. */
  predicate Antes(a: string, b: string)
    requires EsMesTexto(a) && EsMesTexto(b)
  {
    Anio(a) < Anio(b) || (Anio(a) == Anio(b) && Mes(a) < Mes(b))
  }

  /** For month labels Python's string order is chronological order. */
  lemma OrdenCronologico(a: string, b: string)
    requires EsMesTexto(a) && EsMesTexto(b)
    ensures StrLess(a, b) <==> Antes(a, b)
  {
    assert a == a[..4] + a[4..] && b == b[..4] + b[4..];
    StrLessConcat(a[..4], a[4..], b[..4], b[4..]);
    assert a[4..][1..] == a[5..] && b[4..][1..] == b[5..];
    ValorOrden(a[..4], b[..4]);
    ValorOrden(a[5..], b[5..]);
  }

  /** `columnas_mes = sorted(columnas_mes)`: the month labels in
      chronological order, each as often as it labels a column. */
  function MesesOrdenados(cols: seq<Columna>): (r: seq<string>)
    ensures forall s :: multiset(r)[s] == if EsMesTexto(s) then multiset(cols)[Nombre(s)] else 0
    ensures forall k :: 0 <= k < |r| ==> EsMesTexto(r[k])
    ensures forall i, j :: 0 <= i < j < |r| ==> !Antes(r[j], r[i])
  {
    var meses := ColumnasMes(cols);
    var r := Ordenar(meses);
    assert forall k :: 0 <= k < |r| ==> EsMesTexto(r[k]) by {
      forall k | 0 <= k < |r|
        ensures EsMesTexto(r[k])
      {
        assert r[k] in multiset(meses);
      }
    }
    forall i, j | 0 <= i < j < |r|
      ensures !Antes(r[j], r[i])
    {
      OrdenCronologico(r[j], r[i]);
    }
    r
  }

  /** January 2021 comes after December 2020, and the unchecked thirteenth
      month of 2020 falls between them. */
  lemma EjemploCronologico()
    ensures Ordenar(["2021-01", "2020-13", "2020-12"]) == ["2020-12", "2020-13", "2021-01"]
  {
    var xs, ys := ["2021-01", "2020-13", "2020-12"], ["2020-12", "2020-13", "2021-01"];
    EjemploOrdenado();
    assert multiset(ys) == multiset(xs);
    OrdenarEsLaPermutacionOrdenada(xs, ys);
  }

  lemma EjemploOrdenado()
    ensures Ordenada(["2020-12", "2020-13", "2021-01"])
  {
    var ys := ["2020-12", "2020-13", "2021-01"];
    assert StrLess(ys[0], ys[1]) by {
      assert ys[0][..6] == ys[1][..6];
      StrLessFirstDifference(ys[0], ys[1], 6);
    }
    assert StrLess(ys[1], ys[2]) by {
      assert ys[1][..3] == ys[2][..3];
      StrLessFirstDifference(ys[1], ys[2], 3);
    }
    StrLessAsimetrico(ys[0], ys[1]);
    StrLessAsimetrico(ys[1], ys[2]);
    StrLessTransitive(ys[0], ys[1], ys[2]);
    StrLessAsimetrico(ys[0], ys[2]);
  }

  // ---------------------------------------------------------------
  // the report
  // ---------------------------------------------------------------

  /** The wide table: column labels and rows of cells. */
  datatype Tabla = Tabla(columnas: seq<Columna>, filas: seq<seq<Option<real>>>)

  predicate BienFormada(t: Tabla) {
    forall r :: 0 <= r < |t.filas| ==> |t.filas[r]| == |t.columnas|
  }

  /** The cell of row `r` in the column labelled `s` is missing. */
  predicate Falta(t: Tabla, r: int, s: string) {
    && 0 <= r < |t.filas|
    && Nombre(s) in t.columnas
    && IndexOf(t.columnas, Nombre(s)) < |t.filas[r]|
    && t.filas[r][IndexOf(t.columnas, Nombre(s))].None?
  }

  /** `df[columnas_mes].isna().any(axis=1)` at row `r`. */
  predicate FilaIncompleta(t: Tabla, meses: seq<string>, r: int) {
    exists j :: 0 <= j < |meses| && Falta(t, r, meses[j])
  }

  /** `df[columnas_mes].isna().any(axis=0)` at the column labelled `s`. */
  predicate ColumnaIncompleta(t: Tabla, s: string) {
    exists r :: 0 <= r < |t.filas| && Falta(t, r, s)
  }

  /** How many of the first `n` rows miss a month:
      `isna().any(axis=1).sum()` over them. */
  function FilasIncompletas(t: Tabla, meses: seq<string>, n: nat): (c: nat)
    ensures c <= n
    ensures c == 0 <==> forall r :: 0 <= r < n ==> !FilaIncompleta(t, meses, r)
  {
    if n == 0 then 0
    else FilasIncompletas(t, meses, n - 1) + (if FilaIncompleta(t, meses, n - 1) then 1 else 0)
  }

  /** How many of the first `n` months miss a row:
      `isna().any(axis=0).sum()` over them. */
  function MesesIncompletos(t: Tabla, meses: seq<string>, n: nat): (c: nat)
    requires n <= |meses|
    ensures c <= n
    ensures c == 0 <==> forall j :: 0 <= j < n ==> !ColumnaIncompleta(t, meses[j])
  {
    if n == 0 then 0
    else MesesIncompletos(t, meses, n - 1) + (if ColumnaIncompleta(t, meses[n - 1]) then 1 else 0)
  }

  /** Adding position `n - 1` to the range adds one to the size of the set
      of positions that satisfy `p` exactly when it satisfies `p`. */
  lemma CuentaPaso(p: int -> bool, n: nat)
    requires n > 0
    ensures |set r | 0 <= r < n && p(r)| == |set r | 0 <= r < n - 1 && p(r)| + (if p(n - 1) then 1 else 0)
  {
    var antes := set r | 0 <= r < n - 1 && p(r);
    var ahora := set r | 0 <= r < n && p(r);
    if p(n - 1) {
      assert ahora == antes + {n - 1};
    } else {
      assert ahora == antes;
    }
  }

  /** The incomplete rows among the first `n`, counted one by one, are the
      set of such rows. */
  lemma {:induction false} FilasIncompletasCuenta(t: Tabla, meses: seq<string>, n: nat)
    ensures FilasIncompletas(t, meses, n) == |set r | 0 <= r < n && FilaIncompleta(t, meses, r)|
  {
    var p := r => FilaIncompleta(t, meses, r);
    FilasIncompletasCuentaP(t, meses, p, n);
    assert (set r | 0 <= r < n && p(r)) == set r | 0 <= r < n && FilaIncompleta(t, meses, r);
  }

  lemma {:induction false} FilasIncompletasCuentaP(t: Tabla, meses: seq<string>, p: int -> bool, n: nat)
    requires forall r :: p(r) == FilaIncompleta(t, meses, r)
    ensures FilasIncompletas(t, meses, n) == |set r | 0 <= r < n && p(r)|
  {
    if n > 0 {
      FilasIncompletasCuentaP(t, meses, p, n - 1);
      CuentaPaso(p, n);
    }
  }

  /** The incomplete months among the first `n`, counted one by one, are
      the set of positions of such months. */
  lemma {:induction false} MesesIncompletosCuenta(t: Tabla, meses: seq<string>, n: nat)
    requires n <= |meses|
    ensures MesesIncompletos(t, meses, n) == |set j | 0 <= j < n && ColumnaIncompleta(t, meses[j])|
  {
    var p := j => 0 <= j < |meses| && ColumnaIncompleta(t, meses[j]);
    MesesIncompletosCuentaP(t, meses, p, n);
    assert (set j | 0 <= j < n && p(j)) == set j | 0 <= j < n && ColumnaIncompleta(t, meses[j]);
  }

  lemma {:induction false} MesesIncompletosCuentaP(t: Tabla, meses: seq<string>, p: int -> bool, n: nat)
    requires n <= |meses|
    requires forall j :: 0 <= j < |meses| ==> p(j) == ColumnaIncompleta(t, meses[j])
    ensures MesesIncompletos(t, meses, n) == |set j | 0 <= j < n && p(j)|
  {
    if n > 0 {
      MesesIncompletosCuentaP(t, meses, p, n - 1);
      CuentaPaso(p, n);
    }
  }

  datatype Reporte = Reporte(
    inputRows: nat,
    inputCols: nat,
    mesesDetectados: nat,
    mesesListaSample: seq<string>,
    numMunicipios: nat,
    numMeses: nat,
    municipiosConFaltantes: nat,
    mesesConFaltantes: nat)

  /** No month cell of the table is missing. */
  predicate SinFaltantes(t: Tabla, meses: seq<string>) {
    forall r, j :: 0 <= r < |t.filas| && 0 <= j < |meses| ==> !Falta(t, r, meses[j])
  }

  /** The report of `limpiar_series_mensuales_sequia`. The table's sizes,
      the number of month columns twice, the first five months in order,
      and how many rows and how many month columns have a missing value:
      the sizes of the sets of incomplete rows and incomplete months. Each
      count is 0 exactly when no month cell is missing. Column labels are
      unique. */
  function Reportar(t: Tabla): (rep: Reporte)
    requires BienFormada(t) && Distinct(t.columnas)
    ensures var meses := MesesOrdenados(t.columnas);
      && rep.inputRows == rep.numMunicipios == |t.filas|
      && rep.inputCols == |t.columnas|
      && rep.mesesDetectados == rep.numMeses == |meses|
      && rep.mesesListaSample <= meses && |rep.mesesListaSample| == Min(5, |meses|)
      && rep.municipiosConFaltantes <= rep.inputRows
      && rep.mesesConFaltantes <= rep.numMeses
      && (rep.municipiosConFaltantes == 0 <==> SinFaltantes(t, meses))
      && (rep.mesesConFaltantes == 0 <==> SinFaltantes(t, meses))
      && rep.municipiosConFaltantes == |set r | 0 <= r < |t.filas| && FilaIncompleta(t, meses, r)|
      && rep.mesesConFaltantes == |set j | 0 <= j < |meses| && ColumnaIncompleta(t, meses[j])|
  {
    var meses := MesesOrdenados(t.columnas);
    var filasIncompletas := FilasIncompletas(t, meses, |t.filas|);
    var mesesIncompletos := MesesIncompletos(t, meses, |meses|);
    FilasIncompletasCuenta(t, meses, |t.filas|);
    MesesIncompletosCuenta(t, meses, |meses|);
    FilasSinFaltantes(t, meses);
    MesesSinFaltantes(t, meses);
    Reporte(|t.filas|, |t.columnas|, |meses|, Head(meses, 5), |t.filas|, |meses|,
            filasIncompletas, mesesIncompletos)
  }

  /** No row misses a month exactly when no month cell is missing. */
  lemma FilasSinFaltantes(t: Tabla, meses: seq<string>)
    ensures FilasIncompletas(t, meses, |t.filas|) == 0 <==> SinFaltantes(t, meses)
  {
    if !SinFaltantes(t, meses) {
      var r, j :| 0 <= r < |t.filas| && 0 <= j < |meses| && Falta(t, r, meses[j]);
      assert FilaIncompleta(t, meses, r);
    }
  }

  /** No month misses a row exactly when no month cell is missing. */
  lemma MesesSinFaltantes(t: Tabla, meses: seq<string>)
    ensures MesesIncompletos(t, meses, |meses|) == 0 <==> SinFaltantes(t, meses)
  {
    if !SinFaltantes(t, meses) {
      var r, j :| 0 <= r < |t.filas| && 0 <= j < |meses| && Falta(t, r, meses[j]);
      assert ColumnaIncompleta(t, meses[j]);
    }
  }

  /** With no month column, nothing is reported missing. */
  lemma SinMeses(t: Tabla)
    requires BienFormada(t) && Distinct(t.columnas)
    requires forall k :: 0 <= k < |t.columnas| ==> !EsMes(t.columnas[k])
    ensures Reportar(t).numMeses == 0
    ensures Reportar(t).municipiosConFaltantes == 0 && Reportar(t).mesesConFaltantes == 0
  {
    var meses := MesesOrdenados(t.columnas);
    forall s | EsMesTexto(s)
      ensures multiset(meses)[s] == 0
    {
      assert Nombre(s) !in t.columnas;
    }
    assert multiset(meses) == multiset{};
  }
}

=== FILE: analisis_numerico.dfy ===
/** `src/analisis/analisis_numerico.py`: the proportional similarity of two
    numbers, the parsing of range strings such as "18-22", the dispatch
    between numbers and ranges, and the municipality comparator over the
    precipitation, temperature and climate-unit tables.

    `float()` applied to a string is the parameter `parse`: `Some(x)` when
    the conversion succeeds, `None` when it raises. */
module AnalisisNumerico {
  import opened Wrappers
  import opened Text
  import opened Tablas
  import Helpers

  /** A Python float: a real, or NaN. `read_csv` reads a blank cell of a
      numeric table as NaN. Infinities are not modelled. */
  datatype Flotante = Finito(r: real) | NaN

  /** A table cell: a float (NaN included), a string, or `None`. */
  datatype Valor = Num(x: Flotante) | Str(s: string) | Nulo

  /** What the model assumes of `float()` on strings: the empty string is
      not a number. */
  predicate ParseLike(parse: string -> Option<real>) {
    parse("").None?
  }

  function Abs(x: real): real {
    if x < 0.0 then -x else x
  }

  function MaxReal(a: real, b: real): real {
    if a >= b then a else b
  }

  /** `a / b` for `0 <= a <= b`, `b > 0`, lies in [0, 1]. */
  lemma CocienteUnitario(a: real, b: real)
    requires 0.0 <= a <= b && b > 0.0
    ensures 0.0 <= a / b <= 1.0
  {
    assert a / b * b == a;
  }

  /** `similitud_proporcional(x1, x2) = 1 - |x1 - x2| / max(|x1|, |x2|)`,
      and 1 at (0, 0). It is 1 exactly on equal inputs, at most 1 and at
      least -1; for inputs of the same sign it lies in [0, 1]. */
  function SimilitudProporcional(x1: real, x2: real): (s: real)
    ensures s == 1.0 <==> x1 == x2
    ensures -1.0 <= s <= 1.0
    ensures (x1 >= 0.0 && x2 >= 0.0) || (x1 <= 0.0 && x2 <= 0.0) ==> 0.0 <= s
  {
    if x1 == 0.0 && x2 == 0.0 then 1.0
    else
      var maxVal := MaxReal(Abs(x1), Abs(x2));
      var diff := Abs(x1 - x2);
      if maxVal != 0.0 then
        CotasCociente(x1, x2, maxVal, diff);
        1.0 - diff / maxVal
      else 0.0
  }

  lemma CotasCociente(x1: real, x2: real, maxVal: real, diff: real)
    requires maxVal == MaxReal(Abs(x1), Abs(x2)) && maxVal != 0.0
    requires diff == Abs(x1 - x2)
    ensures -1.0 <= 1.0 - diff / maxVal <= 1.0
    ensures 1.0 - diff / maxVal == 1.0 <==> x1 == x2
    ensures (x1 >= 0.0 && x2 >= 0.0) || (x1 <= 0.0 && x2 <= 0.0) ==> 0.0 <= 1.0 - diff / maxVal
  {
    CocienteUnitario(diff / 2.0, maxVal);
    if (x1 >= 0.0 && x2 >= 0.0) || (x1 <= 0.0 && x2 <= 0.0) {
      CocienteUnitario(diff, maxVal);
    }
    assert diff / maxVal == 2.0 * (diff / 2.0 / maxVal);
    if x1 != x2 {
      assert diff > 0.0;
      assert diff / maxVal > 0.0;
    }
  }

  lemma SimilitudProporcionalSimetrica(x1: real, x2: real)
    ensures SimilitudProporcional(x1, x2) == SimilitudProporcional(x2, x1)
  {
    assert Abs(x1 - x2) == Abs(x2 - x1);
  }

  /** The `else 0.0` branch is dead: outside (0, 0) the larger magnitude is
      positive. */
  lemma SinDivisionPorCero(x1: real, x2: real)
    ensures !(x1 == 0.0 && x2 == 0.0) <==> MaxReal(Abs(x1), Abs(x2)) > 0.0
  {
  }

  /** Opposite signs leave [0, 1]: `similitud_proporcional(5, -5) == -1`. */
  lemma SimilitudProporcionalNegativa()
    ensures SimilitudProporcional(5.0, -5.0) == -1.0
  {
  }

  /** `x == 0`, which is false for NaN. */
  predicate EsCero(x: Flotante) {
    x.Finito? && x.r == 0.0
  }

  /** `a > b`: every comparison with NaN is false. */
  predicate Mayor(a: Flotante, b: Flotante) {
    a.Finito? && b.Finito? && a.r > b.r
  }

  /** Python's `max(a, b)`: `b` replaces `a` only when `b > a`, so the first
      argument is kept whenever NaN is involved. */
  function MaxPy(a: Flotante, b: Flotante): (m: Flotante)
    ensures a.Finito? && b.Finito? ==> m == Finito(MaxReal(a.r, b.r))
    ensures a.NaN? ==> m.NaN?
    ensures a.Finito? && b.NaN? ==> m == a
  {
    if Mayor(b, a) then b else a
  }

  function AbsF(x: Flotante): Flotante {
    match x
    case Finito(v) => Finito(Abs(v))
    case NaN => NaN
  }

  function RestaF(a: Flotante, b: Flotante): Flotante {
    if a.Finito? && b.Finito? then Finito(a.r - b.r) else NaN
  }

  /** `similitud_proporcional` on Python floats, step by step. On two
      numbers it is `SimilitudProporcional`. A NaN first argument gives
      NaN. A NaN second argument gives NaN too, except against 0: there
      `max(0, nan)` is 0 and the `else 0.0` branch is taken. */
  function SimilitudProporcionalF(x1: Flotante, x2: Flotante): (s: Flotante)
    ensures x1.Finito? && x2.Finito? ==> s == Finito(SimilitudProporcional(x1.r, x2.r))
    ensures x1.NaN? ==> s.NaN?
    ensures x1.Finito? && x2.NaN? ==> s == if x1.r == 0.0 then Finito(0.0) else NaN
  {
    if EsCero(x1) && EsCero(x2) then Finito(1.0)
    else
      var maxVal := MaxPy(AbsF(x1), AbsF(x2));
      var diff := AbsF(RestaF(x1, x2));
      if maxVal != Finito(0.0) then
        if maxVal.Finito? && diff.Finito? then Finito(1.0 - diff.r / maxVal.r) else NaN
      else Finito(0.0)
  }

  /** With NaN the similarity is not symmetric: (0, NaN) gives 0.0 and
      (NaN, 0) gives NaN. */
  lemma SimilitudProporcionalNaNAsimetrica()
    ensures SimilitudProporcionalF(Finito(0.0), NaN) == Finito(0.0)
    ensures SimilitudProporcionalF(NaN, Finito(0.0)).NaN?
  {
  }

  /** `(a + b + c) / 3` on floats: NaN exactly when a term is NaN, and the
      mean of three scores in [-1, 1] lies in [-1, 1]. */
  function Media3(a: Flotante, b: Flotante, c: Flotante): (m: Flotante)
    ensures m.NaN? <==> a.NaN? || b.NaN? || c.NaN?
    ensures m.Finito? && -1.0 <= a.r <= 1.0 && -1.0 <= b.r <= 1.0 && -1.0 <= c.r <= 1.0 ==> -1.0 <= m.r <= 1.0
  {
    if a.Finito? && b.Finito? && c.Finito? then Finito((a.r + b.r + c.r) / 3.0) else NaN
  }

  /** The mean of three scores at most 1 is 1 exactly when all three are. */
  lemma Media3Uno(a: Flotante, b: Flotante, c: Flotante)
    requires a.Finito? && b.Finito? && c.Finito? && a.r <= 1.0 && b.r <= 1.0 && c.r <= 1.0
    ensures Media3(a, b, c) == Finito(1.0) <==> a.r == 1.0 && b.r == 1.0 && c.r == 1.0
  {
  }

  /** `es_numerico(v)`: `float(v)` succeeds. */
  predicate EsNumerico(parse: string -> Option<real>, v: Valor) {
    match v
    case Num(_) => true
    case Str(s) => parse(s).Some?
    case Nulo => false
  }

  /** `float(v)` on a value for which it succeeds: NaN only for a NaN cell. */
  function AFloat(parse: string -> Option<real>, v: Valor): (x: Flotante)
    requires EsNumerico(parse, v)
    ensures x.NaN? <==> v == Num(NaN)
  {
    match v
    case Num(x) => x
    case Str(s) => Finito(parse(s).value)
  }

  /** `es_rango(v)`: a string containing '-'. */
  predicate EsRango(v: Valor) {
    v.Str? && '-' in v.s
  }

  /** `rango_a_promedio(rango)`: the mean of the two numbers around the one
      '-'; any failure (not a string, not exactly two parts, a part that
      does not parse) gives 0.0. */
  function RangoAPromedio(parse: string -> Option<real>, v: Valor): (r: real)
    ensures !v.Str? ==> r == 0.0
    ensures v.Str? && CountChar(v.s, '-') != 1 ==> r == 0.0
    ensures v.Str? && CountChar(v.s, '-') == 1 ==>
      var lo, hi := parse(Strip(Split(v.s, '-')[0])), parse(Strip(Split(v.s, '-')[1]));
      && (lo.None? || hi.None? ==> r == 0.0)
      && (lo.Some? && hi.Some? ==> r == (lo.value + hi.value) / 2.0)
  {
    if !v.Str? then 0.0
    else
      var parts := Split(v.s, '-');
      SplitParts(v.s, '-');
      if |parts| != 2 then 0.0
      else
        match (parse(Strip(parts[0])), parse(Strip(parts[1])))
        case (Some(a), Some(b)) => (a + b) / 2.0
        case _ => 0.0
  }

  /** For a string `lo + "-" + hi` whose halves have no '-' and parse (after
      strip) to `a` and `b`, the result is `(a + b) / 2`. */
  lemma RangoAPromedioDeRango(parse: string -> Option<real>, lo: string, hi: string, a: real, b: real)
    requires '-' !in lo && '-' !in hi
    requires parse(Strip(lo)) == Some(a) && parse(Strip(hi)) == Some(b)
    ensures RangoAPromedio(parse, Str(lo + "-" + hi)) == (a + b) / 2.0
  {
    SplitJoin([lo, hi], '-');
    assert Join([lo, hi], "-") == lo + "-" + Join([hi], "-");
  }

  /** "1-2-3" has three parts and "-5" has an empty first part: both give 0.0. */
  lemma RangoAPromedioMalFormado(parse: string -> Option<real>)
    requires ParseLike(parse)
    ensures RangoAPromedio(parse, Str("1-2-3")) == 0.0
    ensures RangoAPromedio(parse, Str("-5")) == 0.0
  {
    assert "-5"[1..] == "5";
    SplitNoSeparator("5", '-');
    assert Split("-5", '-') == ["", "5"];
    assert Strip("") == "";
  }

  /** `comparar_valores_num(v1, v2)`: two numbers, then two ranges, then the
      two mixed cases; anything else scores 0.0. A NaN cell is a number
      (`float(nan)` succeeds), so it reaches `similitud_proporcional`. */
  function ComparaValoresNum(parse: string -> Option<real>, v1: Valor, v2: Valor): (s: Flotante)
    ensures s.Finito? ==> -1.0 <= s.r <= 1.0
    ensures !(EsNumerico(parse, v1) || EsRango(v1)) ==> s == Finito(0.0)
    ensures !(EsNumerico(parse, v2) || EsRango(v2)) ==> s == Finito(0.0)
    // two numbers are compared as numbers, even when they also look like ranges
    ensures EsNumerico(parse, v1) && EsNumerico(parse, v2) ==>
      s == SimilitudProporcionalF(AFloat(parse, v1), AFloat(parse, v2))
    ensures !(EsNumerico(parse, v1) && EsNumerico(parse, v2)) && EsRango(v1) && EsRango(v2) ==>
      s == Finito(SimilitudProporcional(RangoAPromedio(parse, v1), RangoAPromedio(parse, v2)))
    // a range against a number that is not itself a range
    ensures EsRango(v1) && !EsRango(v2) && EsNumerico(parse, v2) && !EsNumerico(parse, v1) ==>
      s == SimilitudProporcionalF(Finito(RangoAPromedio(parse, v1)), AFloat(parse, v2))
    ensures EsRango(v2) && !EsRango(v1) && EsNumerico(parse, v1) && !EsNumerico(parse, v2) ==>
      s == SimilitudProporcionalF(AFloat(parse, v1), Finito(RangoAPromedio(parse, v2)))
    // NaN comes only from a NaN cell, and a NaN first value that is compared gives NaN
    ensures s.NaN? ==> v1 == Num(NaN) || v2 == Num(NaN)
    ensures v1 == Num(NaN) && (EsNumerico(parse, v2) || EsRango(v2)) ==> s.NaN?
  {
    if EsNumerico(parse, v1) && EsNumerico(parse, v2) then
      SimilitudProporcionalF(AFloat(parse, v1), AFloat(parse, v2))
    else if EsRango(v1) && EsRango(v2) then
      SimilitudProporcionalF(Finito(RangoAPromedio(parse, v1)), Finito(RangoAPromedio(parse, v2)))
    else if EsRango(v1) && EsNumerico(parse, v2) then
      SimilitudProporcionalF(Finito(RangoAPromedio(parse, v1)), AFloat(parse, v2))
    else if EsRango(v2) && EsNumerico(parse, v1) then
      SimilitudProporcionalF(AFloat(parse, v1), Finito(RangoAPromedio(parse, v2)))
    else Finito(0.0)
  }

  /** Without NaN cells the dispatch gives the same score whichever value
      comes first. */
  lemma ComparaValoresNumSimetrica(parse: string -> Option<real>, v1: Valor, v2: Valor)
    ensures v1 != Num(NaN) && v2 != Num(NaN) ==>
      ComparaValoresNum(parse, v1, v2) == ComparaValoresNum(parse, v2, v1)
  {
    if v1 != Num(NaN) && v2 != Num(NaN) {
      if EsNumerico(parse, v1) && EsNumerico(parse, v2) {
        SimilitudProporcionalSimetrica(AFloat(parse, v1).r, AFloat(parse, v2).r);
      } else if EsRango(v1) && EsRango(v2) {
        SimilitudProporcionalSimetrica(RangoAPromedio(parse, v1), RangoAPromedio(parse, v2));
      } else if EsRango(v1) && EsNumerico(parse, v2) {
        SimilitudProporcionalSimetrica(RangoAPromedio(parse, v1), AFloat(parse, v2).r);
      } else if EsRango(v2) && EsNumerico(parse, v1) {
        SimilitudProporcionalSimetrica(AFloat(parse, v1).r, RangoAPromedio(parse, v2));
      }
    }
  }

  /** A NaN cell breaks the symmetry: against the number 0 it scores 0.0
      when it comes second and NaN when it comes first. */
  lemma ComparaValoresNumNaNAsimetrica(parse: string -> Option<real>)
    ensures ComparaValoresNum(parse, Num(Finito(0.0)), Num(NaN)) == Finito(0.0)
    ensures ComparaValoresNum(parse, Num(NaN), Num(Finito(0.0))).NaN?
  {
    SimilitudProporcionalNaNAsimetrica();
  }

  /** The numeric test comes first: "-5" parses, so against 5 it scores as
      the number -5 (giving -1), not as a malformed range (whose mean 0.0
      would give 0). */
  lemma NumeroAntesQueRango(parse: string -> Option<real>)
    requires ParseLike(parse) && parse("-5") == Some(-5.0)
    ensures EsRango(Str("-5")) && EsNumerico(parse, Str("-5"))
    ensures ComparaValoresNum(parse, Str("-5"), Num(Finito(5.0))) == Finito(-1.0)
    ensures SimilitudProporcional(RangoAPromedio(parse, Str("-5")), 5.0) == 0.0
  {
    assert "-5"[0] == '-';
    assert AFloat(parse, Str("-5")) == Finito(-5.0);
    SimilitudProporcionalNegativa();
    SimilitudProporcionalSimetrica(5.0, -5.0);
    RangoAPromedioMalFormado(parse);
    assert SimilitudProporcional(0.0, 5.0) == 1.0 - 5.0 / 5.0;
  }

  /** A number or a range compared with itself scores 1, except a NaN cell,
      which scores NaN. */
  lemma ComparaValoresNumReflexiva(parse: string -> Option<real>, v: Valor)
    requires EsNumerico(parse, v) || EsRango(v)
    ensures ComparaValoresNum(parse, v, v) == Finito(1.0) <==> v != Num(NaN)
    ensures v == Num(NaN) ==> ComparaValoresNum(parse, v, v).NaN?
  {
  }

  /** None of six looked-up cells is NaN. */
  predicate LecturasSinNaN(p1: Option<Valor>, p2: Option<Valor>, t1: Option<Valor>, t2: Option<Valor>,
                           u1: Option<Flotante>, u2: Option<Flotante>) {
    && p1 != Some(Num(NaN)) && p2 != Some(Num(NaN))
    && t1 != Some(Num(NaN)) && t2 != Some(Num(NaN))
    && u1 != Some(NaN) && u2 != Some(NaN)
  }

  /** None of the six looked-up cells of `m1` and `m2` is NaN. */
  predicate CeldasSinNaN(precipitacion: Tabla<Valor>, temperatura: Tabla<Valor>, unidades: Tabla<Flotante>,
                         m1: string, m2: string) {
    LecturasSinNaN(Primero(precipitacion, m1), Primero(precipitacion, m2),
                   Primero(temperatura, m1), Primero(temperatura, m2),
                   Primero(unidades, m1), Primero(unidades, m2))
  }

  /** `comparar_municipios_num(mun1, mun2)`: after zero-padding both ids,
      the first row of each id in each of the three tables; None as soon
      as one of the six lookups is empty, otherwise the mean of the three
      component scores (ranges for precipitation and temperature, the
      climate-unit number compared directly). The mean is NaN when a
      component is: always when the first id's `TIPO_N` is NaN, never
      when no looked-up cell is NaN. */
  function ComparaMunicipiosNum(parse: string -> Option<real>, precipitacion: Tabla<Valor>,
                                temperatura: Tabla<Valor>, unidades: Tabla<Flotante>,
                                mun1: string, mun2: string): (r: Option<Flotante>)
    ensures r.None? <==>
      var m1, m2 := Helpers.NormalizarCvegeo(mun1), Helpers.NormalizarCvegeo(mun2);
      !Tiene(precipitacion, m1) || !Tiene(precipitacion, m2)
      || !Tiene(temperatura, m1) || !Tiene(temperatura, m2)
      || !Tiene(unidades, m1) || !Tiene(unidades, m2)
    ensures r.Some? && r.value.Finito? ==> -1.0 <= r.value.r <= 1.0
    ensures r.Some? && Primero(unidades, Helpers.NormalizarCvegeo(mun1)) == Some(NaN) ==> r.value.NaN?
    ensures r.Some? && CeldasSinNaN(precipitacion, temperatura, unidades,
                                    Helpers.NormalizarCvegeo(mun1), Helpers.NormalizarCvegeo(mun2)) ==>
      r.value.Finito?
  {
    var m1, m2 := Helpers.NormalizarCvegeo(mun1), Helpers.NormalizarCvegeo(mun2);
    Combinar(parse, Primero(precipitacion, m1), Primero(precipitacion, m2),
             Primero(temperatura, m1), Primero(temperatura, m2),
             Primero(unidades, m1), Primero(unidades, m2))
  }

  /** The three component scores of two looked-up rows, averaged; None
      when a lookup came back empty. */
  function Combinar(parse: string -> Option<real>, p1: Option<Valor>, p2: Option<Valor>,
                    t1: Option<Valor>, t2: Option<Valor>, u1: Option<Flotante>, u2: Option<Flotante>): (r: Option<Flotante>)
    ensures r.None? <==> p1.None? || p2.None? || t1.None? || t2.None? || u1.None? || u2.None?
    ensures r.Some? && r.value.Finito? ==> -1.0 <= r.value.r <= 1.0
    ensures r.Some? && u1 == Some(NaN) ==> r.value.NaN?
    ensures r.Some? && LecturasSinNaN(p1, p2, t1, t2, u1, u2) ==> r.value.Finito?
  {
    if p1.None? || p2.None? then None
    else if t1.None? || t2.None? then None
    else if u1.None? || u2.None? then None
    else Some(Puntaje(parse, p1.value, p2.value, t1.value, t2.value, u1.value, u2.value))
  }

  /** `(sim_prec + sim_temp + sim_uni) / 3` on the six looked-up cells. */
  function Puntaje(parse: string -> Option<real>, p1: Valor, p2: Valor, t1: Valor, t2: Valor,
                   u1: Flotante, u2: Flotante): (s: Flotante)
    ensures s.Finito? ==> -1.0 <= s.r <= 1.0
    ensures u1.NaN? ==> s.NaN?
    ensures p1 != Num(NaN) && p2 != Num(NaN) && t1 != Num(NaN) && t2 != Num(NaN) && u1.Finito? && u2.Finito? ==>
      s.Finito?
  {
    var simPrec := ComparaValoresNum(parse, p1, p2);
    var simTemp := ComparaValoresNum(parse, t1, t2);
    var simUni := SimilitudProporcionalF(u1, u2);
    Media3(simPrec, simTemp, simUni)
  }

  lemma CombinarSimetrica(parse: string -> Option<real>, p1: Option<Valor>, p2: Option<Valor>,
                          t1: Option<Valor>, t2: Option<Valor>, u1: Option<Flotante>, u2: Option<Flotante>)
    ensures LecturasSinNaN(p1, p2, t1, t2, u1, u2) ==>
      Combinar(parse, p1, p2, t1, t2, u1, u2) == Combinar(parse, p2, p1, t2, t1, u2, u1)
  {
    if p1.Some? && p2.Some? && t1.Some? && t2.Some? && u1.Some? && u2.Some? && LecturasSinNaN(p1, p2, t1, t2, u1, u2) {
      PuntajeSimetrico(parse, p1.value, p2.value, t1.value, t2.value, u1.value, u2.value);
    }
  }

  /** Without NaN cells the score of two rows does not depend on their order. */
  lemma PuntajeSimetrico(parse: string -> Option<real>, p1: Valor, p2: Valor, t1: Valor, t2: Valor,
                         u1: Flotante, u2: Flotante)
    requires p1 != Num(NaN) && p2 != Num(NaN) && t1 != Num(NaN) && t2 != Num(NaN) && u1.Finito? && u2.Finito?
    ensures Puntaje(parse, p1, p2, t1, t2, u1, u2) == Puntaje(parse, p2, p1, t2, t1, u2, u1)
  {
    ComparaValoresNumSimetrica(parse, p1, p2);
    ComparaValoresNumSimetrica(parse, t1, t2);
    SimilitudProporcionalSimetrica(u1.r, u2.r);
    assert SimilitudProporcionalF(u1, u2) == SimilitudProporcionalF(u2, u1);
  }

  /** Without NaN cells, comparing two municipalities does not depend on
      their order. */
  lemma ComparaMunicipiosNumSimetrica(parse: string -> Option<real>, precipitacion: Tabla<Valor>,
                                      temperatura: Tabla<Valor>, unidades: Tabla<Flotante>,
                                      mun1: string, mun2: string)
    ensures CeldasSinNaN(precipitacion, temperatura, unidades,
                         Helpers.NormalizarCvegeo(mun1), Helpers.NormalizarCvegeo(mun2)) ==>
      ComparaMunicipiosNum(parse, precipitacion, temperatura, unidades, mun1, mun2)
      == ComparaMunicipiosNum(parse, precipitacion, temperatura, unidades, mun2, mun1)
  {
    var m1, m2 := Helpers.NormalizarCvegeo(mun1), Helpers.NormalizarCvegeo(mun2);
    CombinarSimetrica(parse, Primero(precipitacion, m1), Primero(precipitacion, m2),
                      Primero(temperatura, m1), Primero(temperatura, m2),
                      Primero(unidades, m1), Primero(unidades, m2));
  }
}

=== FILE: analisis_series.dfy ===
/** `src/analisis/analisis_series.py`: id normalisation, series cleaning,
    prefix alignment and the L2 comparison of two series.

    `pd.to_numeric(..., errors="coerce")` followed by `dropna()` is the
    parameter `aNumero`: `Some(x)` for an entry that converts to a number,
    `None` for one that is coerced to NaN or already is NaN. */
module AnalisisSeries {
  import opened Wrappers
  import opened Text
  import opened Seqs
  import opened Distancia

  /** `normalizar_cvegeo(cve) = str(cve).strip().zfill(5)`. */
  function NormalizarCvegeo(cve: string): (r: string)
    ensures |r| == if |Strip(cve)| >= 5 then |Strip(cve)| else 5
    ensures |Strip(cve)| >= 5 ==> r == Strip(cve)
    ensures AllDigits(Strip(cve)) ==> r == Zeros(|r| - |Strip(cve)|) + Strip(cve)
  {
    ZFill(Strip(cve), 5)
  }

  /** Whitespace around the id never changes the normalised id. */
  lemma NormalizarCvegeoIgnoraEspacios(cve: string)
    ensures NormalizarCvegeo(Strip(cve)) == NormalizarCvegeo(cve)
  {
    StripIdempotent(cve);
  }

  /** The positions from `i` on whose entries convert, in increasing order:
      every listed position converts, and every position from `i` on that
      converts is listed. */
  function Posiciones<E>(aNumero: E -> Option<real>, serie: seq<E>, i: nat): (ps: seq<nat>)
    requires i <= |serie|
    ensures forall j :: 0 <= j < |ps| ==> i <= ps[j] < |serie| && aNumero(serie[ps[j]]).Some?
    ensures forall j1, j2 :: 0 <= j1 < j2 < |ps| ==> ps[j1] < ps[j2]
    ensures forall k :: i <= k < |serie| && aNumero(serie[k]).Some? ==> k in ps
    decreases |serie| - i
  {
    if i == |serie| then []
    else (if aNumero(serie[i]).Some? then [i] else []) + Posiciones(aNumero, serie, i + 1)
  }

  /** The numbers kept from a series, in their original order. */
  function Numericos<E>(aNumero: E -> Option<real>, serie: seq<E>): (r: seq<real>)
    ensures |r| <= |serie|
  {
    if |serie| == 0 then []
    else
      match aNumero(serie[0])
      case Some(x) => [x] + Numericos(aNumero, serie[1..])
      case None => Numericos(aNumero, serie[1..])
  }

  /** The kept numbers are the converted entries at `Posiciones`: every
      converted entry, once, in its original order. */
  lemma NumericosEnOrden<E>(aNumero: E -> Option<real>, serie: seq<E>)
    ensures |Numericos(aNumero, serie)| == |Posiciones(aNumero, serie, 0)|
    ensures forall j :: 0 <= j < |Numericos(aNumero, serie)| ==>
      Numericos(aNumero, serie)[j] == aNumero(serie[Posiciones(aNumero, serie, 0)[j]]).value
  {
    NumericosDesde(aNumero, serie, 0);
    assert serie[0..] == serie;
  }

  lemma {:induction false} NumericosDesde<E>(aNumero: E -> Option<real>, serie: seq<E>, i: nat)
    requires i <= |serie|
    ensures |Numericos(aNumero, serie[i..])| == |Posiciones(aNumero, serie, i)|
    ensures forall j :: 0 <= j < |Numericos(aNumero, serie[i..])| ==>
      Numericos(aNumero, serie[i..])[j] == aNumero(serie[Posiciones(aNumero, serie, i)[j]]).value
    decreases |serie| - i
  {
    if i < |serie| {
      NumericosDesde(aNumero, serie, i + 1);
      assert serie[i..][0] == serie[i];
      assert serie[i..][1..] == serie[i + 1..];
    }
  }

  /** Cleaning distributes over concatenation, so it keeps the relative
      order of the surviving entries. */
  lemma {:induction false} NumericosConcat<E>(aNumero: E -> Option<real>, a: seq<E>, b: seq<E>)
    ensures Numericos(aNumero, a + b) == Numericos(aNumero, a) + Numericos(aNumero, b)
  {
    if |a| == 0 {
      assert a + b == b;
    } else {
      assert (a + b)[1..] == a[1..] + b;
      NumericosConcat(aNumero, a[1..], b);
    }
  }

  /** A series that converts everywhere is kept whole. */
  lemma {:induction false} NumericosTodos<E>(aNumero: E -> Option<real>, serie: seq<E>)
    requires forall k :: 0 <= k < |serie| ==> aNumero(serie[k]).Some?
    ensures |Numericos(aNumero, serie)| == |serie|
    ensures forall k :: 0 <= k < |serie| ==> Numericos(aNumero, serie)[k] == aNumero(serie[k]).value
  {
    if |serie| > 0 {
      NumericosTodos(aNumero, serie[1..]);
    }
  }

  /** `limpiar_serie(serie)`: the entries that convert, each once and in
      their original order; a series left empty raises ValueError. */
  function LimpiarSerie<E>(aNumero: E -> Option<real>, serie: seq<E>): (r: Result<seq<real>>)
    ensures r.Err? <==> forall k :: 0 <= k < |serie| ==> aNumero(serie[k]).None?
    ensures r.Err? ==> r.error.ValueError?
    ensures r.Ok? ==> 1 <= |r.value| <= |serie|
    ensures r.Ok? ==> r.value == Numericos(aNumero, serie)
    ensures r.Ok? ==> |r.value| == |Posiciones(aNumero, serie, 0)|
    ensures r.Ok? ==> forall j :: 0 <= j < |r.value| ==>
      r.value[j] == aNumero(serie[Posiciones(aNumero, serie, 0)[j]]).value
  {
    var kept := Numericos(aNumero, serie);
    NumericosEnOrden(aNumero, serie);
    NumericosVacios(aNumero, serie);
    if |kept| == 0 then Err(ValueError("La serie quedó vacía después de la limpieza."))
    else Ok(kept)
  }

  lemma {:induction false} NumericosVacios<E>(aNumero: E -> Option<real>, serie: seq<E>)
    ensures Numericos(aNumero, serie) == [] <==> forall k :: 0 <= k < |serie| ==> aNumero(serie[k]).None?
  {
    if |serie| > 0 {
      NumericosVacios(aNumero, serie[1..]);
      assert forall k :: 1 <= k < |serie| ==> serie[k] == serie[1..][k - 1];
    }
  }

  function MinNat(a: nat, b: nat): nat {
    if a <= b then a else b
  }

  /** `alinear_series(s1, s2)`: both series cut to the shorter length. */
  function AlinearSeries<T>(s1: seq<T>, s2: seq<T>): (r: (seq<T>, seq<T>))
    ensures |r.0| == |r.1| == MinNat(|s1|, |s2|)
    ensures r.0 <= s1 && r.1 <= s2
  {
    var n := MinNat(|s1|, |s2|);
    (Head(s1, n), Head(s2, n))
  }

  /** Alignment only cuts the longer series: the shorter is returned whole. */
  lemma AlinearSeriesConservaCorta<T>(s1: seq<T>, s2: seq<T>)
    ensures |s1| <= |s2| ==> AlinearSeries(s1, s2).0 == s1
    ensures |s2| <= |s1| ==> AlinearSeries(s1, s2).1 == s2
  {
  }

  /** `comparar_series_arrays(arrA, arrB)`: the L2 distance of the aligned
      prefixes turned into a similarity. It lies in (0, 1] and is 1 exactly
      when the shorter array is a prefix of the longer. */
  function ComparaSeriesArrays(sqrt: real -> real, arrA: seq<real>, arrB: seq<real>): (s: real)
    requires SqrtLike(sqrt)
    ensures 0.0 < s <= 1.0
    ensures s == 1.0 <==> (arrA <= arrB || arrB <= arrA)
  {
    var (s1, s2) := AlinearSeries(arrA, arrB);
    assert s1 == s2 <==> (arrA <= arrB || arrB <= arrA);
    SimilitudL2(sqrt, s1, s2)
  }

  lemma ComparaSeriesArraysSimetrica(sqrt: real -> real, arrA: seq<real>, arrB: seq<real>)
    requires SqrtLike(sqrt)
    ensures ComparaSeriesArrays(sqrt, arrA, arrB) == ComparaSeriesArrays(sqrt, arrB, arrA)
  {
    var (s1, s2) := AlinearSeries(arrA, arrB);
    SimilitudL2Symmetric(sqrt, s1, s2);
  }
}

=== FILE: aritmetica.dfy ===
/** Integer facts shared by the row partitions: floor and ceiling division
    and monotonicity of multiplication. */
module Aritmetica {
  lemma DivBounds(x: nat, w: nat)
    requires w > 0
    ensures (x / w) * w <= x < (x / w) * w + w
  {
  }

  lemma MulMono(a: nat, c: nat, b: nat)
    ensures a <= c ==> a * b <= c * b
  {
  }

  /** `k * b <= i < (k + 1) * b` pins `i / b` to `k`. */
  lemma DivUnique(i: nat, b: nat, k: nat)
    requires b > 0 && k * b <= i < k * b + b
    ensures i / b == k
  {
    DivBounds(i, b);
    var q := i / b;
    MulMono(q + 1, k, b);
    MulMono(k + 1, q, b);
  }

  /** `ceil(n / w)`: the least `b` with `b * w >= n`. */
  function CeilDiv(n: nat, w: nat): (b: nat)
    requires w > 0
    ensures b * w >= n
    ensures b == 0 || (b - 1) * w < n
  {
    DivBounds(n + w - 1, w);
    (n + w - 1) / w
  }
}

=== FILE: distancia.dfy ===
/** The L2 distance between two equally long series and its conversion to a
    similarity, `1 / (1 + d)`. The same two formulas appear in
    `matriz_blocks.py`, `analisis_series.py` and, through `np.linalg.norm`, in
    `matriz_mensual.py`.

    `np.sqrt` is a parameter: the model only assumes that it is nonnegative on
    nonnegative inputs and vanishes exactly at 0 (`SqrtLike`). */
module Distancia {

  /** What the model assumes of the square root it is given. */
  ghost predicate SqrtLike(sqrt: real -> real) {
    forall x :: x >= 0.0 ==> sqrt(x) >= 0.0 && (sqrt(x) == 0.0 <==> x == 0.0)
  }

  /** `t ** 2`. */
  function Sq(t: real): real {
    t * t
  }

  /** A square is nonnegative, zero only at zero, and blind to the sign. */
  lemma SqFacts(t: real)
    ensures Sq(t) >= 0.0
    ensures Sq(t) == 0.0 <==> t == 0.0
    ensures Sq(-t) == Sq(t)
  {
    if t > 0.0 {
      calc { Sq(t); == t * t; > 0.0; }
    } else if t < 0.0 {
      calc { Sq(t); == (-t) * (-t); > 0.0; }
    }
    calc { Sq(-t); == (-t) * (-t); == t * t; == Sq(t); }
  }

  /** `np.sum((a - b) ** 2)`. */
  function SumSq(a: seq<real>, b: seq<real>): real
    requires |a| == |b|
  {
    if |a| == 0 then 0.0 else Sq(a[0] - b[0]) + SumSq(a[1..], b[1..])
  }

  lemma {:induction false} SumSqProperties(a: seq<real>, b: seq<real>)
    requires |a| == |b|
    ensures SumSq(a, b) >= 0.0
    ensures SumSq(a, b) == SumSq(b, a)
    ensures SumSq(a, b) == 0.0 <==> a == b
  {
    if |a| > 0 {
      SumSqProperties(a[1..], b[1..]);
      SqFacts(a[0] - b[0]);
      assert b[0] - a[0] == -(a[0] - b[0]);
      assert a == [a[0]] + a[1..] && b == [b[0]] + b[1..];
    }
  }

  /** `distancia_l2(a, b) = sqrt(sum((a - b) ** 2))`. */
  function DistanciaL2(sqrt: real -> real, a: seq<real>, b: seq<real>): real
    requires |a| == |b|
  {
    sqrt(SumSq(a, b))
  }

  /** The L2 distance is a nonnegative, symmetric function that is zero exactly
      on equal vectors. */
  lemma DistanciaL2Properties(sqrt: real -> real, a: seq<real>, b: seq<real>)
    requires SqrtLike(sqrt) && |a| == |b|
    ensures DistanciaL2(sqrt, a, b) >= 0.0
    ensures DistanciaL2(sqrt, a, b) == DistanciaL2(sqrt, b, a)
    ensures DistanciaL2(sqrt, a, b) == 0.0 <==> a == b
  {
    SumSqProperties(a, b);
  }

  /** `distancia_a_similitud(d) = 1 / (1 + d)`: in (0, 1] for every distance,
      and exactly 1 at distance 0. The only input the source cannot divide by
      is -1. */
  function DistanciaASimilitud(d: real): (s: real)
    requires d != -1.0
    ensures d >= 0.0 ==> 0.0 < s <= 1.0
    ensures s == 1.0 <==> d == 0.0
  {
    1.0 / (1.0 + d)
  }

  /** The similarity strictly decreases as the distance grows. */
  lemma SimilitudDecreciente(d1: real, d2: real)
    requires 0.0 <= d1 < d2
    ensures DistanciaASimilitud(d2) < DistanciaASimilitud(d1)
  {
    var p := (1.0 + d1) * (1.0 + d2);
    assert p > 0.0;
    assert DistanciaASimilitud(d1) - DistanciaASimilitud(d2) == (d2 - d1) / p;
  }

  /** The similarity of two equally long vectors: `1 / (1 + ||a - b||)`. */
  function SimilitudL2(sqrt: real -> real, a: seq<real>, b: seq<real>): (s: real)
    requires SqrtLike(sqrt) && |a| == |b|
    ensures 0.0 < s <= 1.0
    ensures s == 1.0 <==> a == b
  {
    DistanciaL2Properties(sqrt, a, b);
    DistanciaASimilitud(DistanciaL2(sqrt, a, b))
  }

  lemma SimilitudL2Symmetric(sqrt: real -> real, a: seq<real>, b: seq<real>)
    requires SqrtLike(sqrt) && |a| == |b|
    ensures SimilitudL2(sqrt, a, b) == SimilitudL2(sqrt, b, a)
  {
    DistanciaL2Properties(sqrt, a, b);
  }
}

=== FILE: grafo.dfy ===
/** `src/utils/grafo.py`: the k-nearest-neighbour graph of a labelled
    similarity matrix. Every label is a node; each row `i` links `i` to the
    `k` other labels it is most similar to, skipping a pair that already has
    an edge, so the weight of an undirected edge is the one of the row that
    inserted it first.

    A networkx `Graph` is its node list and its edge list; `has_edge` looks
    for the pair in either direction. The labels are taken to be unique:
    with a repeated label `df.loc` and `fila.drop` return frames, not the
    values the code expects. */
module GrafoKnn {
  import opened Matrices
  import opened Seqs
  import opened MatrizGral
  import opened Vecinos

  datatype Arista = Arista(u: string, v: string, peso: real)

  datatype Grafo = Grafo(nodos: seq<string>, aristas: seq<Arista>)

  /** The edge joins `i` and `j`, in either direction. */
  predicate Une(e: Arista, i: string, j: string) {
    (e.u == i && e.v == j) || (e.u == j && e.v == i)
  }

  /** `G.has_edge(i, j)`. */
  predicate TieneArista(es: seq<Arista>, i: string, j: string) {
    exists t :: 0 <= t < |es| && Une(es[t], i, j)
  }

  /** The labels joined to `i` by some edge: its neighbours in the graph. */
  function Adyacentes(es: seq<Arista>, i: string): set<string> {
    (set e | e in es && e.u == i :: e.v) + (set e | e in es && e.v == i :: e.u)
  }

  /** `fila.drop(i).nlargest(k)`: the row of `i` without `i`, best first;
      nothing for `k <= 0`. */
  function Top(df: Etiquetada, i: string, k: int): (r: seq<Puntuado>)
    requires Valida(df) && i in df.index
  {
    if k <= 0 then [] else Mejores(Candidatos(df, i), k)
  }

  /** The chosen neighbours of `i`: `min(k, n - 1)` other labels without
      repeats, each with its similarity to `i`, best first, and none left
      out is more similar than one chosen. */
  lemma TopPropiedades(df: Etiquetada, i: string, k: int)
    requires Valida(df) && Distinct(df.index) && i in df.index
    ensures |Top(df, i, k)| == if k <= 0 then 0 else Min(k, |df.index| - 1)
    ensures forall e :: e in Top(df, i, k) ==> e.0 in df.index && e.0 != i && e.1 == Loc(df, i, e.0)
    ensures Distinct(Primeros(Top(df, i, k)))
    ensures NonIncreasing(Top(df, i, k))
    ensures forall x, c :: x in df.index && x != i && x !in Primeros(Top(df, i, k)) && c in Top(df, i, k) ==>
      Loc(df, i, x) <= c.1
  {
    if k > 0 {
      CandidatosPropiedades(df, i);
      MejoresPropiedades(Candidatos(df, i), k);
      forall x, c | x in df.index && x != i && x !in Primeros(Top(df, i, k)) && c in Top(df, i, k)
        ensures Loc(df, i, x) <= c.1
      {
        assert (x, Loc(df, i, x)) in Candidatos(df, i);
      }
    }
  }

  // ---------------------------------------------------------------
  // what the loop keeps
  // ---------------------------------------------------------------

  /** The loop works on the neighbour lists `tops`, `tops[r]` being the
      list chosen by the row of `index[r]`: each names other labels. */
  predicate Elecciones(index: seq<string>, tops: seq<seq<Puntuado>>) {
    |tops| == |index| && forall r :: 0 <= r < |tops| ==> EligeOtros(index, index[r], tops[r])
  }

  predicate EligeOtros(index: seq<string>, i: string, ls: seq<Puntuado>) {
    forall q :: 0 <= q < |ls| ==> ls[q].0 in index && ls[q].0 != i
  }

  /** An edge of the graph: two different labels, `v` with its weight in
      the list chosen by `u`. */
  predicate AristaValida(index: seq<string>, tops: seq<seq<Puntuado>>, e: Arista)
    requires |tops| == |index|
  {
    e.u in index && e.v in index && e.u != e.v && (e.v, e.peso) in tops[IndexOf(index, e.u)]
  }

  predicate AristasValidas(index: seq<string>, tops: seq<seq<Puntuado>>, es: seq<Arista>)
    requires |tops| == |index|
  {
    forall t :: 0 <= t < |es| ==> AristaValida(index, tops, es[t])
  }

  /** No unordered pair carries two edges. */
  predicate SinDuplicados(es: seq<Arista>) {
    forall t1, t2 :: 0 <= t1 < t2 < |es| ==> !Une(es[t1], es[t2].u, es[t2].v)
  }

  /** Each edge was inserted by the first of its two rows that chose the
      other: if `v` also chose `u`, then `u` comes first. */
  predicate PrimeraGana(index: seq<string>, tops: seq<seq<Puntuado>>, es: seq<Arista>)
    requires |tops| == |index| && AristasValidas(index, tops, es)
  {
    forall t :: 0 <= t < |es| && es[t].u in Primeros(tops[IndexOf(index, es[t].v)]) ==>
      IndexOf(index, es[t].u) < IndexOf(index, es[t].v)
  }

  /** Every edge was inserted by a row before `r`. */
  predicate DeFilasPrevias(index: seq<string>, tops: seq<seq<Puntuado>>, es: seq<Arista>, r: nat)
    requires |tops| == |index| && AristasValidas(index, tops, es)
  {
    forall t :: 0 <= t < |es| ==> IndexOf(index, es[t].u) < r
  }

  /** Each row before `r` is linked to every label it chose. */
  predicate Cubiertas(index: seq<string>, tops: seq<seq<Puntuado>>, es: seq<Arista>, r: nat)
    requires |tops| == |index| && r <= |index|
  {
    forall r', q :: 0 <= r' < r && 0 <= q < |tops[r']| ==> TieneArista(es, index[r'], tops[r'][q].0)
  }

  /** Valid edges, one per pair, each inserted by the first row that
      chose it. */
  predicate Base(index: seq<string>, tops: seq<seq<Puntuado>>, es: seq<Arista>)
    requires |tops| == |index|
  {
    AristasValidas(index, tops, es) && SinDuplicados(es) && PrimeraGana(index, tops, es)
  }

  /** What holds after the rows before `r`. */
  predicate Invariante(index: seq<string>, tops: seq<seq<Puntuado>>, es: seq<Arista>, r: nat)
    requires |tops| == |index| && r <= |index|
  {
    Base(index, tops, es) && DeFilasPrevias(index, tops, es, r) && Cubiertas(index, tops, es, r)
  }

  /** Row `r` is linked to the first `q` labels it chose. */
  predicate CubreHasta(index: seq<string>, tops: seq<seq<Puntuado>>, es: seq<Arista>, r: nat, q: nat)
    requires |tops| == |index| && r < |index|
  {
    q <= |tops[r]| && forall q' :: 0 <= q' < q ==> TieneArista(es, index[r], tops[r][q'].0)
  }

  lemma TieneAristaCrece(es: seq<Arista>, e: Arista, i: string, j: string)
    requires TieneArista(es, i, j)
    ensures TieneArista(es + [e], i, j)
  {
    var t :| 0 <= t < |es| && Une(es[t], i, j);
    assert (es + [e])[t] == es[t];
  }

  lemma CubiertasCrece(index: seq<string>, tops: seq<seq<Puntuado>>, es: seq<Arista>, e: Arista, r: nat)
    requires |tops| == |index| && r <= |index| && Cubiertas(index, tops, es, r)
    ensures Cubiertas(index, tops, es + [e], r)
  {
    forall r', q | 0 <= r' < r && 0 <= q < |tops[r']|
      ensures TieneArista(es + [e], index[r'], tops[r'][q].0)
    {
      TieneAristaCrece(es, e, index[r'], tops[r'][q].0);
    }
  }

  lemma CubreHastaCrece(index: seq<string>, tops: seq<seq<Puntuado>>, es: seq<Arista>, e: Arista, r: nat, q: nat)
    requires |tops| == |index| && r < |index| && CubreHasta(index, tops, es, r, q)
    ensures CubreHasta(index, tops, es + [e], r, q)
  {
    forall q' | 0 <= q' < q
      ensures TieneArista(es + [e], index[r], tops[r][q'].0)
    {
      TieneAristaCrece(es, e, index[r], tops[r][q'].0);
    }
  }

  /** With unique labels, position `r` is the label's own index. */
  lemma IndiceDeEtiqueta(index: seq<string>, r: nat)
    requires Distinct(index) && r < |index|
    ensures IndexOf(index, index[r]) == r
  {
    var p := IndexOf(index, index[r]);
    assert !(p < r) && !(r < p);
  }

  /** If a row before `r` chose `i`, the pair is already linked. */
  lemma ElegidoAntes(index: seq<string>, tops: seq<seq<Puntuado>>, es: seq<Arista>, r: nat, j: string, i: string)
    requires |tops| == |index| && r <= |index| && j in index && Cubiertas(index, tops, es, r)
    requires i in Primeros(tops[IndexOf(index, j)])
    ensures IndexOf(index, j) < r ==> TieneArista(es, i, j)
  {
    var p := IndexOf(index, j);
    if p < r {
      var ls := Primeros(tops[p]);
      var q := IndexOf(ls, i);
      assert TieneArista(es, index[p], tops[p][q].0);
      var t :| 0 <= t < |es| && Une(es[t], j, i);
      assert Une(es[t], i, j);
    }
  }

  // ---------------------------------------------------------------
  // construir_grafo_knn
  // ---------------------------------------------------------------

  /** Inserting the `q`-th label chosen by row `r` when the pair has no
      edge yet keeps the invariant: the edge is new, and no earlier row
      chose `i`, since that row would already have linked the pair. */
  lemma InsertarConserva(index: seq<string>, tops: seq<seq<Puntuado>>, es: seq<Arista>, r: nat, q: nat)
    requires Distinct(index) && Elecciones(index, tops) && r < |index| && q < |tops[r]|
    requires Base(index, tops, es) && DeFilasPrevias(index, tops, es, r + 1) && Cubiertas(index, tops, es, r)
    requires !TieneArista(es, index[r], tops[r][q].0)
    ensures var e := Arista(index[r], tops[r][q].0, tops[r][q].1);
      Base(index, tops, es + [e]) && DeFilasPrevias(index, tops, es + [e], r + 1) &&
      Cubiertas(index, tops, es + [e], r) && TieneArista(es + [e], index[r], e.v)
  {
    var i, j := index[r], tops[r][q].0;
    var e := Arista(i, j, tops[r][q].1);
    var es' := es + [e];
    IndiceDeEtiqueta(index, r);
    assert tops[r][q] in tops[r];
    assert AristaValida(index, tops, e);
    if i in Primeros(tops[IndexOf(index, j)]) {
      ElegidoAntes(index, tops, es, r, j, i);
    }
    assert forall t :: 0 <= t < |es| ==> es'[t] == es[t];
    assert es'[|es|] == e;
    CubiertasCrece(index, tops, es, e, r);
    assert Une(es'[|es|], i, j);
  }

  /** The inner loop for row `r`: `for j, sim in vecinos.items(): if not
      G.has_edge(i, j): G.add_edge(i, j, weight=sim)`. */
  method AgregarVecinos(index: seq<string>, tops: seq<seq<Puntuado>>, r: nat, es0: seq<Arista>)
    returns (es: seq<Arista>)
    requires Distinct(index) && Elecciones(index, tops) && r < |index|
    requires Invariante(index, tops, es0, r)
    ensures Invariante(index, tops, es, r + 1)
    ensures |es| <= |es0| + |tops[r]|
  {
    var i := index[r];
    es := es0;
    assert DeFilasPrevias(index, tops, es, r + 1);
    var q := 0;
    while q < |tops[r]|
      invariant 0 <= q <= |tops[r]| && |es| <= |es0| + q
      invariant Base(index, tops, es) && DeFilasPrevias(index, tops, es, r + 1)
      invariant Cubiertas(index, tops, es, r) && CubreHasta(index, tops, es, r, q)
    {
      var (j, sim) := tops[r][q];
      if !TieneArista(es, i, j) {
        InsertarConserva(index, tops, es, r, q);
        var e := Arista(i, j, sim);
        CubreHastaCrece(index, tops, es, e, r, q);
        es := es + [e];
      }
      q := q + 1;
    }
  }

  /** The outer loop over the rows, on lists of at most `m` labels each. */
  method Enlazar(index: seq<string>, tops: seq<seq<Puntuado>>, m: nat) returns (es: seq<Arista>)
    requires Distinct(index) && Elecciones(index, tops)
    requires forall r :: 0 <= r < |tops| ==> |tops[r]| <= m
    ensures Invariante(index, tops, es, |index|)
    ensures |es| <= |index| * m
  {
    es := [];
    var r := 0;
    while r < |index|
      invariant 0 <= r <= |index| && |es| <= r * m
      invariant Invariante(index, tops, es, r)
    {
      es := AgregarVecinos(index, tops, r, es);
      assert (r + 1) * m == r * m + m;
      r := r + 1;
    }
  }

  /** The lists `nlargest` gives, one per row. */
  function Elegidos(df: Etiquetada, k: int): (tops: seq<seq<Puntuado>>)
    requires Valida(df)
    ensures |tops| == |df.index|
    ensures forall r :: 0 <= r < |df.index| ==> tops[r] == Top(df, df.index[r], k)
  {
    seq(|df.index|, r requires 0 <= r < |df.index| => Top(df, df.index[r], k))
  }

  lemma ElegidosPropiedades(df: Etiquetada, k: int)
    requires Valida(df) && Distinct(df.index)
    ensures Elecciones(df.index, Elegidos(df, k))
    ensures forall r :: 0 <= r < |df.index| ==> |Elegidos(df, k)[r]| <= if k > 0 then k else 0
  {
    var tops: seq<seq<Puntuado>> := Elegidos(df, k);
    forall r | 0 <= r < |df.index|
      ensures |tops[r]| <= (if k > 0 then k else 0)
      ensures EligeOtros(df.index, df.index[r], tops[r])
    {
      TopPropiedades(df, df.index[r], k);
      assert forall q :: 0 <= q < |tops[r]| ==> tops[r][q] in tops[r];
    }
  }

  /** `construir_grafo_knn(df_sim, k)`. Every label is a node, even one
      without edges. Edges join two different labels, at most one per pair;
      an edge's weight is the similarity in the row of its first end, which
      is the first row that chose the other end. Every row is linked to all
      labels it chose, and there are at most `n * k` edges. */
  method ConstruirGrafoKnn(df: Etiquetada, k: int) returns (g: Grafo)
    requires Valida(df) && Distinct(df.index)
    ensures g.nodos == df.index
    ensures forall t :: 0 <= t < |g.aristas| ==> EnlazaElegido(df, k, g.aristas[t])
    ensures SinDuplicados(g.aristas)
    ensures forall t :: 0 <= t < |g.aristas| ==> InsertadaPorPrimera(df, k, g.aristas[t])
    ensures forall i, j :: i in df.index && j in Primeros(Top(df, i, k)) ==> TieneArista(g.aristas, i, j)
    ensures |g.aristas| <= |df.index| * (if k > 0 then k else 0)
  {
    var tops := Elegidos(df, k);
    ElegidosPropiedades(df, k);
    var es := Enlazar(df.index, tops, if k > 0 then k else 0);
    g := Grafo(df.index, es);
    GrafoCorrecto(df, k, es);
  }

  /** The loop's invariant on the chosen lists, restated on the matrix. */
  lemma GrafoCorrecto(df: Etiquetada, k: int, es: seq<Arista>)
    requires Valida(df) && Distinct(df.index)
    requires Invariante(df.index, Elegidos(df, k), es, |df.index|)
    ensures forall t :: 0 <= t < |es| ==> EnlazaElegido(df, k, es[t])
    ensures SinDuplicados(es)
    ensures forall t :: 0 <= t < |es| ==> InsertadaPorPrimera(df, k, es[t])
    ensures forall i, j :: i in df.index && j in Primeros(Top(df, i, k)) ==> TieneArista(es, i, j)
  {
    forall t | 0 <= t < |es|
      ensures EnlazaElegido(df, k, es[t])
    {
      AristaDelGrafo(df, k, es[t]);
    }
    PrimeraGanaDelGrafo(df, k, es);
    TodosEnlazados(df, k, es);
  }

  /** The edge was inserted by the first of its rows that chose the other
      end: if `v` also chose `u`, the row of `u` comes first. */
  predicate InsertadaPorPrimera(df: Etiquetada, k: int, e: Arista)
    requires Valida(df)
  {
    e.u in df.index && e.v in df.index &&
    (e.u in Primeros(Top(df, e.v, k)) ==> IndexOf(df.index, e.u) < IndexOf(df.index, e.v))
  }

  /** An edge of the k-NN graph: two different labels, `v` among those `u`
      chose, weighted by the similarity in the row of `u`. */
  predicate EnlazaElegido(df: Etiquetada, k: int, e: Arista)
    requires Valida(df)
  {
    e.u in df.index && e.v in df.index && e.u != e.v &&
    e.v in Primeros(Top(df, e.u, k)) && e.peso == Loc(df, e.u, e.v)
  }

  /** An edge valid for the chosen lists joins `u` to a label it chose,
      with the weight in the row of `u`. */
  lemma AristaDelGrafo(df: Etiquetada, k: int, e: Arista)
    requires Valida(df) && Distinct(df.index)
    requires AristaValida(df.index, Elegidos(df, k), e)
    ensures EnlazaElegido(df, k, e)
  {
    var tops := Elegidos(df, k);
    var p := IndexOf(df.index, e.u);
    assert tops[p] == Top(df, e.u, k);
    TopPropiedades(df, e.u, k);
    var q :| 0 <= q < |tops[p]| && tops[p][q] == (e.v, e.peso);
    assert Primeros(tops[p])[q] == e.v;
  }

  lemma PrimeraGanaDelGrafo(df: Etiquetada, k: int, es: seq<Arista>)
    requires Valida(df) && Distinct(df.index)
    requires AristasValidas(df.index, Elegidos(df, k), es) && PrimeraGana(df.index, Elegidos(df, k), es)
    ensures forall t :: 0 <= t < |es| ==> InsertadaPorPrimera(df, k, es[t])
  {
    var tops := Elegidos(df, k);
    forall t | 0 <= t < |es|
      ensures InsertadaPorPrimera(df, k, es[t])
    {
      assert AristaValida(df.index, tops, es[t]);
      assert tops[IndexOf(df.index, es[t].v)] == Top(df, es[t].v, k);
    }
  }

  lemma TodosEnlazados(df: Etiquetada, k: int, es: seq<Arista>)
    requires Valida(df) && Cubiertas(df.index, Elegidos(df, k), es, |df.index|)
    ensures forall i, j :: i in df.index && j in Primeros(Top(df, i, k)) ==> TieneArista(es, i, j)
  {
    var tops := Elegidos(df, k);
    forall i, j | i in df.index && j in Primeros(Top(df, i, k))
      ensures TieneArista(es, i, j)
    {
      var r := IndexOf(df.index, i);
      assert tops[r] == Top(df, i, k);
      var q := IndexOf(Primeros(tops[r]), j);
      assert TieneArista(es, df.index[r], tops[r][q].0);
    }
  }

  /** Every label has at least `min(k, n - 1)` neighbours in the graph
      when it is linked to all it chose. */
  lemma GradoMinimo(df: Etiquetada, k: int, es: seq<Arista>, i: string)
    requires Valida(df) && Distinct(df.index) && i in df.index
    requires forall j :: j in Primeros(Top(df, i, k)) ==> TieneArista(es, i, j)
    ensures |Adyacentes(es, i)| >= if k <= 0 then 0 else Min(k, |df.index| - 1)
  {
    TopPropiedades(df, i, k);
    var ls := Primeros(Top(df, i, k));
    forall j | j in ls
      ensures j in Adyacentes(es, i)
    {
      var t :| 0 <= t < |es| && Une(es[t], i, j);
      assert es[t] in es;
    }
    DistinctCardinality(ls);
    SubsetCardinality((set x | x in ls), Adyacentes(es, i));
  }
}

=== FILE: helpers.dfy ===
/** `src/utils/helpers.py`: zero-padding of municipality ids and the
    throttle of the `Progreso` progress reporter.

    The reporter's clock and its printed line are left out; what remains is
    the state that decides when a line is printed and the division by
    `total` that happens when it is. */
module Helpers {
  import opened Wrappers
  import opened Text

  /** `normalizar_cvegeo(cve) = str(cve).zfill(5)`, on the id's string form. */
  function NormalizarCvegeo(cve: string): (r: string)
    ensures |r| == if |cve| >= 5 then |cve| else 5
    ensures |cve| >= 5 ==> r == cve
    ensures AllDigits(cve) ==> r == Zeros(|r| - |cve|) + cve
  {
    ZFill(cve, 5)
  }

  /** Padding an already padded id changes nothing. */
  lemma NormalizarCvegeoIdempotent(cve: string)
    ensures NormalizarCvegeo(NormalizarCvegeo(cve)) == NormalizarCvegeo(cve)
  {
    ZFillIdempotent(cve, 5);
  }

  /** A negative number keeps its sign in front of the padding:
      `str(-12).zfill(5) == "-0012"`. */
  lemma NormalizarCvegeoSigned()
    ensures NormalizarCvegeo("-12") == "-0012"
  {
    assert Zeros(2) == "00";
  }

  // ---------------------------------------------------------------
  // Progreso
  // ---------------------------------------------------------------

  /** The reporter's state; `inicio` (a clock reading) is left out. */
  datatype Progreso = Progreso(total: int, cada: int, etiqueta: string, ultimo: int)

  /** `Progreso(total, cada, etiqueta)`: nothing reported yet. */
  function NuevoProgreso(total: int, cada: int, etiqueta: string): (p: Progreso)
    ensures p.ultimo == 0
    ensures p.total == total && p.cada == cada && p.etiqueta == etiqueta
  {
    Progreso(total, cada, etiqueta, 0)
  }

  /** `paso(i)` reports when at least `cada` steps passed since the last report. */
  predicate Informa(p: Progreso, i: int) {
    i - p.ultimo >= p.cada
  }

  /** `paso(i)`: below the throttle nothing changes; otherwise `ultimo`
      becomes `i` and `pct = i / total` is computed, which fails when
      `total` is 0. `total`, `cada` and `etiqueta` never change. */
  function Paso(p: Progreso, i: int): (r: Result<Progreso>)
    ensures !Informa(p, i) ==> r == Ok(p)
    ensures r.Err? <==> Informa(p, i) && p.total == 0
    ensures r.Err? ==> r.error == ZeroDivisionError
    ensures r.Ok? && Informa(p, i) ==> r.value.ultimo == i
    ensures r.Ok? ==> r.value.total == p.total && r.value.cada == p.cada && r.value.etiqueta == p.etiqueta
  {
    if i - p.ultimo < p.cada then Ok(p)
    else if p.total == 0 then Err(ZeroDivisionError)
    else Ok(p.(ultimo := i))
  }

  /** `paso` called once per entry of `xs`, in order: the final state and
      the indices at which a line was printed; the first failure stops. */
  function Pasos(p: Progreso, xs: seq<int>): Result<(Progreso, seq<int>)> {
    if |xs| == 0 then Ok((p, []))
    else
      match Pasos(p, xs[..|xs| - 1])
      case Err(e) => Err(e)
      case Ok((q, rep)) =>
        var i := xs[|xs| - 1];
        match Paso(q, i)
        case Err(e) => Err(e)
        case Ok(q') => Ok((q', if Informa(q, i) then rep + [i] else rep))
  }

  function Ultimo(p: Progreso, rep: seq<int>): int {
    if |rep| == 0 then p.ultimo else rep[|rep| - 1]
  }

  /** Over any run of `paso` calls: the reported indices are taken from the
      calls in order, the first lies at least `cada` past the initial `ultimo`,
      successive ones are at least `cada` apart, `ultimo` ends at the last
      one, and the configuration never changes. */
  lemma {:induction false} PasosEspaciados(p: Progreso, xs: seq<int>)
    requires Pasos(p, xs).Ok?
    ensures var (q, rep) := Pasos(p, xs).value;
      && q.total == p.total && q.cada == p.cada && q.etiqueta == p.etiqueta
      && q.ultimo == Ultimo(p, rep)
      && |rep| <= |xs|
      && (forall k :: 0 <= k < |rep| ==> rep[k] in xs)
      && (|rep| > 0 ==> rep[0] - p.ultimo >= p.cada)
      && (forall k :: 0 <= k < |rep| - 1 ==> rep[k + 1] - rep[k] >= p.cada)
  {
    if |xs| > 0 {
      var init := xs[..|xs| - 1];
      PasosEspaciados(p, init);
      var (q, rep) := Pasos(p, init).value;
      var i := xs[|xs| - 1];
      assert forall x :: x in init ==> x in xs;
      if Informa(q, i) {
        var rep' := rep + [i];
        assert Pasos(p, xs).value.1 == rep';
        assert forall k :: 0 <= k < |rep| ==> rep'[k] == rep[k];
      }
    }
  }

  /** With `cada = 100`, calls at 50, 100, 150, 250 print at 100 and 250 only. */
  lemma PasosEjemplo()
    ensures Pasos(NuevoProgreso(1000, 100, "Progreso"), [50, 100, 150, 250])
      == Ok((Progreso(1000, 100, "Progreso", 250), [100, 250]))
  {
    var p := NuevoProgreso(1000, 100, "Progreso");
    PasosUltimo(p, [], 50);
    PasosUltimo(p, [50], 100);
    PasosUltimo(p, [50, 100], 150);
    PasosUltimo(p, [50, 100, 150], 250);
    assert [] + [50] == [50] && [50] + [100] == [50, 100];
    assert [50, 100] + [150] == [50, 100, 150] && [50, 100, 150] + [250] == [50, 100, 150, 250];
    assert Pasos(p, []) == Ok((p, []));
    assert Pasos(p, [50]) == Ok((p, []));
    assert Paso(p, 100) == Ok(p.(ultimo := 100));
    var e: seq<int> := [];
    assert e + [100] == [100];
    assert Pasos(p, [50, 100]) == Ok((p.(ultimo := 100), [100]));
    assert Pasos(p, [50, 100, 150]) == Ok((p.(ultimo := 100), [100]));
    assert Paso(p.(ultimo := 100), 250) == Ok(p.(ultimo := 250));
    assert [100] + [250] == [100, 250];
  }

  lemma PasosUltimo(p: Progreso, xs: seq<int>, i: int)
    ensures Pasos(p, xs + [i]) == match Pasos(p, xs)
      case Err(e) => Err(e)
      case Ok((q, rep)) =>
        match Paso(q, i)
        case Err(e) => Err(e)
        case Ok(q') => Ok((q', if Informa(q, i) then rep + [i] else rep))
  {
    assert (xs + [i])[..|xs|] == xs;
  }

  /** With a nonzero `total` the reporter never fails. */
  lemma {:induction false} PasosSinError(p: Progreso, xs: seq<int>)
    requires p.total != 0
    ensures Pasos(p, xs).Ok?
    ensures Pasos(p, xs).value.0.total == p.total
  {
    if |xs| > 0 {
      PasosSinError(p, xs[..|xs| - 1]);
    }
  }

  /** Once a call has failed, later calls do not undo the failure. */
  lemma {:induction false} PasosErrPersiste(p: Progreso, xs: seq<int>, ys: seq<int>)
    requires Pasos(p, xs).Err?
    ensures Pasos(p, xs + ys).Err?
  {
    if |ys| > 0 {
      var init := ys[..|ys| - 1];
      PasosErrPersiste(p, xs, init);
      assert xs + ys == (xs + init) + [ys[|ys| - 1]];
      PasosUltimo(p, xs + init, ys[|ys| - 1]);
    } else {
      assert xs + ys == xs;
    }
  }
}

=== FILE: matrices.dfy ===
/** Square similarity matrices, the index-pair enumerations the builders
    dispatch to their workers, and the single-writer merges that assemble the
    workers' results into one matrix.

    Each merge is specified by a reference function that says which result
    last wrote a cell (`LastWrite`, `LastRowWrite`), independently of the loop
    that performs the writes. */
module Matrices {

  type Matrix = seq<seq<real>>

  predicate IsSquare(m: Matrix, n: nat) {
    |m| == n && forall i :: 0 <= i < n ==> |m[i]| == n
  }

  predicate Symmetric(m: Matrix)
    requires IsSquare(m, |m|)
  {
    forall i, j :: 0 <= i < |m| && 0 <= j < |m| ==> m[i][j] == m[j][i]
  }

  /** `np.zeros((n, n))`. */
  function Zeros(n: nat): (m: Matrix)
    ensures IsSquare(m, n)
    ensures forall i, j :: 0 <= i < n && 0 <= j < n ==> m[i][j] == 0.0
  {
    seq(n, i => seq(n, j => 0.0))
  }

  /** `m[i, j] = v`. */
  function Set(m: Matrix, i: nat, j: nat, v: real): (r: Matrix)
    requires IsSquare(m, |m|) && i < |m| && j < |m|
    ensures IsSquare(r, |m|)
    ensures r[i][j] == v
    ensures forall a, b :: 0 <= a < |m| && 0 <= b < |m| && (a != i || b != j) ==> r[a][b] == m[a][b]
  {
    m[i := m[i][j := v]]
  }

  /** A 2-D array: all rows have the same length. */
  predicate Rectangular(X: seq<seq<real>>) {
    forall i, j :: 0 <= i < |X| && 0 <= j < |X| ==> |X[i]| == |X[j]|
  }

  function Min(a: int, b: int): int {
    if a <= b then a else b
  }

  function Max(a: int, b: int): int {
    if a <= b then b else a
  }

  // ---------------------------------------------------------------
  // pair enumerations
  // ---------------------------------------------------------------

  /** `[(i, j) for j in range(from, n)]`. */
  function RowPairs(i: nat, from: nat, n: nat): (ps: seq<(nat, nat)>)
    ensures |ps| == if from <= n then n - from else 0
    ensures forall k :: 0 <= k < |ps| ==> ps[k] == (i, from + k)
    decreases n - from
  {
    if from >= n then [] else [(i, from)] + RowPairs(i, from + 1, n)
  }

  /** `[(i, j) for i in range(s, n) for j in range(i + gap, n)]`: the upper
      triangle with the diagonal when `gap` is 0 and without it when `gap` is 1. */
  function TrianglePairs(s: nat, n: nat, gap: nat): seq<(nat, nat)>
    decreases n - s
  {
    if s >= n then [] else RowPairs(s, s + gap, n) + TrianglePairs(s + 1, n, gap)
  }

  /** The generator `((i, j) for i in range(n) for j in range(i, n))`. */
  function UpperPairs(n: nat): seq<(nat, nat)> {
    TrianglePairs(0, n, 0)
  }

  /** `itertools.combinations(range(n), 2)`. */
  function StrictPairs(n: nat): seq<(nat, nat)> {
    TrianglePairs(0, n, 1)
  }

  predicate DistinctPairs(ps: seq<(nat, nat)>) {
    forall k1, k2 :: 0 <= k1 < k2 < |ps| ==> ps[k1] != ps[k2]
  }

  lemma {:induction false} TrianglePairsMembers(s: nat, n: nat, gap: nat)
    ensures forall i: nat, j: nat :: (i, j) in TrianglePairs(s, n, gap) <==> s <= i && i + gap <= j < n
    ensures forall k :: 0 <= k < |TrianglePairs(s, n, gap)| ==> TrianglePairs(s, n, gap)[k].0 >= s
    ensures DistinctPairs(TrianglePairs(s, n, gap))
    decreases n - s
  {
    if s < n {
      TrianglePairsMembers(s + 1, n, gap);
      var row, rest := RowPairs(s, s + gap, n), TrianglePairs(s + 1, n, gap);
      assert TrianglePairs(s, n, gap) == row + rest;
      forall i: nat, j: nat
        ensures (i, j) in row + rest <==> s <= i && i + gap <= j < n
      {
        if (i, j) in row {
          var k :| 0 <= k < |row| && row[k] == (i, j);
        }
        if i == s && i + gap <= j < n {
          assert row[j - s - gap] == (i, j);
        }
      }
    }
  }

  /** Twice the number of pairs: `m * (m + 1 - gap)` for `m = n - s` rows. */
  lemma {:induction false} TrianglePairsCount(s: nat, n: nat, gap: nat)
    requires gap <= 1
    requires s <= n
    ensures 2 * |TrianglePairs(s, n, gap)| == (n - s) * (n - s + 1 - 2 * gap)
    decreases n - s
  {
    if s < n {
      TrianglePairsCount(s + 1, n, gap);
      var m := n - s;
      if gap == 0 {
        assert 2 * |TrianglePairs(s, n, gap)| == 2 * m + (m - 1) * m;
      } else {
        assert 2 * |TrianglePairs(s, n, gap)| == 2 * (m - 1) + (m - 1) * (m - 2);
      }
    }
  }

  /** The generator of the pair-list builders yields every `(i, j)` with
      `0 <= i <= j < n` exactly once, `n(n+1)/2` pairs in all. */
  lemma UpperPairsExactlyOnce(n: nat)
    ensures forall i: nat, j: nat :: (i, j) in UpperPairs(n) <==> i <= j < n
    ensures DistinctPairs(UpperPairs(n))
    ensures |UpperPairs(n)| == n * (n + 1) / 2
  {
    TrianglePairsMembers(0, n, 0);
    TrianglePairsCount(0, n, 0);
  }

  /** `combinations(range(n), 2)` yields every `(i, j)` with `0 <= i < j < n`
      exactly once, `n(n-1)/2` pairs in all; no diagonal pair is generated. */
  lemma StrictPairsExactlyOnce(n: nat)
    ensures forall i: nat, j: nat :: (i, j) in StrictPairs(n) <==> i < j < n
    ensures DistinctPairs(StrictPairs(n))
    ensures 2 * |StrictPairs(n)| == n * (n - 1)
    ensures forall i: nat :: (i, i) !in StrictPairs(n)
  {
    TrianglePairsMembers(0, n, 1);
    TrianglePairsCount(0, n, 1);
    if n > 0 {
      assert n * (n + 1 - 2) == n * (n - 1);
    }
  }

  // ---------------------------------------------------------------
  // merge of (i, j, value) results: m[i][j] = m[j][i] = value
  // ---------------------------------------------------------------

  /** A worker's self-describing result: its own indices and the score. */
  type PairResult = (nat, nat, real)

  /** The result targets the unordered cell {a, b}. */
  predicate Targets(r: PairResult, a: nat, b: nat) {
    (r.0 == a && r.1 == b) || (r.0 == b && r.1 == a)
  }

  predicate InBounds(results: seq<PairResult>, n: nat) {
    forall k :: 0 <= k < |results| ==> results[k].0 < n && results[k].1 < n
  }

  /** The value that the last result targeting {a, b} wrote, or the initial 0. */
  function LastWrite(results: seq<PairResult>, a: nat, b: nat): real {
    if |results| == 0 then 0.0
    else if Targets(results[|results| - 1], a, b) then results[|results| - 1].2
    else LastWrite(results[..|results| - 1], a, b)
  }

  /** No two results target the same unordered cell. */
  predicate UniqueCells(results: seq<PairResult>) {
    forall k1, k2 :: 0 <= k1 < k2 < |results| ==> !Targets(results[k1], results[k2].0, results[k2].1)
  }

  /** The single merge point: processes the results in arrival order and
      writes each one to (i, j) and to (j, i). Every cell ends up holding the
      value of the last result that targeted it, so the matrix is symmetric. */
  method MergePairs(n: nat, results: seq<PairResult>) returns (m: Matrix)
    requires InBounds(results, n)
    ensures IsSquare(m, n)
    ensures forall a, b :: 0 <= a < n && 0 <= b < n ==> m[a][b] == LastWrite(results, a, b)
    ensures Symmetric(m)
  {
    m := Zeros(n);
    var k := 0;
    while k < |results|
      invariant 0 <= k <= |results|
      invariant IsSquare(m, n)
      invariant forall a, b :: 0 <= a < n && 0 <= b < n ==> m[a][b] == LastWrite(results[..k], a, b)
    {
      var (i, j, v) := results[k];
      m := Set(m, i, j, v);
      m := Set(m, j, i, v);
      assert results[..k + 1][..k] == results[..k];
      k := k + 1;
    }
    assert results[..k] == results;
    forall a, b | 0 <= a < n && 0 <= b < n
      ensures m[a][b] == m[b][a]
    {
      LastWriteSymmetric(results, a, b);
    }
  }

  lemma {:induction false} LastWriteSymmetric(results: seq<PairResult>, a: nat, b: nat)
    ensures LastWrite(results, a, b) == LastWrite(results, b, a)
  {
    if |results| > 0 {
      LastWriteSymmetric(results[..|results| - 1], a, b);
    }
  }

  /** With uniquely targeted cells, a cell holds the score of the one result
      that targets it, and 0 if no result does. */
  lemma {:induction false} LastWriteOfUnique(results: seq<PairResult>, a: nat, b: nat)
    requires UniqueCells(results)
    ensures forall r :: r in results && Targets(r, a, b) ==> LastWrite(results, a, b) == r.2
    ensures (forall r :: r in results ==> !Targets(r, a, b)) ==> LastWrite(results, a, b) == 0.0
  {
    if |results| > 0 {
      var init, last := results[..|results| - 1], results[|results| - 1];
      assert results == init + [last];
      LastWriteOfUnique(init, a, b);
      if Targets(last, a, b) {
        forall r | r in init
          ensures !Targets(r, a, b)
        {
          var k :| 0 <= k < |init| && init[k] == r;
          assert results[k] == r;
          assert !Targets(r, last.0, last.1);
        }
      }
    }
  }

  /** The index form of `LastWriteOfUnique`: result `k` decides its cell. */
  lemma LastWriteAt(results: seq<PairResult>, k: nat, a: nat, b: nat)
    requires UniqueCells(results) && k < |results| && Targets(results[k], a, b)
    ensures LastWrite(results, a, b) == results[k].2
  {
    LastWriteOfUnique(results, a, b);
    assert results[k] in results;
  }

  /** A cell no result targets keeps its initial 0. */
  lemma {:induction false} LastWriteNone(results: seq<PairResult>, a: nat, b: nat)
    requires forall k :: 0 <= k < |results| ==> !Targets(results[k], a, b)
    ensures LastWrite(results, a, b) == 0.0
  {
    if |results| > 0 {
      LastWriteNone(results[..|results| - 1], a, b);
    }
  }

  /** The merged matrix does not depend on the order in which uniquely
      targeted results arrive. */
  lemma MergeOrderIndependent(r1: seq<PairResult>, r2: seq<PairResult>, a: nat, b: nat)
    requires UniqueCells(r1) && UniqueCells(r2)
    requires multiset(r1) == multiset(r2)
    ensures LastWrite(r1, a, b) == LastWrite(r2, a, b)
  {
    LastWriteOfUnique(r1, a, b);
    LastWriteOfUnique(r2, a, b);
    assert forall r :: r in r1 <==> r in multiset(r1);
    assert forall r :: r in r2 <==> r in multiset(r2);
    if r :| r in r1 && Targets(r, a, b) {
      assert r in r2;
    }
  }

  // ---------------------------------------------------------------
  // merge of (i, row) results: m[i, i:] = row[i:]; m[i:, i] = row[i:]
  // ---------------------------------------------------------------

  /** A worker's upper-triangle row: its own index and the full-length row. */
  type RowResult = (nat, seq<real>)

  predicate RowsInBounds(rows: seq<RowResult>, n: nat) {
    forall k :: 0 <= k < |rows| ==> rows[k].0 < n && |rows[k].1| == n
  }

  /** Writing row i touches exactly the cells whose smaller index is i; the
      value is the row's entry at the larger index. This is the value of the
      last such row, or 0 if none came. */
  function LastRowWrite(rows: seq<RowResult>, n: nat, a: nat, b: nat): real
    requires RowsInBounds(rows, n) && a < n && b < n
  {
    if |rows| == 0 then 0.0
    else if rows[|rows| - 1].0 == Min(a, b) then rows[|rows| - 1].1[Max(a, b)]
    else LastRowWrite(rows[..|rows| - 1], n, a, b)
  }

  /** One merge step: `m[i, i:] = row[i:]` followed by the mirror
      `m[i:, i] = row[i:]`. */
  method WriteRowAndMirror(m0: Matrix, i: nat, row: seq<real>) returns (m: Matrix)
    requires IsSquare(m0, |m0|) && i < |m0| && |row| == |m0|
    ensures IsSquare(m, |m0|)
    ensures forall a, b {:trigger m[a][b]} :: 0 <= a < |m0| && 0 <= b < |m0| ==>
      m[a][b] == if Min(a, b) == i then row[Max(a, b)] else m0[a][b]
  {
    var n := |m0|;
    m := m0;
    var j := i;
    while j < n
      invariant i <= j <= n
      invariant IsSquare(m, n)
      invariant forall a, b {:trigger m[a][b]} :: 0 <= a < n && 0 <= b < n ==>
        m[a][b] == if a == i && i <= b < j then row[b] else m0[a][b]
    {
      var m' := Set(m, i, j, row[j]);
      forall a, b | 0 <= a < n && 0 <= b < n
        ensures m'[a][b] == if a == i && i <= b < j + 1 then row[b] else m0[a][b]
      {
        if a != i || b != j {
          assert m'[a][b] == m[a][b];
        }
      }
      m := m';
      j := j + 1;
    }
    var m1 := m;
    j := i;
    while j < n
      invariant i <= j <= n
      invariant IsSquare(m, n)
      invariant forall a, b {:trigger m[a][b]} :: 0 <= a < n && 0 <= b < n ==>
        m[a][b] == if b == i && i <= a < j then row[a] else m1[a][b]
    {
      var m' := Set(m, j, i, row[j]);
      forall a, b | 0 <= a < n && 0 <= b < n
        ensures m'[a][b] == if b == i && i <= a < j + 1 then row[a] else m1[a][b]
      {
        if a != j || b != i {
          assert m'[a][b] == m[a][b];
        }
      }
      m := m';
      j := j + 1;
    }
  }

  /** The row merge point: every cell ends up holding the entry of the last
      row result whose index is the cell's smaller coordinate, so the result
      is symmetric whatever the rows contain. */
  method MergeRows(n: nat, rows: seq<RowResult>) returns (m: Matrix)
    requires RowsInBounds(rows, n)
    ensures IsSquare(m, n)
    ensures forall a, b :: 0 <= a < n && 0 <= b < n ==> m[a][b] == LastRowWrite(rows, n, a, b)
    ensures Symmetric(m)
  {
    m := Zeros(n);
    var k := 0;
    while k < |rows|
      invariant 0 <= k <= |rows|
      invariant IsSquare(m, n)
      invariant forall a, b :: 0 <= a < n && 0 <= b < n ==> m[a][b] == LastRowWrite(rows[..k], n, a, b)
    {
      m := WriteRowAndMirror(m, rows[k].0, rows[k].1);
      assert rows[..k + 1][..k] == rows[..k];
      k := k + 1;
    }
    assert rows[..k] == rows;
    forall a, b | 0 <= a < n && 0 <= b < n
      ensures m[a][b] == m[b][a]
    {
      LastRowWriteSymmetric(rows, n, a, b);
    }
  }

  lemma {:induction false} LastRowWriteSymmetric(rows: seq<RowResult>, n: nat, a: nat, b: nat)
    requires RowsInBounds(rows, n) && a < n && b < n
    ensures LastRowWrite(rows, n, a, b) == LastRowWrite(rows, n, b, a)
  {
    if |rows| > 0 {
      LastRowWriteSymmetric(rows[..|rows| - 1], n, a, b);
    }
  }

  /** When each row index arrives once, cell (a, b) holds the entry at the
      larger index of the one row whose index is the smaller; rows that never
      arrive leave their cells at 0. */
  lemma {:induction false} LastRowWriteOfUnique(rows: seq<RowResult>, n: nat, a: nat, b: nat)
    requires RowsInBounds(rows, n) && a < n && b < n
    requires UniqueRows(rows)
    ensures forall k :: 0 <= k < |rows| && rows[k].0 == Min(a, b) ==>
      LastRowWrite(rows, n, a, b) == rows[k].1[Max(a, b)]
    ensures (forall k :: 0 <= k < |rows| ==> rows[k].0 != Min(a, b)) ==> LastRowWrite(rows, n, a, b) == 0.0
  {
    if |rows| > 0 {
      var init := rows[..|rows| - 1];
      LastRowWriteOfUnique(init, n, a, b);
      assert forall k :: 0 <= k < |init| ==> init[k] == rows[k];
    }
  }

  predicate UniqueRows(rows: seq<RowResult>) {
    forall k1, k2 :: 0 <= k1 < k2 < |rows| ==> rows[k1].0 != rows[k2].0
  }

  /** Cell {a, b} is written only by the row of its smaller index, so with
      each row index arriving once the merged matrix does not depend on the
      order in which the rows arrive. */
  lemma MergeRowsOrderIndependent(r1: seq<RowResult>, r2: seq<RowResult>, n: nat, a: nat, b: nat)
    requires RowsInBounds(r1, n) && RowsInBounds(r2, n) && a < n && b < n
    requires UniqueRows(r1) && UniqueRows(r2)
    requires multiset(r1) == multiset(r2)
    ensures LastRowWrite(r1, n, a, b) == LastRowWrite(r2, n, a, b)
  {
    LastRowWriteOfUnique(r1, n, a, b);
    LastRowWriteOfUnique(r2, n, a, b);
    if k1 :| 0 <= k1 < |r1| && r1[k1].0 == Min(a, b) {
      assert r1[k1] in multiset(r2);
      var k2 :| 0 <= k2 < |r2| && r2[k2] == r1[k1];
    }
    if k2 :| 0 <= k2 < |r2| && r2[k2].0 == Min(a, b) {
      assert r2[k2] in multiset(r1);
    }
  }

  // ---------------------------------------------------------------
  // merge of full-row blocks: out[s:s+len(block), :] = block
  // ---------------------------------------------------------------

  /** `out[s:s + len(block), :] = block` for a block of full rows. */
  method WriteBlock(m0: Matrix, s: nat, block: seq<seq<real>>) returns (m: Matrix)
    requires IsSquare(m0, |m0|) && s + |block| <= |m0|
    requires forall t :: 0 <= t < |block| ==> |block[t]| == |m0|
    ensures IsSquare(m, |m0|)
    ensures forall a :: 0 <= a < |m0| ==> m[a] == if s <= a < s + |block| then block[a - s] else m0[a]
  {
    m := m0;
    var t := 0;
    while t < |block|
      invariant 0 <= t <= |block|
      invariant IsSquare(m, |m0|)
      invariant forall a :: 0 <= a < |m0| ==> m[a] == if s <= a < s + t then block[a - s] else m0[a]
    {
      m := m[s + t := block[t]];
      t := t + 1;
    }
  }
}

=== FILE: matriz_blocks.dfy ===
/** `src/construccion_matriz/matriz_blocks.py`: the full L2 similarity
    matrix computed block by block. `range(0, N, block_size)` gives the
    first row of every block. Each block of rows is compared with all rows,
    and the result is written into its rows of the output.

    The pool's `imap` returns the results in the order of the blocks, so the
    parallel and the sequential branches perform the same writes. The model
    has one sequential loop; `use_parallel` and `n_procs` only decide
    whether creating the pool fails. `cpu_count()` is the parameter `cpu`.

    The output is `N x N` with `N = len(lista_mun)`, while the blocks come
    from the rows of the data. Writing an `nA x |M|` block into the `N`
    columns of the output follows numpy broadcasting: it works when `|M|`
    is `N` or 1, and raises ValueError otherwise. */
module MatrizBlocks {
  import opened Wrappers
  import opened Matrices
  import opened Distancia
  import opened Aritmetica

  /** `range(0, n, block_size)`. A zero step raises ValueError. A negative
      step yields nothing, since the range starts at 0 and counts down past `n`.
      A positive step yields `0, bs, 2 bs, ...` below `n`. */
  function Inicios(n: nat, blockSize: int): (r: Result<seq<nat>>)
    ensures r.Err? <==> blockSize == 0
    ensures r.Err? ==> r.error.ValueError?
    ensures blockSize < 0 ==> r == Ok([])
    ensures blockSize > 0 ==> r.Ok? && |r.value| == CeilDiv(n, blockSize)
    ensures blockSize > 0 ==> forall k :: 0 <= k < |r.value| ==> r.value[k] == k * blockSize < n
  {
    if blockSize == 0 then Err(ValueError("range() arg 3 must not be zero"))
    else if blockSize < 0 then Ok([])
    else
      var c := CeilDiv(n, blockSize);
      var r := seq(c, k requires 0 <= k => k * blockSize);
      assert forall k :: 0 <= k < c ==> r[k] < n by {
        forall k | 0 <= k < c ensures r[k] < n {
          BajoCeil(n, blockSize, k);
        }
      }
      Ok(r)
  }

  /** Every multiple `k * w` with `k < ceil(n / w)` is below `n`. */
  lemma BajoCeil(n: nat, w: nat, k: nat)
    requires w > 0 && k < CeilDiv(n, w)
    ensures k * w < n
  {
    MulMono(k, CeilDiv(n, w) - 1, w);
  }

  /** The rows `M[s : s + bs]` of the block starting at `s`, as a range. */
  function Bloque(s: nat, blockSize: nat, n: nat): (nat, nat) {
    (s, Min(s + blockSize, n))
  }

  predicate EnBloque(r: (nat, nat), i: nat) {
    r.0 <= i < r.1
  }

  /** For a positive block size the blocks partition the rows: row `i` lies
      in the block numbered `i / bs` and in no other. */
  lemma IniciosParticion(n: nat, blockSize: nat)
    requires blockSize > 0
    ensures var s := Inicios(n, blockSize).value;
      forall i :: 0 <= i < n ==> i / blockSize < |s| && EnBloque(Bloque(s[i / blockSize], blockSize, n), i)
    ensures var s := Inicios(n, blockSize).value;
      forall k, i :: 0 <= k < |s| && 0 <= i && EnBloque(Bloque(s[k], blockSize, n), i) ==> i < n && k == i / blockSize
  {
    var s := Inicios(n, blockSize).value;
    var c := CeilDiv(n, blockSize);
    forall i | 0 <= i < n
      ensures i / blockSize < |s| && EnBloque(Bloque(s[i / blockSize], blockSize, n), i)
    {
      DivBounds(i, blockSize);
      MulMono(c, i / blockSize, blockSize);
    }
    forall k, i | 0 <= k < |s| && 0 <= i && EnBloque(Bloque(s[k], blockSize, n), i)
      ensures i < n && k == i / blockSize
    {
      DivUnique(i, blockSize, k);
    }
  }

  /** `comparar_bloque((A_block, B_full))`: the `nA x nB` matrix whose cell
      `(i, j)` is the similarity of row `i` of the block and row `j` of the
      full matrix. */
  method CompararBloque(sqrt: real -> real, A: seq<seq<real>>, B: seq<seq<real>>)
    returns (resultado: seq<seq<real>>)
    requires SqrtLike(sqrt)
    requires forall i, j :: 0 <= i < |A| && 0 <= j < |B| ==> |A[i]| == |B[j]|
    ensures |resultado| == |A|
    ensures forall i :: 0 <= i < |A| ==> |resultado[i]| == |B|
    ensures forall i, j :: 0 <= i < |A| && 0 <= j < |B| ==>
      resultado[i][j] == SimilitudL2(sqrt, A[i], B[j])
  {
    resultado := [];
    var i := 0;
    while i < |A|
      invariant 0 <= i <= |A| && |resultado| == i
      invariant forall a :: 0 <= a < i ==> |resultado[a]| == |B|
      invariant forall a, j :: 0 <= a < i && 0 <= j < |B| ==>
        resultado[a][j] == SimilitudL2(sqrt, A[a], B[j])
    {
      var fila := seq(|B|, _ => 0.0);
      var j := 0;
      while j < |B|
        invariant 0 <= j <= |B| && |fila| == |B|
        invariant forall c :: 0 <= c < |B| ==> fila[c] == if c < j then SimilitudL2(sqrt, A[i], B[c]) else 0.0
      {
        fila := fila[j := SimilitudL2(sqrt, A[i], B[j])];
        j := j + 1;
      }
      resultado := resultado + [fila];
      i := i + 1;
    }
  }

  /** Writing block `k` moves the filled prefix from `min(k bs, n)` to
      `min((k + 1) bs, n)`. */
  lemma PasoDeBloque(k: nat, blockSize: int, n: nat)
    requires blockSize > 0 && k * blockSize < n
    ensures Min(k * blockSize + blockSize, n) == Min((k + 1) * blockSize, n)
    ensures Min(k * blockSize, n) == k * blockSize
  {
  }

  /** The rows below `hecho` of `out` hold their similarities, the rest
      are still zero. */
  ghost predicate Prefijo(sqrt: real -> real, M: seq<seq<real>>, out: Matrix, hecho: nat)
    requires SqrtLike(sqrt) && Rectangular(M)
  {
    IsSquare(out, |M|) && forall a, b {:trigger out[a][b]} :: 0 <= a < |M| && 0 <= b < |M| ==>
      out[a][b] == if a < hecho then SimilitudL2(sqrt, M[a], M[b]) else 0.0
  }

  /** One iteration of the outer loop: `out[s:e, :] = comparar_bloque((M[s:e], M))`. */
  method EscribirBloque(sqrt: real -> real, M: seq<seq<real>>, out0: Matrix, s: nat, e: nat)
    returns (out: Matrix)
    requires SqrtLike(sqrt) && Rectangular(M) && s <= e <= |M|
    requires Prefijo(sqrt, M, out0, s)
    ensures Prefijo(sqrt, M, out, e)
  {
    var resultado := CompararBloque(sqrt, M[s..e], M);
    out := WriteBlock(out0, s, resultado);
  }

  /** `out[idxA:idxA + nA, :] = resultado` broadcasts a result with `m`
      columns into the `n` columns of the output: `m` must be `n` or 1. */
  predicate Difunde(m: nat, n: nat) {
    m == n || m == 1
  }

  /** The ways the build raises ValueError: `range` with step 0, a pool of
      fewer than one process, or a block that does not broadcast into the
      output (only reached when there is a block, that is, for a positive
      step and `N > 0`). */
  predicate FallaBlocks(n: nat, m: nat, blockSize: int, nProcs: int, usarParalelo: bool, cpu: int) {
    || blockSize == 0
    || (usarParalelo && Min(nProcs, cpu) < 1)
    || (blockSize > 0 && n > 0 && !Difunde(m, n))
  }

  /** Three ids over one data row build; two ids over three data rows do
      not; a pool of `min(0, cpu)` processes fails only when the pool is
      used. */
  lemma EjemplosDeFalla()
    ensures !FallaBlocks(3, 1, 300, 4, true, 8)
    ensures FallaBlocks(2, 3, 300, 4, true, 8)
    ensures FallaBlocks(2, 2, 300, 0, true, 8) && !FallaBlocks(2, 2, 300, 0, false, 8)
    ensures !FallaBlocks(2, 3, -1, 4, false, 8)
  {
  }

  /** `construir_matriz_similitud_blocks(df_wide, lista_mun, block_size,
      n_procs, use_parallel)`: the id list returned unchanged with the
      `N x N` output matrix, `N = len(lista_mun)`. It raises ValueError as
      `FallaBlocks` says. A negative block size writes no block and leaves
      the output all zeros. A positive one with as many data rows as ids
      fills every cell with the similarity of its two rows, which makes the
      matrix symmetric with 1 on the diagonal. A single data row against
      more ids fills row 0 with that row's similarity to itself, 1, and
      leaves the rest zero. */
  method ConstruirMatrizSimilitudBlocks(sqrt: real -> real, listaMun: seq<string>, M: seq<seq<real>>,
                                        blockSize: int, nProcs: int, usarParalelo: bool, cpu: int)
    returns (r: Result<(seq<string>, Matrix)>)
    requires SqrtLike(sqrt) && Rectangular(M)
    ensures r.Err? <==> FallaBlocks(|listaMun|, |M|, blockSize, nProcs, usarParalelo, cpu)
    ensures r.Err? ==> r.error.ValueError?
    ensures r.Ok? ==> r.value.0 == listaMun && IsSquare(r.value.1, |listaMun|)
    ensures r.Ok? && blockSize < 0 ==> forall a, b :: 0 <= a < |listaMun| && 0 <= b < |listaMun| ==> r.value.1[a][b] == 0.0
    ensures r.Ok? && blockSize > 0 && |M| == |listaMun| ==> forall a, b :: 0 <= a < |M| && 0 <= b < |M| ==>
      r.value.1[a][b] == SimilitudL2(sqrt, M[a], M[b])
    ensures r.Ok? && blockSize > 0 && |M| == |listaMun| ==>
      Symmetric(r.value.1) && forall a :: 0 <= a < |M| ==> r.value.1[a][a] == 1.0
    ensures r.Ok? && blockSize > 0 && |M| == 1 ==> forall a, b :: 0 <= a < |listaMun| && 0 <= b < |listaMun| ==>
      r.value.1[a][b] == if a == 0 then 1.0 else 0.0
  {
    var n := |listaMun|;
    var inicios :- Inicios(n, blockSize);
    if usarParalelo && Min(nProcs, cpu) < 1 {
      return Err(ValueError("Number of processes must be at least 1"));
    }
    if |M| == n {
      var out := BloquesCompletos(sqrt, M, blockSize, inicios);
      return Ok((listaMun, out));
    } else if blockSize < 0 || n == 0 {
      return Ok((listaMun, Zeros(n)));
    } else if |M| == 1 {
      var resultado := CompararBloque(sqrt, M[0..1], M);
      var uno := resultado[0][0];
      assert M[0..1][0] == M[0];
      assert uno == 1.0;
      var out := Zeros(n);
      out := out[0 := seq(n, _ => uno)];
      assert forall a :: 1 <= a < n ==> out[a] == Zeros(n)[a];
      return Ok((listaMun, out));
    } else {
      return Err(ValueError("could not broadcast input array"));
    }
  }

  /** The loop over the blocks when there is one data row per id. */
  method BloquesCompletos(sqrt: real -> real, M: seq<seq<real>>, blockSize: int, inicios: seq<nat>)
    returns (out: Matrix)
    requires SqrtLike(sqrt) && Rectangular(M) && blockSize != 0
    requires Inicios(|M|, blockSize) == Ok(inicios)
    ensures IsSquare(out, |M|)
    ensures blockSize < 0 ==> forall a, b :: 0 <= a < |M| && 0 <= b < |M| ==> out[a][b] == 0.0
    ensures blockSize > 0 ==> forall a, b :: 0 <= a < |M| && 0 <= b < |M| ==>
      out[a][b] == SimilitudL2(sqrt, M[a], M[b])
    ensures blockSize > 0 ==> Symmetric(out) && forall a :: 0 <= a < |M| ==> out[a][a] == 1.0
  {
    var n := |M|;
    out := Zeros(n);
    var k, hecho := 0, 0;
    while k < |inicios|
      invariant 0 <= k <= |inicios| && hecho <= n
      invariant blockSize > 0 ==> hecho == Min(k * blockSize, n)
      invariant blockSize < 0 ==> hecho == 0
      invariant Prefijo(sqrt, M, out, hecho)
    {
      var s := inicios[k];
      var e := Min(s + blockSize, n);
      PasoDeBloque(k, blockSize, n);
      out := EscribirBloque(sqrt, M, out, s, e);
      k, hecho := k + 1, e;
    }
    if blockSize > 0 {
      MulMono(0, 0, blockSize);
      assert hecho == n;
      forall a, b | 0 <= a < n && 0 <= b < n
        ensures out[a][b] == out[b][a]
      {
        SimilitudL2Symmetric(sqrt, M[a], M[b]);
      }
    }
  }
}

=== FILE: matriz_categorica.dfy ===
/** `src/construccion_matriz/matriz_categorica.py`: the categorical
    similarity matrix. Each soil row becomes its joined cleaned fields and
    each landform row its cleaned `CLAVE`, and a missing id counts as "". A
    cell is the mean of the soil and landform comparators. */
module MatrizCategorica {
  import opened Wrappers
  import opened Matrices
  import opened Tablas
  import opened AnalisisCategorico
  import opened MatrizPares

  /** `eda_dict.get(cve, "")`. */
  function Edafologia(t: Tabla<FilaEdafologia>, cve: string): (s: string)
    ensures !Tiene(t, cve) ==> s == ""
    ensures Tiene(t, cve) ==> |s| >= 5
  {
    Get(t, UnirEdafologia, cve, "")
  }

  /** `topo_dict.get(cve, "")`. */
  function Topoforma(t: Tabla<Celda>, cve: string): (s: string)
    ensures !Tiene(t, cve) ==> s == ""
  {
    Get(t, LimpiarTexto, cve, "")
  }

  /** `sim_pair(i, j)` on the ids of `i` and `j`: `modelo_gral` over the
      preprocessed texts. */
  function SimPar(ratio: (string, string) -> real, jaro: (string, string) -> real,
                  eda: Tabla<FilaEdafologia>, topo: Tabla<Celda>, mun1: string, mun2: string): (s: real)
    ensures !Tiene(eda, mun1) && !Tiene(topo, mun1) ==> s == 0.0
    ensures !Tiene(eda, mun2) && !Tiene(topo, mun2) ==> s == 0.0
  {
    ModeloGral(ratio, jaro, Texto(Edafologia(eda, mun1)), Texto(Edafologia(eda, mun2)),
               Texto(Topoforma(topo, mun1)), Texto(Topoforma(topo, mun2)))
  }

  /** With metrics in [0, 1] that ignore argument order, the score lies in
      [0, 1] and is symmetric. */
  lemma SimParPropiedades(ratio: (string, string) -> real, jaro: (string, string) -> real,
                          eda: Tabla<FilaEdafologia>, topo: Tabla<Celda>, mun1: string, mun2: string)
    requires MetricaLike(ratio) && MetricaLike(jaro)
    ensures 0.0 <= SimPar(ratio, jaro, eda, topo, mun1, mun2) <= 1.0
    ensures SimPar(ratio, jaro, eda, topo, mun1, mun2) == SimPar(ratio, jaro, eda, topo, mun2, mun1)
  {
    ModeloGralAcotado(ratio, jaro, Texto(Edafologia(eda, mun1)), Texto(Edafologia(eda, mun2)),
                      Texto(Topoforma(topo, mun1)), Texto(Topoforma(topo, mun2)));
  }

  /** `construir_matriz_categorica(lista_cvegeo, ...)`: every cell the score
      of its two ids, symmetric, within [0, 1]. An id found in neither table
      scores 0 against everything, its own diagonal cell included.
      `n_jobs = 0` raises ValueError; otherwise a zero `cada` with a
      non-empty list raises ZeroDivisionError. */
  method ConstruirMatrizCategorica(ratio: (string, string) -> real, jaro: (string, string) -> real,
                                   listaCvegeo: seq<string>, eda: Tabla<FilaEdafologia>, topo: Tabla<Celda>,
                                   nJobs: int, cada: int, etiqueta: string)
    returns (r: Result<Matrix>)
    requires MetricaLike(ratio) && MetricaLike(jaro)
    ensures r.Err? <==> nJobs == 0 || (cada == 0 && |listaCvegeo| > 0)
    ensures r.Err? && nJobs == 0 ==> r.error.ValueError?
    ensures r.Err? && nJobs != 0 ==> r.error == ZeroDivisionError
    ensures r.Ok? ==> IsSquare(r.value, |listaCvegeo|) && Symmetric(r.value)
    ensures r.Ok? ==> forall a, b :: 0 <= a < |listaCvegeo| && 0 <= b < |listaCvegeo| ==>
      r.value[a][b] == SimPar(ratio, jaro, eda, topo, listaCvegeo[a], listaCvegeo[b])
      && 0.0 <= r.value[a][b] <= 1.0
    ensures r.Ok? ==> forall a :: 0 <= a < |listaCvegeo| && !Tiene(eda, listaCvegeo[a]) && !Tiene(topo, listaCvegeo[a]) ==>
      r.value[a][a] == 0.0
  {
    var n := |listaCvegeo|;
    var sim := (i: nat, j: nat) =>
      if i < n && j < n then SimPar(ratio, jaro, eda, topo, listaCvegeo[i], listaCvegeo[j]) else 0.0;
    r := MatrizDePares(n, sim, nJobs, cada, etiqueta);
    if r.Ok? {
      CeldasCategoricas(ratio, jaro, eda, topo, listaCvegeo, sim, r.value);
    }
  }

  /** A matrix holding the score of (min, max) in each cell holds the score
      of (a, b) in cell (a, b), by symmetry, within [0, 1]; an id found in
      neither table has 0 on its diagonal. */
  lemma CeldasCategoricas(ratio: (string, string) -> real, jaro: (string, string) -> real,
                          eda: Tabla<FilaEdafologia>, topo: Tabla<Celda>, lista: seq<string>,
                          sim: (nat, nat) -> real, m: Matrix)
    requires MetricaLike(ratio) && MetricaLike(jaro)
    requires forall i: nat, j: nat :: i < |lista| && j < |lista| ==>
      sim(i, j) == SimPar(ratio, jaro, eda, topo, lista[i], lista[j])
    requires IsSquare(m, |lista|)
    requires forall a: nat, b: nat :: a < |lista| && b < |lista| ==> m[a][b] == sim(Min(a, b), Max(a, b))
    ensures forall a, b :: 0 <= a < |lista| && 0 <= b < |lista| ==>
      m[a][b] == SimPar(ratio, jaro, eda, topo, lista[a], lista[b]) && 0.0 <= m[a][b] <= 1.0
    ensures forall a :: 0 <= a < |lista| && !Tiene(eda, lista[a]) && !Tiene(topo, lista[a]) ==>
      m[a][a] == 0.0
  {
    forall a, b | 0 <= a < |lista| && 0 <= b < |lista|
      ensures m[a][b] == SimPar(ratio, jaro, eda, topo, lista[a], lista[b]) && 0.0 <= m[a][b] <= 1.0
    {
      assert m[a][b] == SimPar(ratio, jaro, eda, topo, lista[Min(a, b)], lista[Max(a, b)]);
      SimParPropiedades(ratio, jaro, eda, topo, lista[a], lista[b]);
    }
  }
}

=== FILE: matriz_gral.dfy ===
/** `src/construccion_matriz/matriz_gral.py`: re-ordering a labelled
    square matrix to a label order, and the weighted fusion of several
    matrices with weights normalised to sum 1.

    A DataFrame with `index == columns` is an `Etiquetada`: its labels and
    its values. The HDF5 reading and writing around them is not modelled. */
module MatrizGral {
  import opened Wrappers
  import opened Matrices
  import opened Seqs

  datatype Etiquetada = Etiquetada(index: seq<string>, valores: Matrix)

  /** A square frame whose rows and columns carry `index`. */
  predicate Valida(df: Etiquetada) {
    IsSquare(df.valores, |df.index|)
  }

  /** `df.loc[x, y]` for labels of `df`. */
  function Loc(df: Etiquetada, x: string, y: string): real
    requires Valida(df) && x in df.index && y in df.index
  {
    df.valores[IndexOf(df.index, x)][IndexOf(df.index, y)]
  }

  /** The first label of `orden` missing from `index`, if any. */
  function Faltante(orden: seq<string>, index: seq<string>): (r: Option<string>)
    ensures r.None? <==> forall k :: 0 <= k < |orden| ==> orden[k] in index
    ensures r.Some? ==> r.value in orden && r.value !in index
  {
    if |orden| == 0 then None
    else if orden[0] !in index then Some(orden[0])
    else
      var r := Faltante(orden[1..], index);
      assert forall k :: 1 <= k < |orden| ==> orden[k] == orden[1..][k - 1];
      r
  }

  /** `alinear_matriz(df, orden) = df.loc[orden, orden]`: KeyError for a
      label that `df` lacks; otherwise the frame indexed by `orden` whose
      cell `(a, b)` is `df`'s cell for the labels `orden[a]`, `orden[b]`. */
  function AlinearMatriz(df: Etiquetada, orden: seq<string>): (r: Result<Etiquetada>)
    requires Valida(df)
    ensures r.Err? <==> exists k :: 0 <= k < |orden| && orden[k] !in df.index
    ensures r.Err? ==> r.error.KeyError? && r.error.key in orden && r.error.key !in df.index
    ensures r.Ok? ==> Valida(r.value) && r.value.index == orden
    ensures r.Ok? ==> forall a, b :: 0 <= a < |orden| && 0 <= b < |orden| ==>
      r.value.valores[a][b] == Loc(df, orden[a], orden[b])
  {
    match Faltante(orden, df.index)
    case Some(x) => Err(KeyError(x))
    case None =>
      var n := |orden|;
      Ok(Etiquetada(orden, seq(n, a requires 0 <= a < n =>
        seq(n, b requires 0 <= b < n => Loc(df, orden[a], orden[b])))))
  }

  /** With unique labels, aligning a frame to its own index gives it back. */
  lemma AlinearIdentidad(df: Etiquetada)
    requires Valida(df) && Distinct(df.index)
    ensures AlinearMatriz(df, df.index) == Ok(df)
  {
    var n := |df.index|;
    forall a | 0 <= a < n
      ensures IndexOf(df.index, df.index[a]) == a
    {
      var k := IndexOf(df.index, df.index[a]);
      assert !(k < a) && !(a < k);
    }
    assert forall k :: 0 <= k < n ==> df.index[k] in df.index;
    var r := AlinearMatriz(df, df.index).value;
    forall a | 0 <= a < n
      ensures r.valores[a] == df.valores[a]
    {
      assert forall b :: 0 <= b < n ==> r.valores[a][b] == df.valores[a][b];
    }
    assert r.valores == df.valores;
  }

  /** Every label keeps its cells: for labels of an `orden` without repeats,
      the aligned frame's `loc` equals the original's. A symmetric frame
      stays symmetric. */
  lemma AlinearConservaEtiquetas(df: Etiquetada, orden: seq<string>)
    requires Valida(df) && Distinct(orden)
    requires AlinearMatriz(df, orden).Ok?
    ensures forall x, y :: x in orden && y in orden ==>
      x in df.index && y in df.index && Loc(AlinearMatriz(df, orden).value, x, y) == Loc(df, x, y)
    ensures Symmetric(df.valores) ==> Symmetric(AlinearMatriz(df, orden).value.valores)
  {
    var r := AlinearMatriz(df, orden).value;
    forall x, y | x in orden && y in orden
      ensures x in df.index && y in df.index && Loc(r, x, y) == Loc(df, x, y)
    {
      var a, b := IndexOf(orden, x), IndexOf(orden, y);
      assert r.valores[a][b] == Loc(df, orden[a], orden[b]);
    }
  }

  // ---------------------------------------------------------------
  // construir_matriz_general
  // ---------------------------------------------------------------

  /** `[p / suma for p in pesos]`. */
  function PesosNormalizados(pesos: seq<real>): (r: seq<real>)
    requires Sum(pesos) != 0.0
    ensures |r| == |pesos|
  {
    Dividir(pesos, Sum(pesos))
  }

  function Dividir(ws: seq<real>, s: real): (r: seq<real>)
    requires s != 0.0
    ensures |r| == |ws|
    ensures forall k :: 0 <= k < |ws| ==> r[k] == ws[k] / s
  {
    seq(|ws|, k requires 0 <= k < |ws| => ws[k] / s)
  }

  /** `zip(matrices, pesos)`. */
  function Pares(ms: seq<Matrix>, ws: seq<real>): (ps: seq<(Matrix, real)>)
    requires |ms| == |ws|
    ensures |ps| == |ms|
    ensures forall k :: 0 <= k < |ms| ==> ps[k] == (ms[k], ws[k])
  {
    seq(|ms|, k requires 0 <= k < |ms| => (ms[k], ws[k]))
  }

  /** The contribution `w * M[i][j]` of one weighted matrix to cell `(i, j)`. */
  function Termino(i: nat, j: nat): ((Matrix, real)) -> real {
    (p: (Matrix, real)) => if i < |p.0| && j < |p.0[i]| then p.1 * p.0[i][j] else 0.0
  }

  function Peso(): ((Matrix, real)) -> real {
    (p: (Matrix, real)) => p.1
  }

  function Valores(dfs: seq<Etiquetada>): (ms: seq<Matrix>)
    ensures |ms| == |dfs|
    ensures forall k :: 0 <= k < |dfs| ==> ms[k] == dfs[k].valores
  {
    seq(|dfs|, k requires 0 <= k < |dfs| => dfs[k].valores)
  }

  /** `matriz_final += w * df.values`, for two matrices of the same size. */
  function SumarPonderada(acc: Matrix, w: real, m: Matrix): (r: Matrix)
    requires IsSquare(acc, |acc|) && IsSquare(m, |acc|)
    ensures IsSquare(r, |acc|)
    ensures forall i, j :: 0 <= i < |acc| && 0 <= j < |acc| ==> r[i][j] == acc[i][j] + w * m[i][j]
  {
    var n := |acc|;
    seq(n, i requires 0 <= i < n => seq(n, j requires 0 <= j < n => acc[i][j] + w * m[i][j]))
  }

  /** `construir_matriz_general(matrices, pesos)`. Failures, in the order the
      code meets them: AssertionError for unequal lengths; ZeroDivisionError
      for a zero weight sum, unless the list is empty, which reaches
      `matrices[0]` and raises IndexError; and a broadcasting error (here
      ShapeError) for a matrix whose size differs from the first one's.
      Otherwise every cell is the sum of the cell values weighted by the
      normalised weights, and the index is the first matrix's. */
  method ConstruirMatrizGeneral(matrices: seq<Etiquetada>, pesos: seq<real>) returns (r: Result<Etiquetada>)
    requires forall k :: 0 <= k < |matrices| ==> Valida(matrices[k])
    ensures (r.Err? && r.error.AssertionError?) <==> |matrices| != |pesos|
    ensures |matrices| == |pesos| == 0 ==> r == Err(IndexError)
    ensures |matrices| == |pesos| && |pesos| > 0 ==> (r == Err(ZeroDivisionError) <==> Sum(pesos) == 0.0)
    ensures |matrices| == |pesos| && |pesos| > 0 && Sum(pesos) != 0.0 ==>
      (r.Err? <==> exists k :: 0 <= k < |matrices| && |matrices[k].index| != |matrices[0].index|)
    ensures r.Err? && r.error == ShapeError ==> exists k :: 0 <= k < |matrices| && |matrices[k].index| != |matrices[0].index|
    ensures r.Ok? ==> |matrices| == |pesos| && |pesos| > 0 && Sum(pesos) != 0.0
    ensures r.Ok? ==> r.value.index == matrices[0].index && Valida(r.value)
    ensures r.Ok? ==> forall i, j :: 0 <= i < |r.value.index| && 0 <= j < |r.value.index| ==>
      r.value.valores[i][j] == SumOf(Pares(Valores(matrices), PesosNormalizados(pesos)), Termino(i, j))
  {
    if |matrices| != |pesos| {
      return Err(AssertionError("Debe haber un peso por matriz."));
    }
    var suma := Sum(pesos);
    if suma == 0.0 && |pesos| > 0 {
      return Err(ZeroDivisionError);
    }
    if |matrices| == 0 {
      return Err(IndexError);
    }
    var ws := PesosNormalizados(pesos);
    var ms := Valores(matrices);
    var n := |matrices[0].index|;
    var acc := Zeros(n);
    var k := 0;
    while k < |matrices|
      invariant 0 <= k <= |matrices|
      invariant IsSquare(acc, n)
      invariant forall t :: 0 <= t < k ==> |matrices[t].index| == n
      invariant forall i, j :: 0 <= i < n && 0 <= j < n ==>
        acc[i][j] == SumOf(Pares(ms[..k], ws[..k]), Termino(i, j))
    {
      if |matrices[k].index| != n {
        return Err(ShapeError);
      }
      acc := SumarTermino(ms, ws, k, n, acc);
      k := k + 1;
    }
    assert ms[..k] == ms && ws[..k] == ws;
    return Ok(Etiquetada(matrices[0].index, acc));
  }

  /** One iteration of the fusion loop: `matriz_final += w * df.values`
      for the `k`-th matrix. */
  method SumarTermino(ms: seq<Matrix>, ws: seq<real>, k: nat, n: nat, acc: Matrix) returns (r: Matrix)
    requires |ms| == |ws| && k < |ms| && IsSquare(acc, n) && IsSquare(ms[k], n)
    requires forall i, j :: 0 <= i < n && 0 <= j < n ==> acc[i][j] == SumOf(Pares(ms[..k], ws[..k]), Termino(i, j))
    ensures IsSquare(r, n)
    ensures forall i, j :: 0 <= i < n && 0 <= j < n ==> r[i][j] == SumOf(Pares(ms[..k + 1], ws[..k + 1]), Termino(i, j))
  {
    r := SumarPonderada(acc, ws[k], ms[k]);
    forall i, j | 0 <= i < n && 0 <= j < n
      ensures r[i][j] == SumOf(Pares(ms[..k + 1], ws[..k + 1]), Termino(i, j))
    {
      PasoFusion(ms, ws, k, i, j);
      assert Termino(i, j)((ms[k], ws[k])) == ws[k] * ms[k][i][j];
    }
  }

  /** Adding the `k`-th weighted matrix adds its term to every cell. */
  lemma PasoFusion(ms: seq<Matrix>, ws: seq<real>, k: nat, i: nat, j: nat)
    requires |ms| == |ws| && k < |ms|
    ensures SumOf(Pares(ms[..k + 1], ws[..k + 1]), Termino(i, j)) ==
      SumOf(Pares(ms[..k], ws[..k]), Termino(i, j)) + Termino(i, j)((ms[k], ws[k]))
  {
    assert Pares(ms[..k + 1], ws[..k + 1]) == Pares(ms[..k], ws[..k]) + [(ms[k], ws[k])];
    SumOfConcat(Pares(ms[..k], ws[..k]), [(ms[k], ws[k])], Termino(i, j));
  }

  // ---------------------------------------------------------------
  // properties of the fusion
  // ---------------------------------------------------------------

  lemma {:induction false} SumaDividida(ws: seq<real>, s: real)
    requires s != 0.0
    ensures Sum(Dividir(ws, s)) == Sum(ws) / s
  {
    if |ws| > 0 {
      assert Dividir(ws, s)[1..] == Dividir(ws[1..], s);
      SumaDividida(ws[1..], s);
      DividirSuma(ws[0], Sum(ws[1..]), s);
    }
  }

  lemma DividirSuma(a: real, b: real, s: real)
    requires s != 0.0
    ensures a / s + b / s == (a + b) / s
  {
    assert (a / s) * s == a && (b / s) * s == b;
    assert (a / s + b / s) * s == a + b;
  }

  /** Normalised weights sum to 1. */
  lemma PesosNormalizadosSuman(pesos: seq<real>)
    requires Sum(pesos) != 0.0
    ensures Sum(PesosNormalizados(pesos)) == 1.0
  {
    SumaDividida(pesos, Sum(pesos));
    assert Sum(pesos) / Sum(pesos) == 1.0;
  }

  function Escalar(ws: seq<real>, c: real): (r: seq<real>)
    ensures |r| == |ws|
    ensures forall k :: 0 <= k < |ws| ==> r[k] == c * ws[k]
  {
    seq(|ws|, k requires 0 <= k < |ws| => c * ws[k])
  }

  lemma {:induction false} SumaEscalada(ws: seq<real>, c: real)
    ensures Sum(Escalar(ws, c)) == c * Sum(ws)
  {
    if |ws| > 0 {
      assert Escalar(ws, c)[1..] == Escalar(ws[1..], c) by {
        assert forall k :: 0 <= k < |ws| - 1 ==> Escalar(ws, c)[1..][k] == c * ws[1..][k];
      }
      SumaEscalada(ws[1..], c);
      assert c * ws[0] + c * Sum(ws[1..]) == c * (ws[0] + Sum(ws[1..]));
    }
  }

  /** Scaling every weight by a nonzero `c` leaves the normalised weights,
      and hence the fused matrix, unchanged. */
  lemma PesosInvariantesEscala(pesos: seq<real>, c: real)
    requires Sum(pesos) != 0.0 && c != 0.0
    ensures Sum(Escalar(pesos, c)) != 0.0
    ensures PesosNormalizados(Escalar(pesos, c)) == PesosNormalizados(pesos)
  {
    var e, s := Escalar(pesos, c), Sum(pesos);
    SumaEscalada(pesos, c);
    NoCero(c, s);
    DividirEscalado(pesos, c, s);
    assert Sum(e) == c * s;
    assert PesosNormalizados(e) == Dividir(e, c * s);
  }

  /** Scaling the weights and the divisor by the same `c` cancels out. */
  lemma DividirEscalado(ws: seq<real>, c: real, s: real)
    requires c != 0.0 && s != 0.0
    ensures c * s != 0.0
    ensures Dividir(Escalar(ws, c), c * s) == Dividir(ws, s)
  {
    NoCero(c, s);
    var a, b := Dividir(Escalar(ws, c), c * s), Dividir(ws, s);
    forall k | 0 <= k < |ws|
      ensures a[k] == b[k]
    {
      CancelarFactor(ws[k], s, c);
    }
  }

  lemma NoCero(c: real, s: real)
    requires c != 0.0 && s != 0.0
    ensures c * s != 0.0
  {
  }

  lemma CancelarFactor(w: real, s: real, c: real)
    requires s != 0.0 && c != 0.0
    ensures (c * w) / (c * s) == w / s
  {
    assert (c * w) / (c * s) * (c * s) == c * w;
    assert w / s * s == w;
    assert (w / s) * (c * s) == c * w;
  }

  /** Weights `[2, 2]` and `[1, 1]` both normalise to `[0.5, 0.5]`. */
  lemma PesosEjemplo()
    ensures PesosNormalizados([2.0, 2.0]) == PesosNormalizados([1.0, 1.0]) == [0.5, 0.5]
  {
    assert Sum([2.0, 2.0]) == 4.0;
    assert Sum([1.0, 1.0]) == 2.0;
  }

  /** The weight of each pair, summed, is the weight sum. */
  lemma {:induction false} SumaDePesos(ms: seq<Matrix>, ws: seq<real>)
    requires |ms| == |ws|
    ensures SumOf(Pares(ms, ws), Peso()) == Sum(ws)
  {
    if |ms| > 0 {
      assert Pares(ms, ws)[1..] == Pares(ms[1..], ws[1..]);
      SumaDePesos(ms[1..], ws[1..]);
    }
  }

  /** Dividing every weight by `s` divides the fused cell by `s`. */
  lemma {:induction false} FusionLineal(ms: seq<Matrix>, ws: seq<real>, s: real, i: nat, j: nat)
    requires |ms| == |ws| && s != 0.0
    ensures SumOf(Pares(ms, Dividir(ws, s)), Termino(i, j)) == SumOf(Pares(ms, ws), Termino(i, j)) / s
  {
    if |ms| > 0 {
      assert Pares(ms, Dividir(ws, s))[1..] == Pares(ms[1..], Dividir(ws[1..], s));
      assert Pares(ms, ws)[1..] == Pares(ms[1..], ws[1..]);
      FusionLineal(ms[1..], ws[1..], s, i, j);
      var resto := SumOf(Pares(ms[1..], ws[1..]), Termino(i, j));
      var a := Termino(i, j)((ms[0], ws[0]));
      assert SumOf(Pares(ms, ws), Termino(i, j)) == a + resto;
      assert SumOf(Pares(ms, Dividir(ws, s)), Termino(i, j)) == Termino(i, j)((ms[0], ws[0] / s)) + resto / s;
      if i < |ms[0]| && j < |ms[0][i]| {
        DividirProducto(ws[0], ms[0][i][j], s);
      }
      assert Termino(i, j)((ms[0], ws[0] / s)) == a / s;
      DividirSuma(a, resto, s);
    }
  }

  lemma DividirProducto(w: real, x: real, s: real)
    requires s != 0.0
    ensures (w / s) * x == (w * x) / s
  {
    assert (w / s) * s == w;
    assert ((w / s) * x) * s == w * x;
  }

  /** Permuting the (matrix, weight) pairs changes neither the weight sum
      nor any fused cell. */
  lemma FusionPermutacion(ms: seq<Matrix>, ws: seq<real>, ms2: seq<Matrix>, ws2: seq<real>, i: nat, j: nat)
    requires |ms| == |ws| && |ms2| == |ws2|
    requires multiset(Pares(ms, ws)) == multiset(Pares(ms2, ws2))
    requires Sum(ws) != 0.0
    ensures Sum(ws2) == Sum(ws)
    ensures SumOf(Pares(ms2, PesosNormalizados(ws2)), Termino(i, j)) == SumOf(Pares(ms, PesosNormalizados(ws)), Termino(i, j))
  {
    SumaDePesos(ms, ws);
    SumaDePesos(ms2, ws2);
    SumOfPermutation(Pares(ms, ws), Pares(ms2, ws2), Peso());
    SumOfPermutation(Pares(ms, ws), Pares(ms2, ws2), Termino(i, j));
    FusionLineal(ms, ws, Sum(ws), i, j);
    FusionLineal(ms2, ws2, Sum(ws), i, j);
  }

  /** Symmetric inputs give a symmetric cell sum. */
  lemma FusionSimetrica(ps: seq<(Matrix, real)>, i: nat, j: nat)
    requires forall p :: p in ps ==> IsSquare(p.0, |p.0|) && Symmetric(p.0)
    ensures SumOf(ps, Termino(i, j)) == SumOf(ps, Termino(j, i))
  {
    forall p | p in ps
      ensures Termino(i, j)(p) == Termino(j, i)(p)
    {
    }
    SumOfEqual(ps, Termino(i, j), Termino(j, i));
  }

  /** Inputs in [0, 1] with nonnegative weights summing to 1 give a cell in
      [0, 1]. */
  lemma FusionAcotada(ps: seq<(Matrix, real)>, i: nat, j: nat)
    requires forall p :: p in ps ==> p.1 >= 0.0 && i < |p.0| && j < |p.0[i]| && 0.0 <= p.0[i][j] <= 1.0
    requires SumOf(ps, Peso()) == 1.0
    ensures 0.0 <= SumOf(ps, Termino(i, j)) <= 1.0
  {
    forall p | p in ps
      ensures 0.0 <= Termino(i, j)(p) <= Peso()(p)
    {
      TerminoAcotado(p, i, j);
    }
    SumOfNonNegative(ps, Termino(i, j));
    SumOfMonotone(ps, Termino(i, j), Peso());
  }

  lemma TerminoAcotado(p: (Matrix, real), i: nat, j: nat)
    requires p.1 >= 0.0 && i < |p.0| && j < |p.0[i]| && 0.0 <= p.0[i][j] <= 1.0
    ensures 0.0 <= Termino(i, j)(p) <= Peso()(p)
  {
    var w, x := p.1, p.0[i][j];
    assert Termino(i, j)(p) == w * x;
    AcotarProducto(w, x);
  }

  lemma AcotarProducto(w: real, x: real)
    requires w >= 0.0 && 0.0 <= x <= 1.0
    ensures 0.0 <= w * x <= w
  {
    assert w * x <= w * 1.0;
  }

  predicate Simetrica(df: Etiquetada) {
    Valida(df) && Symmetric(df.valores)
  }

  /** Cell `(i, j)` of `df` exists and lies in [0, 1]. */
  predicate CeldaEnUnidad(df: Etiquetada, i: nat, j: nat) {
    Valida(df) && i < |df.index| && j < |df.index| && 0.0 <= df.valores[i][j] <= 1.0
  }

  /** For the fusion's own pairs: symmetric inputs give a symmetric output,
      and inputs in [0, 1] with nonnegative weights give an output in
      [0, 1]. */
  lemma FusionPropiedades(matrices: seq<Etiquetada>, pesos: seq<real>, i: nat, j: nat)
    requires |matrices| == |pesos| && Sum(pesos) != 0.0
    requires forall k :: 0 <= k < |matrices| ==> Valida(matrices[k])
    ensures (forall k :: 0 <= k < |matrices| ==> Simetrica(matrices[k])) ==>
      SumOf(Pares(Valores(matrices), PesosNormalizados(pesos)), Termino(i, j))
      == SumOf(Pares(Valores(matrices), PesosNormalizados(pesos)), Termino(j, i))
    ensures (forall k :: 0 <= k < |pesos| ==> pesos[k] >= 0.0) &&
            (forall k :: 0 <= k < |matrices| ==> CeldaEnUnidad(matrices[k], i, j)) ==>
      0.0 <= SumOf(Pares(Valores(matrices), PesosNormalizados(pesos)), Termino(i, j)) <= 1.0
  {
    var ms, ws := Valores(matrices), PesosNormalizados(pesos);
    var ps := Pares(ms, ws);
    if forall k :: 0 <= k < |matrices| ==> Simetrica(matrices[k]) {
      forall p | p in ps
        ensures IsSquare(p.0, |p.0|) && Symmetric(p.0)
      {
        var k :| 0 <= k < |ps| && ps[k] == p;
      }
      FusionSimetrica(ps, i, j);
    }
    if (forall k :: 0 <= k < |pesos| ==> pesos[k] >= 0.0) &&
       (forall k :: 0 <= k < |matrices| ==> CeldaEnUnidad(matrices[k], i, j)) {
      SumaNoNegativa(pesos);
      forall p | p in ps
        ensures p.1 >= 0.0 && i < |p.0| && j < |p.0[i]| && 0.0 <= p.0[i][j] <= 1.0
      {
        var k :| 0 <= k < |ps| && ps[k] == p;
        CocienteNoNegativo(pesos[k], Sum(pesos));
      }
      SumaDePesos(ms, ws);
      PesosNormalizadosSuman(pesos);
      FusionAcotada(ps, i, j);
    }
  }

  lemma {:induction false} SumaNoNegativa(ws: seq<real>)
    requires forall k :: 0 <= k < |ws| ==> ws[k] >= 0.0
    ensures Sum(ws) >= 0.0
  {
    if |ws| > 0 {
      SumaNoNegativa(ws[1..]);
    }
  }

  lemma CocienteNoNegativo(w: real, s: real)
    requires w >= 0.0 && s > 0.0
    ensures w / s >= 0.0
  {
  }
}

=== FILE: matriz_mensual.dfy ===
/** `src/construccion_matriz/matriz_mensual.py`: the upper-triangle rows of
    the L2 similarity matrix, the partition of the rows among the workers in
    ceil-sized blocks, and the write-back of each row with its mirror.

    The worker pool is a sequential loop over the blocks; the HDF5 file is
    the returned matrix and id axis. The optional MinMax scaling happens
    before the matrix is built and is not modelled: `X` is the matrix the
    rows are computed from. */
module MatrizMensual {
  import opened Matrices
  import opened Distancia
  import opened Aritmetica

  // ---------------------------------------------------------------
  // workers and blocks
  // ---------------------------------------------------------------

  /** `num_workers = max(2, cpu_count() - 1)`: never fewer than two. */
  function NumWorkers(cpu: int): (w: nat)
    ensures w >= 2 && w >= cpu - 1
    ensures w == 2 || w == cpu - 1
  {
    if cpu - 1 >= 2 then cpu - 1 else 2
  }

  /** The row range `[k * b, min((k + 1) * b, n))` of worker `k`; when
      `k * b >= n` it is empty (`range(i0, i1)` with `i0 >= i1`). */
  function Bloque(k: nat, b: nat, n: nat): (r: (nat, nat)) {
    (k * b, Min((k + 1) * b, n))
  }

  /** The ranges of the `w` workers. */
  function Bloques(n: nat, w: nat): (bs: seq<(nat, nat)>)
    requires w > 0
    ensures |bs| == w
  {
    seq(w, k requires 0 <= k < w => Bloque(k, CeilDiv(n, w), n))
  }

  predicate EnBloque(r: (nat, nat), i: nat) {
    r.0 <= i < r.1
  }

  /** The worker whose block holds row `i`. */
  function BloqueDe(n: nat, w: nat, i: nat): nat
    requires w > 0
  {
    if CeilDiv(n, w) == 0 then 0 else i / CeilDiv(n, w)
  }

  /** The blocks are pairwise disjoint and each holds at most `b` rows. */
  lemma BloquesDisjuntos(n: nat, w: nat)
    requires w > 0
    ensures var bs := Bloques(n, w);
      forall k1, k2, i: nat :: 0 <= k1 < k2 < w && EnBloque(bs[k1], i) ==> !EnBloque(bs[k2], i)
    ensures forall k :: 0 <= k < w ==> Bloques(n, w)[k].1 - Bloques(n, w)[k].0 <= CeilDiv(n, w)
  {
    var bs, b := Bloques(n, w), CeilDiv(n, w);
    forall k1, k2, i: nat | 0 <= k1 < k2 < w && EnBloque(bs[k1], i)
      ensures !EnBloque(bs[k2], i)
    {
      if EnBloque(bs[k2], i) {
        DivUnique(i, b, k1);
        DivUnique(i, b, k2);
      }
    }
  }

  /** Together the blocks cover exactly `[0, n)`: every row below `n` lies
      in the block of worker `BloqueDe(n, w, i)`, and no block reaches `n`;
      a block that starts at or past `n` is empty. */
  lemma BloquesCubren(n: nat, w: nat)
    requires w > 0
    ensures forall i: nat :: i < n ==> BloqueDe(n, w, i) < w && EnBloque(Bloques(n, w)[BloqueDe(n, w, i)], i)
    ensures forall k, i: nat :: 0 <= k < w && EnBloque(Bloques(n, w)[k], i) ==> i < n
    ensures forall k :: 0 <= k < w && k * CeilDiv(n, w) >= n ==> Bloques(n, w)[k].1 <= Bloques(n, w)[k].0
  {
    var bs, b := Bloques(n, w), CeilDiv(n, w);
    forall i: nat | i < n
      ensures BloqueDe(n, w, i) < w && EnBloque(bs[BloqueDe(n, w, i)], i)
    {
      DivBounds(i, b);
      var k := i / b;
      MulMono(w, k, b);
      assert EnBloque(bs[k], i);
    }
  }

  /** `n = 10` rows on 3 workers: blocks of 4, giving [0,4), [4,8), [8,10). */
  lemma BloquesEjemplo()
    ensures Bloques(10, 3) == [(0, 4), (4, 8), (8, 10)]
  {
    assert CeilDiv(10, 3) == 4;
  }

  // ---------------------------------------------------------------
  // calcular_bloque
  // ---------------------------------------------------------------

  /** Row `i` of the upper triangle: 0 left of the diagonal, the similarity
      of rows `i` and `j` from the diagonal on. */
  ghost predicate FilaSuperior(sqrt: real -> real, X: seq<seq<real>>, i: nat, fila: seq<real>)
    requires SqrtLike(sqrt) && Rectangular(X) && i < |X|
  {
    |fila| == |X| && forall j :: 0 <= j < |X| ==>
      fila[j] == if j < i then 0.0 else SimilitudL2(sqrt, X[i], X[j])
  }

  /** `calcular_bloque((data, start_i, end_i))`: one `(i, fila)` per row of
      the range, in increasing order, each the upper-triangle row of `i`. */
  method CalcularBloque(sqrt: real -> real, data: seq<seq<real>>, startI: nat, endI: int)
    returns (bloque: seq<RowResult>)
    requires SqrtLike(sqrt) && Rectangular(data)
    requires endI <= |data|
    ensures |bloque| == if startI <= endI then endI - startI else 0
    ensures forall t :: 0 <= t < |bloque| ==> bloque[t].0 == startI + t
    ensures forall t :: 0 <= t < |bloque| ==> bloque[t].0 < |data| && FilaSuperior(sqrt, data, bloque[t].0, bloque[t].1)
  {
    var n := |data|;
    bloque := [];
    var i := startI;
    while i < endI
      invariant startI <= i <= if startI <= endI then endI else startI
      invariant |bloque| == i - startI
      invariant forall t :: 0 <= t < |bloque| ==> bloque[t].0 == startI + t
      invariant forall t :: 0 <= t < |bloque| ==> bloque[t].0 < |data| && FilaSuperior(sqrt, data, bloque[t].0, bloque[t].1)
    {
      var fila := seq(n, _ => 0.0);
      var j := i;
      while j < n
        invariant i <= j <= n && |fila| == n
        invariant forall c :: 0 <= c < n ==> fila[c] == if i <= c < j then SimilitudL2(sqrt, data[i], data[c]) else 0.0
      {
        fila := fila[j := SimilitudL2(sqrt, data[i], data[j])];
        j := j + 1;
      }
      bloque := bloque + [(i, fila)];
      i := i + 1;
    }
  }

  /** Every entry of an upper-triangle row from the diagonal on lies in
      (0, 1], and the diagonal entry is 1. */
  lemma FilaSuperiorAcotada(sqrt: real -> real, X: seq<seq<real>>, i: nat, fila: seq<real>)
    requires SqrtLike(sqrt) && Rectangular(X) && i < |X|
    requires FilaSuperior(sqrt, X, i, fila)
    ensures fila[i] == 1.0
    ensures forall j :: i <= j < |X| ==> 0.0 < fila[j] <= 1.0
  {
    assert fila[i] == SimilitudL2(sqrt, X[i], X[i]);
  }

  // ---------------------------------------------------------------
  // construir_matriz_optimizada
  // ---------------------------------------------------------------

  /** Consecutive blocks are adjacent: block `k` starts where the rows of
      the blocks before it end. */
  lemma BloqueContiguo(k: nat, b: nat, n: nat)
    ensures var (i0, i1) := Bloque(k, b, n);
      && (i0 < i1 ==> i0 == Min(k * b, n))
      && Min(k * b, n) + (if i0 <= i1 then i1 - i0 else 0) == Min((k + 1) * b, n)
  {
    assert (k + 1) * b == k * b + b;
  }

  /** After all `w` workers the rows cover `[0, n)`. */
  lemma TodosLosBloques(n: nat, w: nat)
    requires w > 0
    ensures Min(w * CeilDiv(n, w), n) == n
  {
    var b := CeilDiv(n, w);
    assert w * b == b * w;
  }

  /** With row `t` at position `t`, each an upper-triangle row, the merged
      cell `(a, c)` is the similarity of rows `a` and `c`. */
  lemma CeldaDeFilas(sqrt: real -> real, X: seq<seq<real>>, filas: seq<RowResult>, a: nat, c: nat)
    requires SqrtLike(sqrt) && Rectangular(X) && a < |X| && c < |X| && |filas| == |X|
    requires forall t :: 0 <= t < |filas| ==> filas[t].0 == t && FilaSuperior(sqrt, X, t, filas[t].1)
    ensures RowsInBounds(filas, |X|) && UniqueRows(filas)
    ensures LastRowWrite(filas, |X|, a, c) == SimilitudL2(sqrt, X[a], X[c])
  {
    LastRowWriteOfUnique(filas, |X|, a, c);
    assert filas[Min(a, c)].0 == Min(a, c);
    SimilitudL2Symmetric(sqrt, X[a], X[c]);
  }

  /** `construir_matriz_optimizada`: the workers' blocks computed in order,
      every row written back with its mirror. The result is the full
      similarity matrix: symmetric, 1 on the diagonal, every cell the
      similarity of its two rows; the id axis is the input's. */
  method ConstruirMatrizOptimizada(sqrt: real -> real, municipios: seq<string>, X: seq<seq<real>>, cpu: int)
    returns (d: Matrix, cvegeo: seq<string>)
    requires SqrtLike(sqrt) && Rectangular(X)
    requires |municipios| == |X|
    ensures IsSquare(d, |X|) && Symmetric(d)
    ensures forall a, b :: 0 <= a < |X| && 0 <= b < |X| ==> d[a][b] == SimilitudL2(sqrt, X[a], X[b])
    ensures forall a :: 0 <= a < |X| ==> d[a][a] == 1.0
    ensures cvegeo == municipios
  {
    var n := |X|;
    var w := NumWorkers(cpu);
    var b := CeilDiv(n, w);
    var filas: seq<RowResult> := [];
    var k := 0;
    while k < w
      invariant 0 <= k <= w
      invariant |filas| == Min(k * b, n)
      invariant forall t :: 0 <= t < |filas| ==> filas[t].0 == t && FilaSuperior(sqrt, X, t, filas[t].1)
    {
      var (i0, i1) := Bloque(k, b, n);
      var bloque := CalcularBloque(sqrt, X, i0, i1);
      BloqueContiguo(k, b, n);
      filas := filas + bloque;
      k := k + 1;
    }
    TodosLosBloques(n, w);
    d := MergeRows(n, filas);
    forall a, c | 0 <= a < n && 0 <= c < n
      ensures d[a][c] == SimilitudL2(sqrt, X[a], X[c])
    {
      CeldaDeFilas(sqrt, X, filas, a, c);
    }
    assert forall a :: 0 <= a < n ==> d[a][a] == SimilitudL2(sqrt, X[a], X[a]);
    cvegeo := municipios;
  }
}

=== FILE: matriz_numerica.dfy ===
/** `src/construccion_matriz/matriz_numerica.py`: the numeric similarity
    matrix. Precipitation and temperature ranges become their midpoints, the
    climate unit is a float that a blank cell makes NaN, and a missing id
    counts as 0.0. A cell is the mean of the three proportional
    similarities. */
module MatrizNumerica {
  import opened Wrappers
  import opened Matrices
  import opened Tablas
  import opened AnalisisNumerico
  import opened MatrizPares

  /** `prec_dict.get(cve, 0.0)` (and `temp_dict`): the midpoint of the range
      in the last row of `cve`, 0.0 when `cve` has no row. */
  function Rango(parse: string -> Option<real>, t: Tabla<Valor>, cve: string): (x: real)
    ensures !Tiene(t, cve) ==> x == 0.0
  {
    Get(t, v => RangoAPromedio(parse, v), cve, 0.0)
  }

  /** `uni_dict.get(cve, 0.0)`: the `TIPO_N` of the last row of `cve`, NaN
      for a blank cell. */
  function Unidad(t: Tabla<Flotante>, cve: string): (x: Flotante)
    ensures !Tiene(t, cve) ==> x == Finito(0.0)
  {
    Get(t, x => x, cve, Finito(0.0))
  }

  /** `sim_pair(i, j)` on the ids of `i` and `j`. The two range midpoints
      are numbers, so only the climate unit can bring NaN in: the score is
      NaN when the first id's unit is NaN, or when the second's is and the
      first's is not 0 (Python's `max` keeps its first argument next to
      NaN). Otherwise it is a number in [-1, 1]. */
  function SimPar(parse: string -> Option<real>, prec: Tabla<Valor>, temp: Tabla<Valor>, uni: Tabla<Flotante>,
                  mun1: string, mun2: string): (s: Flotante)
    ensures s.Finito? ==> -1.0 <= s.r <= 1.0
    ensures s.NaN? <==> Unidad(uni, mun1).NaN? || (Unidad(uni, mun2).NaN? && Unidad(uni, mun1) != Finito(0.0))
  {
    var simPrec := SimilitudProporcionalF(Finito(Rango(parse, prec, mun1)), Finito(Rango(parse, prec, mun2)));
    var simTemp := SimilitudProporcionalF(Finito(Rango(parse, temp, mun1)), Finito(Rango(parse, temp, mun2)));
    var simUni := SimilitudProporcionalF(Unidad(uni, mun1), Unidad(uni, mun2));
    Media3(simPrec, simTemp, simUni)
  }

  /** With numeric climate units the score is symmetric. An id scores 1
      against itself unless its unit is NaN, and then it scores NaN. A
      score is 1 exactly when the three preprocessed values agree and the
      unit is a number. */
  lemma SimParPropiedades(parse: string -> Option<real>, prec: Tabla<Valor>, temp: Tabla<Valor>, uni: Tabla<Flotante>,
                          mun1: string, mun2: string)
    ensures UnidadesNumericas(uni, mun1, mun2) ==>
      SimPar(parse, prec, temp, uni, mun1, mun2) == SimPar(parse, prec, temp, uni, mun2, mun1)
    ensures SimPar(parse, prec, temp, uni, mun1, mun1) == if Unidad(uni, mun1).NaN? then NaN else Finito(1.0)
    ensures SimPar(parse, prec, temp, uni, mun1, mun2) == Finito(1.0) <==>
      && Rango(parse, prec, mun1) == Rango(parse, prec, mun2)
      && Rango(parse, temp, mun1) == Rango(parse, temp, mun2)
      && Unidad(uni, mun1) == Unidad(uni, mun2) && Unidad(uni, mun1).Finito?
  {
    var u1, u2 := Unidad(uni, mun1), Unidad(uni, mun2);
    var a1, a2 := Rango(parse, prec, mun1), Rango(parse, prec, mun2);
    var b1, b2 := Rango(parse, temp, mun1), Rango(parse, temp, mun2);
    SimilitudProporcionalSimetrica(a1, a2);
    SimilitudProporcionalSimetrica(b1, b2);
    var sa, sb, su := SimilitudProporcionalF(Finito(a1), Finito(a2)), SimilitudProporcionalF(Finito(b1), Finito(b2)),
                      SimilitudProporcionalF(u1, u2);
    if u1.Finito? && u2.Finito? {
      SimilitudProporcionalSimetrica(u1.r, u2.r);
      Media3Uno(sa, sb, su);
    }
    if u1.Finito? {
      Media3Uno(SimilitudProporcionalF(Finito(a1), Finito(a1)), SimilitudProporcionalF(Finito(b1), Finito(b1)),
                SimilitudProporcionalF(u1, u1));
    }
  }

  /** A NaN climate unit breaks the symmetry: next to an id whose unit is 0
      it scores a number when it comes second and NaN when it comes first. */
  lemma SimParNaNAsimetrica(parse: string -> Option<real>, prec: Tabla<Valor>, temp: Tabla<Valor>, uni: Tabla<Flotante>,
                            mun1: string, mun2: string)
    requires Unidad(uni, mun1) == Finito(0.0) && Unidad(uni, mun2).NaN?
    ensures SimPar(parse, prec, temp, uni, mun1, mun2).Finito?
    ensures SimPar(parse, prec, temp, uni, mun2, mun1).NaN?
  {
  }

  /** Missing data counts as agreement: two ids that appear in none of the
      three tables score 1.0, like identical municipalities. */
  lemma SimParAusentes(parse: string -> Option<real>, prec: Tabla<Valor>, temp: Tabla<Valor>, uni: Tabla<Flotante>,
                       mun1: string, mun2: string)
    requires !Tiene(prec, mun1) && !Tiene(temp, mun1) && !Tiene(uni, mun1)
    requires !Tiene(prec, mun2) && !Tiene(temp, mun2) && !Tiene(uni, mun2)
    ensures SimPar(parse, prec, temp, uni, mun1, mun2) == Finito(1.0)
  {
    SimParPropiedades(parse, prec, temp, uni, mun1, mun2);
  }

  /** Both ids have a number as climate unit. */
  predicate UnidadesNumericas(uni: Tabla<Flotante>, mun1: string, mun2: string) {
    Unidad(uni, mun1).Finito? && Unidad(uni, mun2).Finito?
  }

  /** An n x n float matrix whose cell (a, b) is the score of ids
      min(a, b) and max(a, b). */
  predicate CeldasOrdenadas(parse: string -> Option<real>, prec: Tabla<Valor>, temp: Tabla<Valor>, uni: Tabla<Flotante>,
                            lista: seq<string>, celdas: seq<seq<Flotante>>) {
    && |celdas| == |lista|
    && (forall a :: 0 <= a < |lista| ==> |celdas[a]| == |lista|)
    && forall a, b :: 0 <= a < |lista| && 0 <= b < |lista| ==>
      celdas[a][b] == SimPar(parse, prec, temp, uni, lista[Min(a, b)], lista[Max(a, b)])
  }

  /** The real a float cell holds; NaN is carried separately. */
  function ParteReal(x: Flotante): real {
    if x.Finito? then x.r else 0.0
  }

  /** `construir_matriz_numerica(lista_cvegeo, ...)`. `n_jobs = 0` raises
      ValueError; otherwise a zero `cada` with a non-empty list raises
      ZeroDivisionError in the callback. The result is a float matrix:
      cell (a, b) and cell (b, a) both hold `sim_pair` of the smaller index
      against the larger one, NaN included. So the matrix is symmetric, a
      number cell lies in [-1, 1], the diagonal is 1 except for an id with
      a NaN climate unit, and between ids with numeric units cell (a, b)
      is the score of (a, b).

      The shared pair loop carries reals; the NaN of a cell is the NaN
      test of the same pair, applied when the cells are read out. */
  method ConstruirMatrizNumerica(parse: string -> Option<real>, listaCvegeo: seq<string>,
                                 prec: Tabla<Valor>, temp: Tabla<Valor>, uni: Tabla<Flotante>,
                                 nJobs: int, cada: int, etiqueta: string)
    returns (r: Result<seq<seq<Flotante>>>)
    ensures r.Err? <==> nJobs == 0 || (cada == 0 && |listaCvegeo| > 0)
    ensures r.Err? && nJobs == 0 ==> r.error.ValueError?
    ensures r.Err? && nJobs != 0 ==> r.error == ZeroDivisionError
    ensures r.Ok? ==> |r.value| == |listaCvegeo| && forall a :: 0 <= a < |r.value| ==> |r.value[a]| == |listaCvegeo|
    ensures r.Ok? ==> forall a, b :: 0 <= a < |listaCvegeo| && 0 <= b < |listaCvegeo| ==>
      r.value[a][b] == SimPar(parse, prec, temp, uni, listaCvegeo[Min(a, b)], listaCvegeo[Max(a, b)])
    ensures r.Ok? ==> forall a, b :: 0 <= a < |listaCvegeo| && 0 <= b < |listaCvegeo| ==>
      r.value[a][b] == r.value[b][a] && (r.value[a][b].Finito? ==> -1.0 <= r.value[a][b].r <= 1.0)
    ensures r.Ok? ==> forall a :: 0 <= a < |listaCvegeo| ==>
      r.value[a][a] == if Unidad(uni, listaCvegeo[a]).NaN? then NaN else Finito(1.0)
    ensures r.Ok? ==> forall a, b :: 0 <= a < |listaCvegeo| && 0 <= b < |listaCvegeo| ==>
      UnidadesNumericas(uni, listaCvegeo[a], listaCvegeo[b]) ==>
      r.value[a][b] == SimPar(parse, prec, temp, uni, listaCvegeo[a], listaCvegeo[b])
  {
    var n := |listaCvegeo|;
    var sim := (i: nat, j: nat) =>
      if i < n && j < n then ParteReal(SimPar(parse, prec, temp, uni, listaCvegeo[i], listaCvegeo[j])) else 0.0;
    var m := MatrizDePares(n, sim, nJobs, cada, etiqueta);
    if m.Err? {
      return Err(m.error);
    }
    CeldasDePares(parse, prec, temp, uni, listaCvegeo, sim, m.value);
    var celdas := LeerCeldas(parse, prec, temp, uni, listaCvegeo, m.value);
    CeldasSimetricas(parse, prec, temp, uni, listaCvegeo, celdas);
    CeldasDiagonal(parse, prec, temp, uni, listaCvegeo, celdas);
    CeldasEnOrden(parse, prec, temp, uni, listaCvegeo, celdas);
    return Ok(celdas);
  }

  /** An n x n real matrix whose cell (a, b) is the real part of the score
      of ids min(a, b) and max(a, b). */
  predicate CeldasReales(parse: string -> Option<real>, prec: Tabla<Valor>, temp: Tabla<Valor>, uni: Tabla<Flotante>,
                         lista: seq<string>, m: Matrix) {
    && IsSquare(m, |lista|)
    && forall a, b :: 0 <= a < |lista| && 0 <= b < |lista| ==>
      m[a][b] == ParteReal(SimPar(parse, prec, temp, uni, lista[Min(a, b)], lista[Max(a, b)]))
  }

  /** The pair loop run on the real part of the score fills a matrix of
      real parts. */
  lemma CeldasDePares(parse: string -> Option<real>, prec: Tabla<Valor>, temp: Tabla<Valor>, uni: Tabla<Flotante>,
                      lista: seq<string>, sim: (nat, nat) -> real, m: Matrix)
    requires forall i: nat, j: nat :: i < |lista| && j < |lista| ==>
      sim(i, j) == ParteReal(SimPar(parse, prec, temp, uni, lista[i], lista[j]))
    requires IsSquare(m, |lista|)
    requires forall a: nat, b: nat :: a < |lista| && b < |lista| ==> m[a][b] == sim(Min(a, b), Max(a, b))
    ensures CeldasReales(parse, prec, temp, uni, lista, m)
  {
    forall a, b | 0 <= a < |lista| && 0 <= b < |lista|
      ensures m[a][b] == ParteReal(SimPar(parse, prec, temp, uni, lista[Min(a, b)], lista[Max(a, b)]))
    {
      assert m[a][b] == sim(Min(a, b), Max(a, b));
    }
  }

  /** Reading the real cells out with the NaN test of the same pair gives
      back the pair's float score. */
  function LeerCeldas(parse: string -> Option<real>, prec: Tabla<Valor>, temp: Tabla<Valor>, uni: Tabla<Flotante>,
                      lista: seq<string>, m: Matrix): (celdas: seq<seq<Flotante>>)
    requires CeldasReales(parse, prec, temp, uni, lista, m)
    ensures CeldasOrdenadas(parse, prec, temp, uni, lista, celdas)
  {
    seq(|lista|, a requires 0 <= a < |lista| =>
      seq(|lista|, b requires 0 <= b < |lista| =>
        if SimPar(parse, prec, temp, uni, lista[Min(a, b)], lista[Max(a, b)]).NaN? then NaN else Finito(m[a][b])))
  }

  /** Cells (a, b) and (b, a) hold the same score, and a number cell lies in
      [-1, 1]. */
  lemma CeldasSimetricas(parse: string -> Option<real>, prec: Tabla<Valor>, temp: Tabla<Valor>, uni: Tabla<Flotante>,
                         lista: seq<string>, celdas: seq<seq<Flotante>>)
    requires CeldasOrdenadas(parse, prec, temp, uni, lista, celdas)
    ensures forall a, b :: 0 <= a < |lista| && 0 <= b < |lista| ==>
      celdas[a][b] == celdas[b][a] && (celdas[a][b].Finito? ==> -1.0 <= celdas[a][b].r <= 1.0)
  {
    forall a, b | 0 <= a < |lista| && 0 <= b < |lista|
      ensures celdas[a][b] == celdas[b][a]
    {
      assert Min(a, b) == Min(b, a) && Max(a, b) == Max(b, a);
    }
  }

  /** A diagonal cell is 1, or NaN for an id whose climate unit is NaN. */
  lemma CeldasDiagonal(parse: string -> Option<real>, prec: Tabla<Valor>, temp: Tabla<Valor>, uni: Tabla<Flotante>,
                       lista: seq<string>, celdas: seq<seq<Flotante>>)
    requires CeldasOrdenadas(parse, prec, temp, uni, lista, celdas)
    ensures forall a :: 0 <= a < |lista| ==>
      celdas[a][a] == if Unidad(uni, lista[a]).NaN? then NaN else Finito(1.0)
  {
    forall a | 0 <= a < |lista|
      ensures celdas[a][a] == if Unidad(uni, lista[a]).NaN? then NaN else Finito(1.0)
    {
      assert celdas[a][a] == SimPar(parse, prec, temp, uni, lista[a], lista[a]);
      SimParPropiedades(parse, prec, temp, uni, lista[a], lista[a]);
    }
  }

  /** Between ids with numeric climate units, cell (a, b) is the score of
      (a, b) whichever index is smaller. */
  lemma CeldasEnOrden(parse: string -> Option<real>, prec: Tabla<Valor>, temp: Tabla<Valor>, uni: Tabla<Flotante>,
                      lista: seq<string>, celdas: seq<seq<Flotante>>)
    requires CeldasOrdenadas(parse, prec, temp, uni, lista, celdas)
    ensures forall a, b :: 0 <= a < |lista| && 0 <= b < |lista| && UnidadesNumericas(uni, lista[a], lista[b]) ==>
      celdas[a][b] == SimPar(parse, prec, temp, uni, lista[a], lista[b])
  {
    forall a, b | 0 <= a < |lista| && 0 <= b < |lista| && UnidadesNumericas(uni, lista[a], lista[b])
      ensures celdas[a][b] == SimPar(parse, prec, temp, uni, lista[a], lista[b])
    {
      SimParPropiedades(parse, prec, temp, uni, lista[a], lista[b]);
    }
  }
}

=== FILE: matriz_pares.dfy ===
/** The pair loop shared by `construir_matriz_numerica` and
    `construir_matriz_categorica` (`src/construccion_matriz/matriz_numerica.py`
    and `matriz_categorica.py`). Both run `sim_pair(i, j)` on every pair
    `i <= j`. They collect the results in generator order, and one
    `callback` writes each result to `(i, j)` and `(j, i)`. Every `cada`-th
    result the callback passes the running count to `Progreso.paso`.

    The two files differ only in `sim_pair`, which is a parameter here. */
module MatrizPares {
  import opened Wrappers
  import opened Matrices
  import opened Aritmetica
  import opened Helpers

  /** `[sim_pair(i, j) for i in range(n) for j in range(i, n)]`, in that
      order; `sim` is `sim_pair` without its indices. */
  function Resultados(n: nat, sim: (nat, nat) -> real): (rs: seq<PairResult>)
    ensures |rs| == |UpperPairs(n)|
    ensures forall k :: 0 <= k < |rs| ==> rs[k] == (UpperPairs(n)[k].0, UpperPairs(n)[k].1, sim(UpperPairs(n)[k].0, UpperPairs(n)[k].1))
  {
    var ps := UpperPairs(n);
    seq(|ps|, k requires 0 <= k < |ps| => (ps[k].0, ps[k].1, sim(ps[k].0, ps[k].1)))
  }

  /** The results name every cell of the upper triangle once, so after the
      merge cell `(a, b)` holds `sim(min(a, b), max(a, b))`. There are
      `n(n+1)/2` of them. */
  lemma ResultadosCeldas(n: nat, sim: (nat, nat) -> real)
    ensures |Resultados(n, sim)| == n * (n + 1) / 2
    ensures InBounds(Resultados(n, sim), n)
    ensures UniqueCells(Resultados(n, sim))
    ensures forall a: nat, b: nat :: a < n && b < n ==>
      LastWrite(Resultados(n, sim), a, b) == sim(Min(a, b), Max(a, b))
  {
    var rs, ps := Resultados(n, sim), UpperPairs(n);
    UpperPairsExactlyOnce(n);
    forall k | 0 <= k < |rs|
      ensures rs[k].0 < n && rs[k].1 < n && rs[k].0 <= rs[k].1
    {
      assert ps[k] in ps;
    }
    forall k1, k2 | 0 <= k1 < k2 < |rs|
      ensures !Targets(rs[k1], rs[k2].0, rs[k2].1)
    {
      assert ps[k1] != ps[k2];
    }
    forall a: nat, b: nat | a < n && b < n
      ensures LastWrite(rs, a, b) == sim(Min(a, b), Max(a, b))
    {
      LastWriteOfUnique(rs, a, b);
      var lo, hi := Min(a, b), Max(a, b);
      assert (lo, hi) in ps;
      var k :| 0 <= k < |ps| && ps[k] == (lo, hi);
      assert rs[k] in rs && Targets(rs[k], a, b);
    }
  }

  /** The counts `1..m` at which `count % cada == 0`, in increasing order.
      Python's `%` and Dafny's agree on whether the remainder is zero, also
      for a negative `cada`. */
  function Multiplos(cada: int, m: nat): (xs: seq<int>)
    requires cada != 0
    ensures forall c :: c in xs <==> 1 <= c <= m && c % cada == 0
    ensures forall k1, k2 :: 0 <= k1 < k2 < |xs| ==> xs[k1] < xs[k2]
  {
    if m == 0 then []
    else
      var prev := Multiplos(cada, m - 1);
      assert forall k :: 0 <= k < |prev| ==> prev[k] in prev;
      if m % cada == 0 then prev + [m] else prev
  }

  /** The callbacks over all results: cells written last-wins and mirrored,
      `paso(count)` called at every multiple of `cada`. `count % 0` raises
      ZeroDivisionError at the first result when `cada` is 0; otherwise the
      run fails exactly when the reporter does, and then the exception
      leaves the function. */
  method Reconstruir(n: nat, results: seq<PairResult>, cada: int, p0: Progreso)
    returns (r: Result<(Matrix, Progreso)>)
    requires InBounds(results, n)
    ensures cada == 0 ==> (r.Err? <==> |results| > 0)
    ensures cada != 0 ==> (r.Err? <==> Pasos(p0, Multiplos(cada, |results|)).Err?)
    ensures r.Err? ==> r.error == ZeroDivisionError
    ensures r.Ok? ==> IsSquare(r.value.0, n) && Symmetric(r.value.0)
    ensures r.Ok? ==> forall a, b :: 0 <= a < n && 0 <= b < n ==> r.value.0[a][b] == LastWrite(results, a, b)
    ensures r.Ok? && cada != 0 ==> r.value.1 == Pasos(p0, Multiplos(cada, |results|)).value.0
  {
    var m := Zeros(n);
    var p := p0;
    ghost var rep: seq<int> := [];
    var count := 0;
    while count < |results|
      invariant 0 <= count <= |results|
      invariant IsSquare(m, n)
      invariant forall a, b :: 0 <= a < n && 0 <= b < n ==> m[a][b] == LastWrite(results[..count], a, b)
      invariant cada != 0 ==> Pasos(p0, Multiplos(cada, count)) == Ok((p, rep))
      invariant cada == 0 ==> count == 0
    {
      m := EscribirResultado(n, results, count, m);
      count := count + 1;
      if cada == 0 {
        return Err(ZeroDivisionError);
      }
      PasoDelCallback(p0, cada, count, p, rep);
      if count % cada == 0 {
        var q := Paso(p, count);
        if q.Err? {
          ErrorDefinitivo(p0, cada, count, |results|);
          return Err(q.error);
        }
        rep := if Informa(p, count) then rep + [count] else rep;
        p := q.value;
      }
    }
    assert results[..count] == results;
    forall a, b | 0 <= a < n && 0 <= b < n
      ensures m[a][b] == m[b][a]
    {
      LastWriteSymmetric(results, a, b);
    }
    return Ok((m, p));
  }

  /** One callback's writes: `M[i, j] = M[j, i] = val` for result `count`. */
  method EscribirResultado(n: nat, results: seq<PairResult>, count: nat, m0: Matrix) returns (m: Matrix)
    requires InBounds(results, n) && count < |results| && IsSquare(m0, n)
    requires forall a, b :: 0 <= a < n && 0 <= b < n ==> m0[a][b] == LastWrite(results[..count], a, b)
    ensures IsSquare(m, n)
    ensures forall a, b :: 0 <= a < n && 0 <= b < n ==> m[a][b] == LastWrite(results[..count + 1], a, b)
  {
    var (i, j, v) := results[count];
    m := Set(m0, i, j, v);
    m := Set(m, j, i, v);
    assert results[..count + 1][..count] == results[..count];
  }

  /** The reporter's state after callback `count`, from its state before. */
  lemma PasoDelCallback(p0: Progreso, cada: int, count: nat, p: Progreso, rep: seq<int>)
    requires cada != 0 && count >= 1
    requires Pasos(p0, Multiplos(cada, count - 1)) == Ok((p, rep))
    ensures count % cada != 0 ==> Pasos(p0, Multiplos(cada, count)) == Ok((p, rep))
    ensures count % cada == 0 && Paso(p, count).Err? ==> Pasos(p0, Multiplos(cada, count)).Err?
    ensures count % cada == 0 && Paso(p, count).Ok? ==>
      Pasos(p0, Multiplos(cada, count)) == Ok((Paso(p, count).value, if Informa(p, count) then rep + [count] else rep))
  {
    PasosUltimo(p0, Multiplos(cada, count - 1), count);
  }

  /** A failure at callback `c` is a failure of the whole run. */
  lemma ErrorDefinitivo(p0: Progreso, cada: int, c: nat, m: nat)
    requires cada != 0 && c <= m
    requires Pasos(p0, Multiplos(cada, c)).Err?
    ensures Pasos(p0, Multiplos(cada, m)).Err?
  {
    MultiplosPrefijo(cada, c, m);
    PasosErrPersiste(p0, Multiplos(cada, c), Multiplos(cada, m)[|Multiplos(cada, c)|..]);
  }

  /** The multiples up to `c` are a prefix of the multiples up to `m >= c`. */
  lemma {:induction false} MultiplosPrefijo(cada: int, c: nat, m: nat)
    requires cada != 0 && c <= m
    ensures Multiplos(cada, c) <= Multiplos(cada, m)
    ensures Multiplos(cada, m) == Multiplos(cada, c) + Multiplos(cada, m)[|Multiplos(cada, c)|..]
    decreases m - c
  {
    if c < m {
      MultiplosPrefijo(cada, c, m - 1);
    }
  }

  /** Two distinct multiples of a positive `cada` lie at least `cada` apart. */
  lemma DiferenciaDeMultiplos(u: nat, m: nat, cada: nat)
    requires cada > 0 && u % cada == 0 && m % cada == 0 && u < m
    ensures m - u >= cada
  {
    var a, b := u / cada, m / cada;
    DivBounds(u, cada);
    DivBounds(m, cada);
    MulMono(b, a, cada);
    MulMono(a + 1, b, cada);
  }

  /** With a positive `cada`, a fresh reporter and a nonzero `total`, every
      call the callback makes prints: the multiples of `cada` are exactly
      `cada` apart, which is the reporter's own threshold. */
  lemma {:induction false} CadaLlamadaInforma(p: Progreso, m: nat)
    requires p.cada > 0 && p.ultimo == 0 && p.total != 0
    ensures Pasos(p, Multiplos(p.cada, m)) == Ok((p.(ultimo := Ultimo(p, Multiplos(p.cada, m))), Multiplos(p.cada, m)))
  {
    if m > 0 {
      CadaLlamadaInforma(p, m - 1);
      if m % p.cada == 0 {
        InformaEnMultiplo(p, m);
      }
    }
  }

  /** The step of `CadaLlamadaInforma` at a multiple `m` of `cada`. */
  lemma InformaEnMultiplo(p: Progreso, m: nat)
    requires p.cada > 0 && p.ultimo == 0 && p.total != 0 && m > 0 && m % p.cada == 0
    requires var prev := Multiplos(p.cada, m - 1);
      Pasos(p, prev) == Ok((p.(ultimo := Ultimo(p, prev)), prev))
    ensures Pasos(p, Multiplos(p.cada, m)) == Ok((p.(ultimo := Ultimo(p, Multiplos(p.cada, m))), Multiplos(p.cada, m)))
  {
    var prev := Multiplos(p.cada, m - 1);
    PasosUltimo(p, prev, m);
    var u := Ultimo(p, prev);
    assert u % p.cada == 0 && 0 <= u < m by {
      if |prev| > 0 {
        assert prev[|prev| - 1] in prev;
      }
    }
    DiferenciaDeMultiplos(u, m, p.cada);
    var q := p.(ultimo := u);
    assert Informa(q, m);
    assert Paso(q, m) == Ok(p.(ultimo := m));
    assert Multiplos(p.cada, m) == prev + [m];
  }

  /** The pair loop of a builder: every cell holds the score of its pair,
      computed once with the smaller index first. joblib's
      `Parallel(n_jobs=0)` raises ValueError before any pair runs (a
      negative `n_jobs` is accepted). The reporter starts with
      `total = n(n+1)/2` and fails only on a zero `cada` with at least one
      pair. */
  method MatrizDePares(n: nat, sim: (nat, nat) -> real, nJobs: int, cada: int, etiqueta: string)
    returns (r: Result<Matrix>)
    ensures r.Err? <==> nJobs == 0 || (cada == 0 && n > 0)
    ensures r.Err? && nJobs == 0 ==> r.error.ValueError?
    ensures r.Err? && nJobs != 0 ==> r.error == ZeroDivisionError
    ensures r.Ok? ==> IsSquare(r.value, n) && Symmetric(r.value)
    ensures r.Ok? ==> forall a: nat, b: nat :: a < n && b < n ==> r.value[a][b] == sim(Min(a, b), Max(a, b))
  {
    if nJobs == 0 {
      return Err(ValueError("n_jobs == 0 in Parallel has no meaning"));
    }
    var results := Resultados(n, sim);
    ResultadosCeldas(n, sim);
    var progreso := NuevoProgreso(n * (n + 1) / 2, cada, etiqueta);
    if cada != 0 && n > 0 {
      assert n * (n + 1) >= 2;
      PasosSinError(progreso, Multiplos(cada, |results|));
    }
    var q := Reconstruir(n, results, cada, progreso);
    if q.Err? {
      return Err(q.error);
    }
    return Ok(q.value.0);
  }
}

=== FILE: matriz_series.dfy ===
/** `src/construccion_matriz/matriz_series.py`: the correlation matrix of
    the municipalities' series. Every strict pair `i < j` is compared once.
    `cves.index` maps each result back to its ids' first positions, and the
    result is written to the cell and its mirror.

    A series entry is `None` for NaN. `np.corrcoef(a, b)[0, 1]` is the
    parameter `corrcoef`, which returns `None` when the correlation is NaN;
    the ValueError `np.corrcoef` raises on two series of different lengths
    is part of the model. A pair that raises in a worker re-raises in the
    loop over `executor.map`, so the whole build fails. */
module MatrizSeries {
  import opened Wrappers
  import opened Matrices
  import opened Seqs

  type Serie = seq<Option<real>>

  /** What the model assumes of a correlation coefficient: when it is
      defined, it lies in [-1, 1]. */
  ghost predicate CorrLike(corrcoef: (Serie, Serie) -> Option<real>) {
    forall a, b :: corrcoef(a, b).Some? ==> -1.0 <= corrcoef(a, b).value <= 1.0
  }

  predicate TodoNaN(s: Serie) {
    forall k :: 0 <= k < |s| ==> s[k].None?
  }

  /** `np.corrcoef(A, B)` is reached (neither series is all NaN) and stacks
      two series of different lengths, which raises ValueError. */
  predicate LongitudesDistintas(a: Serie, b: Serie) {
    !TodoNaN(a) && !TodoNaN(b) && |a| != |b|
  }

  /** `similitud_series(A, B)`: 0.0 when either series is all NaN (an
      empty one included); otherwise ValueError when the lengths differ,
      0.0 when the correlation is NaN, else the correlation. */
  function SimilitudSeries(corrcoef: (Serie, Serie) -> Option<real>, a: Serie, b: Serie): (r: Result<real>)
    ensures r.Err? <==> LongitudesDistintas(a, b)
    ensures r.Err? ==> r.error.ValueError?
    ensures TodoNaN(a) || TodoNaN(b) ==> r == Ok(0.0)
    ensures !TodoNaN(a) && !TodoNaN(b) && |a| == |b| ==>
      r == Ok(match corrcoef(a, b) case None => 0.0 case Some(c) => c)
  {
    if TodoNaN(a) || TodoNaN(b) then Ok(0.0)
    else if |a| != |b| then Err(ValueError("all the input array dimensions must match"))
    else match corrcoef(a, b)
      case None => Ok(0.0)
      case Some(c) => Ok(c)
  }

  lemma SimilitudSeriesAcotada(corrcoef: (Serie, Serie) -> Option<real>, a: Serie, b: Serie)
    requires CorrLike(corrcoef)
    ensures SimilitudSeries(corrcoef, a, b).Ok? ==> -1.0 <= SimilitudSeries(corrcoef, a, b).value <= 1.0
  {
  }

  /** The frame: one row per line, its `CVEGEO` and its value columns. */
  type Frame = seq<(string, Serie)>

  /** `df.loc[df["CVEGEO"] == cve].iloc[:, 1:].values.flatten()`: the value
      rows of every line with that id, concatenated in order. */
  function SerieDe(df: Frame, cve: string): Serie {
    if |df| == 0 then []
    else (if df[0].0 == cve then df[0].1 else []) + SerieDe(df[1..], cve)
  }

  /** An id on a single line gets that line's values. */
  lemma {:induction false} SerieDeLineaUnica(df: Frame, k: nat)
    requires k < |df|
    requires forall k' :: 0 <= k' < |df| && k' != k ==> df[k'].0 != df[k].0
    ensures SerieDe(df, df[k].0) == df[k].1
  {
    if k == 0 {
      SerieDeAusente(df[1..], df[0].0);
    } else {
      SerieDeLineaUnica(df[1..], k - 1);
    }
  }

  lemma {:induction false} SerieDeAusente(df: Frame, cve: string)
    requires forall k :: 0 <= k < |df| ==> df[k].0 != cve
    ensures SerieDe(df, cve) == []
  {
    if |df| > 0 {
      SerieDeAusente(df[1..], cve);
    }
  }

  /** `tarea_comparacion` over `combinations(range(n), 2)`, with each result
      turned into the cell that `cves.index` gives it. */
  function Escrituras(corrcoef: (Serie, Serie) -> Option<real>, df: Frame): (rs: seq<PairResult>)
    ensures |rs| == |StrictPairs(|df|)|
  {
    var cves, ps := Primeros(df), StrictPairs(|df|);
    TrianglePairsMembers(0, |df|, 1);
    seq(|ps|, k requires 0 <= k < |ps| =>
      assert ps[k] in ps;
      var (i, j) := ps[k];
      (IndexOf(cves, cves[i]), IndexOf(cves, cves[j]), Puntaje(corrcoef, df, i, j)))
  }

  /** The score of the pair of lines `a < b`. A pair that raises makes the
      whole build fail, so the 0.0 given to it here is never written. */
  function Puntaje(corrcoef: (Serie, Serie) -> Option<real>, df: Frame, a: nat, b: nat): real
    requires a < |df| && b < |df|
  {
    match SimilitudSeries(corrcoef, SerieDe(df, df[a].0), SerieDe(df, df[b].0))
    case Ok(v) => v
    case Err(_) => 0.0
  }

  /** The pair of lines `i < j` raises in `np.corrcoef`. */
  predicate ParFalla(df: Frame, i: nat, j: nat)
    requires i < |df| && j < |df|
  {
    LongitudesDistintas(SerieDe(df, df[i].0), SerieDe(df, df[j].0))
  }

  /** Some pair of `combinations(range(n), 2)` raises. */
  predicate AlgunParFalla(df: Frame) {
    exists i: nat, j: nat :: i < j < |df| && ParFalla(df, i, j)
  }

  /** A duplicated id concatenates its rows, so its series is longer than
      another id's: `[("A", [1, 2]), ("A", [3, 4]), ("B", [5, 7])]` makes the
      pair of lines 0 and 2 compare four values with two, and the build
      fails. */
  lemma DuplicadoFalla()
    ensures var df: Frame := [("A", [Some(1.0), Some(2.0)]), ("A", [Some(3.0), Some(4.0)]), ("B", [Some(5.0), Some(7.0)])];
      ParFalla(df, 0, 2) && AlgunParFalla(df)
  {
    var df: Frame := [("A", [Some(1.0), Some(2.0)]), ("A", [Some(3.0), Some(4.0)]), ("B", [Some(5.0), Some(7.0)])];
    var a, b := SerieDe(df, "A"), SerieDe(df, "B");
    SerieDeAusente(df[2..], "A");
    assert df[1..][1..] == df[2..];
    assert SerieDe(df[1..], "A") == [Some(3.0), Some(4.0)];
    assert a == [Some(1.0), Some(2.0)] + [Some(3.0), Some(4.0)];
    SerieDeLineaUnica(df, 2);
    assert b == [Some(5.0), Some(7.0)];
    assert a[0].Some? && b[0].Some?;
    assert |a| == 4 && |b| == 2;
    assert ParFalla(df, 0, 2);
  }

  /** Unique ids on rows of one common length never raise: each id's
      series is its own row. */
  lemma MismaLongitudNoFalla(df: Frame, n: nat)
    requires Distinct(Primeros(df))
    requires forall k :: 0 <= k < |df| ==> |df[k].1| == n
    ensures !AlgunParFalla(df)
  {
    forall i: nat, j: nat | i < j < |df|
      ensures !ParFalla(df, i, j)
    {
      SerieDeLineaUnica(df, i);
      SerieDeLineaUnica(df, j);
    }
  }

  /** With unique ids `cves.index(cves[i])` is `i`, so each result keeps
      the indices of its own pair. */
  lemma EscriturasUnicasForma(corrcoef: (Serie, Serie) -> Option<real>, df: Frame)
    requires Distinct(Primeros(df))
    ensures var rs, ps := Escrituras(corrcoef, df), StrictPairs(|df|);
      forall k :: 0 <= k < |rs| ==>
        ps[k].0 < ps[k].1 < |df| && rs[k] == (ps[k].0, ps[k].1, Puntaje(corrcoef, df, ps[k].0, ps[k].1))
  {
    var cves, ps, rs := Primeros(df), StrictPairs(|df|), Escrituras(corrcoef, df);
    TrianglePairsMembers(0, |df|, 1);
    forall i | 0 <= i < |df|
      ensures IndexOf(cves, cves[i]) == i
    {
      var k := IndexOf(cves, cves[i]);
      assert !(k < i) && !(i < k);
    }
    forall k | 0 <= k < |rs|
      ensures ps[k].0 < ps[k].1 < |df| && rs[k] == (ps[k].0, ps[k].1, Puntaje(corrcoef, df, ps[k].0, ps[k].1))
    {
      assert ps[k] in ps;
    }
  }

  /** With unique ids no two results target the same cell. */
  lemma EscriturasUnicasCeldas(corrcoef: (Serie, Serie) -> Option<real>, df: Frame)
    requires Distinct(Primeros(df))
    ensures UniqueCells(Escrituras(corrcoef, df))
  {
    var ps, rs := StrictPairs(|df|), Escrituras(corrcoef, df);
    StrictPairsExactlyOnce(|df|);
    EscriturasUnicasForma(corrcoef, df);
    forall k1, k2 | 0 <= k1 < k2 < |rs|
      ensures !Targets(rs[k1], rs[k2].0, rs[k2].1)
    {
      assert ps[k1] != ps[k2];
    }
  }

  /** With unique ids cell `(a, b)` off the diagonal holds the score of its
      pair, and the diagonal keeps its initial 0. */
  lemma EscrituraDeCelda(corrcoef: (Serie, Serie) -> Option<real>, df: Frame, a: nat, b: nat)
    requires Distinct(Primeros(df)) && a < |df| && b < |df|
    ensures LastWrite(Escrituras(corrcoef, df), a, b) == if a == b then 0.0 else Puntaje(corrcoef, df, Min(a, b), Max(a, b))
  {
    var rs := Escrituras(corrcoef, df);
    EscriturasUnicasForma(corrcoef, df);
    if a != b {
      EscriturasUnicasCeldas(corrcoef, df);
      var k := PosicionDePar(|df|, Min(a, b), Max(a, b));
      LastWriteAt(rs, k, a, b);
    } else {
      LastWriteNone(rs, a, b);
    }
  }

  /** The position of a strict pair in `combinations(range(n), 2)`. */
  lemma PosicionDePar(n: nat, i: nat, j: nat) returns (k: nat)
    requires i < j < n
    ensures k < |StrictPairs(n)| && StrictPairs(n)[k] == (i, j)
  {
    StrictPairsExactlyOnce(n);
    assert (i, j) in StrictPairs(n);
    k :| 0 <= k < |StrictPairs(n)| && StrictPairs(n)[k] == (i, j);
  }

  /** With unique ids each pair writes its own cell: the off-diagonal cells
      hold the score of their pair, the diagonal keeps its initial 0, and
      `n(n-1)/2` results are written. */
  lemma EscriturasUnicas(corrcoef: (Serie, Serie) -> Option<real>, df: Frame)
    requires Distinct(Primeros(df))
    ensures 2 * |Escrituras(corrcoef, df)| == |df| * (|df| - 1)
    ensures forall a: nat, b: nat :: a < |df| && b < |df| ==>
      LastWrite(Escrituras(corrcoef, df), a, b) == if a == b then 0.0 else Puntaje(corrcoef, df, Min(a, b), Max(a, b))
  {
    StrictPairsExactlyOnce(|df|);
    forall a: nat, b: nat | a < |df| && b < |df|
      ensures LastWrite(Escrituras(corrcoef, df), a, b) == if a == b then 0.0 else Puntaje(corrcoef, df, Min(a, b), Max(a, b))
    {
      EscrituraDeCelda(corrcoef, df, a, b);
    }
  }

  /** Duplicated ids: two lines with id "A" give one pair, which
      `cves.index` sends to cell (0, 0). The diagonal is written and the
      off-diagonal cell keeps its 0. */
  lemma EscriturasDuplicadas(corrcoef: (Serie, Serie) -> Option<real>, s1: Serie, s2: Serie)
    ensures var df := [("A", s1), ("A", s2)];
      && Ok(LastWrite(Escrituras(corrcoef, df), 0, 0)) == SimilitudSeries(corrcoef, s1 + s2, s1 + s2)
      && LastWrite(Escrituras(corrcoef, df), 0, 1) == 0.0
  {
    var df := [("A", s1), ("A", s2)];
    StrictPairsExactlyOnce(2);
    var ps := StrictPairs(2);
    assert (0, 1) in ps;
    assert |ps| == 1;
    assert ps == [(0, 1)];
    assert Primeros(df) == ["A", "A"];
    assert SerieDe(df, "A") == s1 + s2 by {
      assert SerieDe(df[1..][1..], "A") == [];
    }
    assert Escrituras(corrcoef, df) == [(0, 0, Puntaje(corrcoef, df, 0, 1))];
  }

  /** `construir_matriz_similitud(df)`: ValueError when some pair of lines
      compares series of different lengths; otherwise the id axis in input
      order and the merged matrix, symmetric whatever the ids. With unique
      ids the diagonal stays 0 and each cell holds the score of its two
      lines. */
  method ConstruirMatrizSimilitud(corrcoef: (Serie, Serie) -> Option<real>, df: Frame)
    returns (r: Result<(seq<string>, Matrix)>)
    ensures r.Err? <==> AlgunParFalla(df)
    ensures r.Err? ==> r.error.ValueError?
    ensures r.Ok? ==> r.value.0 == Primeros(df)
    ensures r.Ok? ==> IsSquare(r.value.1, |df|) && Symmetric(r.value.1)
    ensures r.Ok? ==> forall a, b :: 0 <= a < |df| && 0 <= b < |df| ==>
      r.value.1[a][b] == LastWrite(Escrituras(corrcoef, df), a, b)
    ensures r.Ok? && Distinct(Primeros(df)) ==> forall a :: 0 <= a < |df| ==> r.value.1[a][a] == 0.0
    ensures r.Ok? && Distinct(Primeros(df)) ==> forall a, b :: 0 <= a < b < |df| ==>
      Ok(r.value.1[a][b]) == SimilitudSeries(corrcoef, SerieDe(df, df[a].0), SerieDe(df, df[b].0))
      && r.value.1[b][a] == r.value.1[a][b]
  {
    if AlgunParFalla(df) {
      return Err(ValueError("all the input array dimensions must match"));
    }
    var cves := Primeros(df);
    var results := Escrituras(corrcoef, df);
    var matriz := MergePairs(|df|, results);
    if Distinct(cves) {
      EscriturasUnicas(corrcoef, df);
      forall a, b | 0 <= a < b < |df|
        ensures Ok(matriz[a][b]) == SimilitudSeries(corrcoef, SerieDe(df, df[a].0), SerieDe(df, df[b].0))
      {
        assert !ParFalla(df, a, b);
      }
    }
    return Ok((cves, matriz));
  }
}

=== FILE: seqs.dfy ===
/** Sequence utilities shared by the modules: sums of reals, pandas-style
    `head`, first-occurrence lookup, and the descending sort used to rank
    neighbours. */
module Seqs {

  // ---------------------------------------------------------------
  // sums
  // ---------------------------------------------------------------

  /** The sum of `f` over the elements of `xs`, left to right. */
  function SumOf<T>(xs: seq<T>, f: T -> real): real {
    if |xs| == 0 then 0.0 else f(xs[0]) + SumOf(xs[1..], f)
  }

  function Sum(xs: seq<real>): real {
    if |xs| == 0 then 0.0 else xs[0] + Sum(xs[1..])
  }

  lemma {:induction false} SumOfConcat<T>(a: seq<T>, b: seq<T>, f: T -> real)
    ensures SumOf(a + b, f) == SumOf(a, f) + SumOf(b, f)
  {
    if |a| == 0 {
      assert a + b == b;
    } else {
      assert (a + b)[1..] == a[1..] + b;
      SumOfConcat(a[1..], b, f);
    }
  }

  /** Removing the entry at `k` removes its term from the sum and one copy of
      it from the multiset. */
  lemma {:induction false} SumOfRemove<T>(b: seq<T>, k: nat, f: T -> real)
    requires k < |b|
    ensures SumOf(b, f) == f(b[k]) + SumOf(b[..k] + b[k + 1..], f)
    ensures multiset(b[..k] + b[k + 1..]) == multiset(b) - multiset{b[k]}
  {
    var pre, post := b[..k], b[k + 1..];
    assert b == pre + ([b[k]] + post);
    SumOfConcat(pre, [b[k]] + post, f);
    SumOfConcat(pre, post, f);
    assert ([b[k]] + post)[1..] == post;
    assert multiset(b) == multiset(pre) + multiset{b[k]} + multiset(post);
  }

  /** A sum depends only on the multiset of summed elements, so reordering the
      inputs never changes it. */
  lemma {:induction false} SumOfPermutation<T>(a: seq<T>, b: seq<T>, f: T -> real)
    requires multiset(a) == multiset(b)
    ensures SumOf(a, f) == SumOf(b, f)
    decreases |a|
  {
    if |a| == 0 {
      assert |b| == |multiset(b)| == 0;
    } else {
      var x := a[0];
      assert x in multiset(b);
      var k :| 0 <= k < |b| && b[k] == x;
      SumOfRemove(b, k, f);
      assert a == [x] + a[1..];
      assert multiset(a[1..]) == multiset(a) - multiset{x};
      SumOfPermutation(a[1..], b[..k] + b[k + 1..], f);
    }
  }

  lemma {:induction false} SumOfScale<T>(xs: seq<T>, f: T -> real, g: T -> real, c: real)
    requires forall x :: x in xs ==> g(x) == c * f(x)
    ensures SumOf(xs, g) == c * SumOf(xs, f)
  {
    if |xs| > 0 {
      SumOfScale(xs[1..], f, g, c);
    }
  }

  lemma {:induction false} SumOfNonNegative<T>(xs: seq<T>, f: T -> real)
    requires forall x :: x in xs ==> f(x) >= 0.0
    ensures SumOf(xs, f) >= 0.0
  {
    if |xs| > 0 {
      SumOfNonNegative(xs[1..], f);
    }
  }

  /** Pointwise `f <= g` gives `sum f <= sum g`. */
  lemma {:induction false} SumOfMonotone<T>(xs: seq<T>, f: T -> real, g: T -> real)
    requires forall x :: x in xs ==> f(x) <= g(x)
    ensures SumOf(xs, f) <= SumOf(xs, g)
  {
    if |xs| > 0 {
      SumOfMonotone(xs[1..], f, g);
    }
  }

  lemma {:induction false} SumOfEqual<T>(xs: seq<T>, f: T -> real, g: T -> real)
    requires forall x :: x in xs ==> f(x) == g(x)
    ensures SumOf(xs, f) == SumOf(xs, g)
  {
    if |xs| > 0 {
      SumOfEqual(xs[1..], f, g);
    }
  }

  // ---------------------------------------------------------------
  // first components
  // ---------------------------------------------------------------

  /** The first components of a sequence of pairs: the labels of a ranked
      row, the ids of a frame, the instants of a series, the keys of rows
      to group. */
  function Primeros<A, B>(ps: seq<(A, B)>): (r: seq<A>)
    ensures |r| == |ps|
    ensures forall k :: 0 <= k < |ps| ==> r[k] == ps[k].0
  {
    seq(|ps|, k requires 0 <= k < |ps| => ps[k].0)
  }

  // ---------------------------------------------------------------
  // pandas `head(n)`
  // ---------------------------------------------------------------

  /** `Series.head(n)`: the first `n` entries; a negative `n` drops the last
      `-n` entries instead. */
  function Head<T>(s: seq<T>, n: int): (r: seq<T>)
    ensures r <= s
    ensures n >= 0 ==> |r| == if n < |s| then n else |s|
    ensures n < 0 ==> |r| == if |s| + n > 0 then |s| + n else 0
  {
    if n >= 0 then (if n < |s| then s[..n] else s)
    else (if |s| + n > 0 then s[..|s| + n] else [])
  }

  // ---------------------------------------------------------------
  // distinct elements and first occurrence
  // ---------------------------------------------------------------

  predicate Distinct<T(==)>(s: seq<T>) {
    forall i, j :: 0 <= i < j < |s| ==> s[i] != s[j]
  }

  /** Python's `list.index(x)`: the position of the first occurrence. */
  function IndexOf<T(==)>(s: seq<T>, x: T): (k: nat)
    requires x in s
    ensures k < |s| && s[k] == x
    ensures forall i :: 0 <= i < k ==> s[i] != x
  {
    if s[0] == x then 0 else 1 + IndexOf(s[1..], x)
  }

  /** A sequence without repeats has as many distinct elements as entries. */
  lemma {:induction false} DistinctCardinality<T>(s: seq<T>)
    requires Distinct(s)
    ensures |set x | x in s| == |s|
  {
    if |s| > 0 {
      var tail := s[1..];
      DistinctCardinality(tail);
      assert (set x | x in s) == (set x | x in tail) + {s[0]};
      assert s[0] !in tail;
    }
  }

  lemma {:induction false} SubsetCardinality<T>(a: set<T>, b: set<T>)
    requires a <= b
    ensures |a| <= |b|
  {
    if a != {} {
      var x :| x in a;
      SubsetCardinality(a - {x}, b - {x});
    }
  }

  // ---------------------------------------------------------------
  // descending sort of scored entries
  // ---------------------------------------------------------------

  /** Entries ordered from the highest score to the lowest. */
  predicate NonIncreasing<K>(s: seq<(K, real)>) {
    forall i, j :: 0 <= i < j < |s| ==> s[i].1 >= s[j].1
  }

  function InsertDesc<K>(x: (K, real), s: seq<(K, real)>): (r: seq<(K, real)>)
    requires NonIncreasing(s)
    ensures NonIncreasing(r)
    ensures multiset(r) == multiset(s) + multiset{x}
    ensures |r| == |s| + 1
    ensures r[0] == x || (|s| > 0 && r[0] == s[0])
  {
    if |s| == 0 then [x]
    else if s[0].1 <= x.1 then [x] + s
    else
      var rest := InsertDesc(x, s[1..]);
      assert s == [s[0]] + s[1..];
      [s[0]] + rest
  }

  /** A stable sort from the highest score to the lowest (`sort_values(ascending=False)`,
      `nlargest`). */
  function SortDesc<K>(s: seq<(K, real)>): (r: seq<(K, real)>)
    ensures NonIncreasing(r)
    ensures multiset(r) == multiset(s)
    ensures |r| == |s|
  {
    if |s| == 0 then []
    else
      assert s == [s[0]] + s[1..];
      InsertDesc(s[0], SortDesc(s[1..]))
  }
}

=== FILE: tablas.dfy ===
/** Tables keyed by a `CVEGEO` id, represented as the sequence of their
    rows. Two lookups appear in the code and they disagree on duplicated ids:

    - filtering `t[t["CVEGEO"] == clave]` and taking `.iloc[0]` picks the
      FIRST matching row (`Primero`);
    - a dict comprehension `{cve: ... for cve, fila in t.iterrows()}` keeps
      the LAST row of each id (`Ultimo`), and `.get(clave, defecto)` falls
      back to the default. */
module Tablas {
  import opened Wrappers

  type Tabla<V> = seq<(string, V)>

  predicate Tiene<V>(t: Tabla<V>, clave: string) {
    exists k :: 0 <= k < |t| && t[k].0 == clave
  }

  predicate ClavesUnicas<V>(t: Tabla<V>) {
    forall k1, k2 :: 0 <= k1 < k2 < |t| ==> t[k1].0 != t[k2].0
  }

  /** `t[t["CVEGEO"] == clave].iloc[0]`, or None when the filtered frame is empty. */
  function Primero<V(==)>(t: Tabla<V>, clave: string): (r: Option<V>)
    ensures r.None? <==> !Tiene(t, clave)
    ensures r.Some? ==> exists k :: (0 <= k < |t| && t[k] == (clave, r.value)
                                     && forall k' :: 0 <= k' < k ==> t[k'].0 != clave)
  {
    if |t| == 0 then None
    else if t[0].0 == clave then Some(t[0].1)
    else
      var r := Primero(t[1..], clave);
      if r.Some? then
        var k :| 0 <= k < |t[1..]| && t[1..][k] == (clave, r.value)
          && forall k' :: 0 <= k' < k ==> t[1..][k'].0 != clave;
        assert t[k + 1] == (clave, r.value);
        r
      else
        assert forall k :: 1 <= k < |t| ==> t[k] == t[1..][k - 1];
        r
  }

  /** The value a dict comprehension over `t` keeps for `clave`: the last one. */
  function Ultimo<V(==)>(t: Tabla<V>, clave: string): (r: Option<V>)
    ensures r.None? <==> !Tiene(t, clave)
    ensures r.Some? ==> exists k :: (0 <= k < |t| && t[k] == (clave, r.value)
                                     && forall k' :: k < k' < |t| ==> t[k'].0 != clave)
  {
    if |t| == 0 then None
    else if t[|t| - 1].0 == clave then Some(t[|t| - 1].1)
    else
      var init := t[..|t| - 1];
      assert forall k :: 0 <= k < |init| ==> init[k] == t[k];
      Ultimo(init, clave)
  }

  /** `{cve: f(fila) for ...}.get(clave, defecto)`. */
  function Get<V(==), W>(t: Tabla<V>, f: V -> W, clave: string, defecto: W): (w: W)
    ensures !Tiene(t, clave) ==> w == defecto
  {
    match Ultimo(t, clave)
    case Some(v) => f(v)
    case None => defecto
  }

  /** With unique ids the two lookups agree. */
  lemma PrimeroUltimoUnicos<V>(t: Tabla<V>, clave: string)
    requires ClavesUnicas(t)
    ensures Primero(t, clave) == Ultimo(t, clave)
  {
    var p, u := Primero(t, clave), Ultimo(t, clave);
    if p.Some? {
      var k1 :| 0 <= k1 < |t| && t[k1] == (clave, p.value) && forall k' :: 0 <= k' < k1 ==> t[k'].0 != clave;
      var k2 :| 0 <= k2 < |t| && t[k2] == (clave, u.value) && forall k' :: k2 < k' < |t| ==> t[k'].0 != clave;
      assert k1 == k2;
    }
  }

  /** With a duplicated id the lookups disagree: the filter takes the first
      row, the dict the last. */
  lemma PrimeroUltimoDuplicado()
    ensures Primero([("01001", 1), ("01001", 2)], "01001") == Some(1)
    ensures Ultimo([("01001", 1), ("01001", 2)], "01001") == Some(2)
  {
  }
}

=== FILE: tda_matriz.dfy ===
/** `src/construccion_matriz/tda_matriz.py`, lines 36-51: the rows of the
    persistence-diagram distance matrix and their write-back into the
    output dataset. The diagrams are values of any type `D`. The
    sliced-Wasserstein distance between two diagrams is the parameter
    `dist`. The HDF5 dataset is the returned matrix: its zero fill value is
    the initial zeros, and the `cvegeo` dataset is the returned axis. */
module TdaMatriz {
  import opened Wrappers
  import opened Matrices
  import opened Seqs

  /** What the model assumes of a distance between diagrams. */
  ghost predicate DistLike<D(!new)>(dist: (D, D) -> real) {
    forall x, y :: dist(x, y) >= 0.0 && dist(x, y) == dist(y, x) && dist(x, x) == 0.0
  }

  /** `n_jobs`, defaulting to `max(1, cpu_count() - 1)`. Only a given 0
      reaches `Parallel` as 0, which joblib rejects with ValueError; a
      negative count is joblib's "all but some CPUs" and is accepted. */
  function NumJobs(nJobs: Option<int>, cpu: int): (j: int)
    ensures nJobs.None? ==> j >= 1 && (j == 1 || j == cpu - 1)
    ensures nJobs.Some? ==> j == nJobs.value
    ensures j == 0 <==> nJobs == Some(0)
  {
    match nJobs
    case Some(k) => k
    case None => if cpu - 1 >= 1 then cpu - 1 else 1
  }

  /** `procesar_i(i)`: the row of `i`, zero left of the diagonal and the
      distance to every later diagram from the diagonal on. */
  method ProcesarI<D>(dist: (D, D) -> real, diagramas: seq<D>, i: nat) returns (r: RowResult)
    requires i < |diagramas|
    ensures r.0 == i && |r.1| == |diagramas|
    ensures forall j :: 0 <= j < |diagramas| ==>
      r.1[j] == if j < i then 0.0 else dist(diagramas[i], diagramas[j])
  {
    var n := |diagramas|;
    var fila := seq(n, _ => 0.0);
    var j := i;
    while j < n
      invariant i <= j <= n && |fila| == n
      invariant forall c :: 0 <= c < n ==> fila[c] == if i <= c < j then dist(diagramas[i], diagramas[c]) else 0.0
    {
      fila := fila[j := dist(diagramas[i], diagramas[j])];
      j := j + 1;
    }
    return (i, fila);
  }

  /** `np.array(cves, dtype='S5')`: each id cut to its first five characters. */
  function EjeS5(cves: seq<string>): (eje: seq<string>)
    ensures |eje| == |cves|
    ensures forall k :: 0 <= k < |cves| ==> eje[k] <= cves[k] && |eje[k]| == if |cves[k]| < 5 then |cves[k]| else 5
  {
    seq(|cves|, k requires 0 <= k < |cves| => Head(cves[k], 5))
  }

  /** `Parallel(n_jobs=...)` over the rows of `range(n)`: a job count of 0
      raises ValueError before any row is computed. Otherwise the rows are
      computed in order and written back with `dset[i, i:] = fila[i:]` and
      `dset[i:, i] = fila[i:]`. Every cell is written, by the row of its
      smaller index. The matrix is symmetric with the distance of the two
      diagrams in each cell. The axis has one entry per matrix row. */
  method ConstruirMatrizTda<D>(dist: (D, D) -> real, cves: seq<string>, diagramas: seq<D>,
                               nJobs: Option<int>, cpu: int)
    returns (r: Result<(Matrix, seq<string>)>)
    requires |cves| == |diagramas|
    ensures r.Err? <==> nJobs == Some(0)
    ensures r.Err? ==> r.error.ValueError?
    ensures r.Ok? ==> IsSquare(r.value.0, |diagramas|) && Symmetric(r.value.0)
    ensures r.Ok? ==> forall a, b :: 0 <= a <= b < |diagramas| ==>
      r.value.0[a][b] == dist(diagramas[a], diagramas[b]) && r.value.0[b][a] == dist(diagramas[a], diagramas[b])
    ensures r.Ok? ==> r.value.1 == EjeS5(cves) && |r.value.1| == |r.value.0|
  {
    var jobs := NumJobs(nJobs, cpu);
    if jobs == 0 {
      return Err(ValueError("n_jobs == 0 in Parallel has no meaning"));
    }
    var n := |diagramas|;
    var results: seq<RowResult> := [];
    var i := 0;
    while i < n
      invariant 0 <= i <= n && |results| == i
      invariant forall t :: 0 <= t < i ==> results[t].0 == t && |results[t].1| == n
      invariant forall t, j :: 0 <= t < i && t <= j < n ==> results[t].1[j] == dist(diagramas[t], diagramas[j])
    {
      var r := ProcesarI(dist, diagramas, i);
      results := results + [r];
      i := i + 1;
    }
    var d := MergeRows(n, results);
    forall a, b | 0 <= a <= b < n
      ensures d[a][b] == dist(diagramas[a], diagramas[b]) && d[b][a] == dist(diagramas[a], diagramas[b])
    {
      LastRowWriteOfUnique(results, n, a, b);
      LastRowWriteOfUnique(results, n, b, a);
      assert results[a].0 == a;
    }
    return Ok((d, EjeS5(cves)));
  }

  /** Under the distance assumptions the matrix has a zero diagonal and no
      negative cell. */
  lemma MatrizTdaDistancia<D(!new)>(dist: (D, D) -> real, diagramas: seq<D>, d: Matrix)
    requires DistLike(dist) && IsSquare(d, |diagramas|)
    requires forall a, b :: 0 <= a <= b < |diagramas| ==>
      d[a][b] == dist(diagramas[a], diagramas[b]) && d[b][a] == dist(diagramas[a], diagramas[b])
    ensures forall a :: 0 <= a < |diagramas| ==> d[a][a] == 0.0
    ensures forall a, b :: 0 <= a < |diagramas| && 0 <= b < |diagramas| ==> d[a][b] >= 0.0
  {
    forall a | 0 <= a < |diagramas|
      ensures d[a][a] == 0.0
    {
      assert dist(diagramas[a], diagramas[a]) == 0.0;
    }
    forall a, b | 0 <= a < |diagramas| && 0 <= b < |diagramas|
      ensures d[a][b] >= 0.0
    {
      var x, y := diagramas[a], diagramas[b];
      assert dist(x, y) >= 0.0 && dist(y, x) >= 0.0;
      if b < a {
        assert d[a][b] == dist(y, x);
      } else {
        assert d[a][b] == dist(x, y);
      }
    }
  }
}

=== FILE: tda_utils.dfy ===
/** `src/utils/tda_utils.py`: `takens_embedding`, the delay embedding of a
    series. Row `r` of the embedding is the window
    `X[r], X[r + delay], ..., X[r + (dimension - 1) delay]`. The float32
    conversion of the output is not modelled. */
module TdaUtils {
  import opened Wrappers
  import Aritmetica

  /** The number of windows, `M = N - (dimension - 1) * delay`. */
  function NumVentanas(n: nat, delay: int, dimension: int): int {
    n - (dimension - 1) * delay
  }

  /** The entry of `X` in row `f`, column `c` of the embedding. */
  function Indice(c: nat, delay: nat, f: nat): nat {
    c * delay + f
  }

  /** `takens_embedding(X, delay, dimension)`: ValueError when `M <= 0`;
      otherwise an `M x dimension` matrix whose column `c` is
      `X[c * delay : c * delay + M]`. */
  method TakensEmbedding(X: seq<real>, delay: nat, dimension: nat) returns (r: Result<seq<seq<real>>>)
    ensures r.Err? <==> NumVentanas(|X|, delay, dimension) <= 0
    ensures r.Err? ==> r.error.ValueError?
    ensures r.Ok? ==> |r.value| == NumVentanas(|X|, delay, dimension)
    ensures r.Ok? ==> forall f :: 0 <= f < |r.value| ==> |r.value[f]| == dimension
    ensures r.Ok? ==> forall f, c :: 0 <= f < |r.value| && 0 <= c < dimension ==>
      Indice(c, delay, f) < |X| && r.value[f][c] == X[Indice(c, delay, f)]
  {
    var m := NumVentanas(|X|, delay, dimension);
    if m <= 0 {
      return Err(ValueError("Serie demasiado corta para Takens embedding"));
    }
    IndicesEnRango(|X|, delay, dimension);
    var emb := seq(m, _ => seq(dimension, _ => 0.0));
    var i := 0;
    while i < dimension
      invariant 0 <= i <= dimension && |emb| == m
      invariant forall f :: 0 <= f < m ==> |emb[f]| == dimension
      invariant forall f, c :: 0 <= f < m && 0 <= c < dimension ==>
        emb[f][c] == if c < i then X[Indice(c, delay, f)] else 0.0
    {
      emb := EscribirColumna(X, emb, i, delay, dimension);
      i := i + 1;
    }
    return Ok(emb);
  }

  /** `emb[:, i] = X[i * delay : i * delay + M]`. */
  function EscribirColumna(X: seq<real>, emb: seq<seq<real>>, i: nat, delay: nat, dimension: nat): (r: seq<seq<real>>)
    requires i < dimension && |emb| == NumVentanas(|X|, delay, dimension)
    requires forall f :: 0 <= f < |emb| ==> |emb[f]| == dimension
    requires forall f, c :: 0 <= f < |emb| && 0 <= c < dimension ==> Indice(c, delay, f) < |X|
    ensures |r| == |emb|
    ensures forall f :: 0 <= f < |emb| ==> |r[f]| == dimension
    ensures forall f, c :: 0 <= f < |emb| && 0 <= c < dimension ==>
      r[f][c] == if c == i then X[Indice(i, delay, f)] else emb[f][c]
  {
    seq(|emb|, f requires 0 <= f < |emb| => emb[f][i := X[Indice(i, delay, f)]])
  }

  /** Every index the embedding reads lies inside `X`. */
  lemma IndicesEnRango(n: nat, delay: nat, dimension: nat)
    requires NumVentanas(n, delay, dimension) > 0
    ensures forall f, c :: 0 <= f < NumVentanas(n, delay, dimension) && 0 <= c < dimension ==> Indice(c, delay, f) < n
  {
    forall f, c | 0 <= f < NumVentanas(n, delay, dimension) && 0 <= c < dimension
      ensures Indice(c, delay, f) < n
    {
      Aritmetica.MulMono(c, dimension - 1, delay);
    }
  }

  /** With one dimension the embedding is `X` as a single column. */
  lemma TakensDimensionUno(X: seq<real>, delay: nat, emb: seq<seq<real>>)
    requires |X| > 0
    requires |emb| == NumVentanas(|X|, delay, 1)
    requires forall f :: 0 <= f < |emb| ==> |emb[f]| == 1
    requires forall f, c :: 0 <= f < |emb| && 0 <= c < 1 ==> Indice(c, delay, f) < |X| && emb[f][c] == X[Indice(c, delay, f)]
    ensures |emb| == |X|
    ensures forall f :: 0 <= f < |X| ==> emb[f] == [X[f]]
  {
    forall f | 0 <= f < |X|
      ensures emb[f] == [X[f]]
    {
      assert emb[f][0] == X[Indice(0, delay, f)];
    }
  }
}

=== FILE: text.dfy ===
/** String primitives the modelled Python code relies on: `str.strip`,
    `str.lower`, `str.split`, `str.join`, `in` on strings, `str.zfill`,
    `str.isdigit` and the lexicographic `<` on strings.

    Whitespace, case and digits are the ASCII ones; Python's Unicode tables
    are not modelled. */
module Text {

  /** The ASCII characters Python's `str.strip()` removes: those for which
      `str.isspace()` holds, including the four separators 0x1C-0x1F. */
  predicate IsSpace(c: char) {
    c == ' ' || c == '\t' || c == '\n' || c == '\r' || c == '\U{000B}' || c == '\U{000C}'
    || c == '\U{001C}' || c == '\U{001D}' || c == '\U{001E}' || c == '\U{001F}'
  }

  predicate IsDigit(c: char) {
    '0' <= c <= '9'
  }

  predicate AllDigits(s: string) {
    forall i :: 0 <= i < |s| ==> IsDigit(s[i])
  }

  // ---------------------------------------------------------------
  // strip
  // ---------------------------------------------------------------

  function TrimStart(s: string): (r: string)
    ensures |r| <= |s| && r == s[|s| - |r|..]
    ensures r == [] || !IsSpace(r[0])
    ensures forall i :: 0 <= i < |s| - |r| ==> IsSpace(s[i])
  {
    if |s| > 0 && IsSpace(s[0]) then TrimStart(s[1..]) else s
  }

  function TrimEnd(s: string): (r: string)
    ensures |r| <= |s| && r == s[..|r|]
    ensures r == [] || !IsSpace(r[|r| - 1])
    ensures forall i :: |r| <= i < |s| ==> IsSpace(s[i])
  {
    if |s| > 0 && IsSpace(s[|s| - 1]) then TrimEnd(s[..|s| - 1]) else s
  }

  /** `r` is a slice of `s` and everything of `s` outside it is whitespace. */
  predicate RecorteDe(s: string, r: string) {
    exists i :: 0 <= i <= |s| - |r| && BordesBlancos(s, r, i)
  }

  /** `r` sits at offset `i` of `s` and only whitespace lies around it. */
  predicate BordesBlancos(s: string, r: string, i: int) {
    && 0 <= i <= |s| - |r|
    && r == s[i..i + |r|]
    && (forall k :: 0 <= k < i ==> IsSpace(s[k]))
    && (forall k :: i + |r| <= k < |s| ==> IsSpace(s[k]))
  }

  /** Python's `s.strip()`: leading and trailing whitespace removed, and
      nothing else. */
  function Strip(s: string): (r: string)
    ensures r == [] || (!IsSpace(r[0]) && !IsSpace(r[|r| - 1]))
    ensures |r| <= |s|
    ensures RecorteDe(s, r)
  {
    TrimBordes(s);
    TrimEnd(TrimStart(s))
  }

  /** Trimming both ends leaves a slice with only whitespace around it. */
  lemma TrimBordes(s: string)
    ensures BordesBlancos(s, TrimEnd(TrimStart(s)), |s| - |TrimStart(s)|)
  {
    SufijoRecortado(s, TrimStart(s), TrimEnd(TrimStart(s)));
  }

  /** A prefix `r` of a suffix `t` of `s`, with whitespace before `t` and
      after `r` inside `t`, has whitespace all around it in `s`. */
  lemma SufijoRecortado(s: string, t: string, r: string)
    requires |t| <= |s| && t == s[|s| - |t|..]
    requires |r| <= |t| && r == t[..|r|]
    requires forall k :: 0 <= k < |s| - |t| ==> IsSpace(s[k])
    requires forall k :: |r| <= k < |t| ==> IsSpace(t[k])
    ensures BordesBlancos(s, r, |s| - |t|)
  {
    var i := |s| - |t|;
    assert s[i..][..|r|] == s[i..i + |r|];
    forall k | i + |r| <= k < |s|
      ensures IsSpace(s[k])
    {
      assert s[k] == t[k - i];
    }
  }

  /** The strip is the only slice of `s` with whitespace around it and none
      at its own ends. */
  lemma StripUnico(s: string, r: string)
    requires RecorteDe(s, r)
    requires r == [] || (!IsSpace(r[0]) && !IsSpace(r[|r| - 1]))
    ensures r == Strip(s)
  {
    var i :| 0 <= i <= |s| - |r| && BordesBlancos(s, r, i);
    if r == [] {
      StripEmptyIff(s);
    } else {
      RecorteUnico(s, r, i, TrimStart(s), TrimEnd(TrimStart(s)));
    }
  }

  /** The uniqueness step of `StripUnico`, over the two trims as plain
      strings `t` (leading whitespace removed) and `e` (then trailing). */
  lemma RecorteUnico(s: string, r: string, i: int, t: string, e: string)
    requires BordesBlancos(s, r, i) && r != [] && !IsSpace(r[0]) && !IsSpace(r[|r| - 1])
    requires |t| <= |s| && t == s[|s| - |t|..] && (t == [] || !IsSpace(t[0]))
    requires forall k :: 0 <= k < |s| - |t| ==> IsSpace(s[k])
    requires |e| <= |t| && e == t[..|e|] && (e == [] || !IsSpace(e[|e| - 1]))
    requires forall k :: |e| <= k < |t| ==> IsSpace(t[k])
    ensures r == e
  {
    var j := |s| - |t|;
    assert s[i] == r[0];
    assert |t| > 0 ==> t[0] == s[j];
    assert j == i;
    assert t[|r| - 1] == r[|r| - 1];
    forall k | |r| <= k < |t|
      ensures IsSpace(t[k])
    {
      assert t[k] == s[i + k];
    }
    assert |e| > 0 ==> e[|e| - 1] == t[|e| - 1];
    assert |e| == |r|;
    assert r == t[..|r|];
  }

  lemma TrimEndKeepsHead(s: string)
    requires |s| > 0 && !IsSpace(s[0])
    ensures |TrimEnd(s)| > 0 && TrimEnd(s)[0] == s[0]
  {
  }

  /** A string without surrounding whitespace is its own strip. */
  lemma StripOfStripped(s: string)
    requires s == [] || (!IsSpace(s[0]) && !IsSpace(s[|s| - 1]))
    ensures Strip(s) == s
  {
  }

  lemma StripIdempotent(s: string)
    ensures Strip(Strip(s)) == Strip(s)
  {
    StripOfStripped(Strip(s));
  }

  /** Strip returns "" exactly when the string is all whitespace. */
  lemma StripEmptyIff(s: string)
    ensures Strip(s) == [] <==> forall i :: 0 <= i < |s| ==> IsSpace(s[i])
  {
    var t := TrimStart(s);
    if t != [] {
      TrimEndKeepsHead(t);
      assert !IsSpace(s[|s| - |t|]);
    }
  }

  // ---------------------------------------------------------------
  // lower
  // ---------------------------------------------------------------

  function LowerChar(c: char): char {
    if 'A' <= c <= 'Z' then (c as int - 'A' as int + 'a' as int) as char else c
  }

  /** Python's `s.lower()` restricted to ASCII letters. */
  function Lower(s: string): (r: string)
    ensures |r| == |s|
    ensures forall i :: 0 <= i < |s| ==> r[i] == LowerChar(s[i])
  {
    seq(|s|, i requires 0 <= i < |s| => LowerChar(s[i]))
  }

  lemma LowerIdempotent(s: string)
    ensures Lower(Lower(s)) == Lower(s)
  {
  }

  lemma {:induction false} TrimStartLower(s: string)
    ensures TrimStart(Lower(s)) == Lower(TrimStart(s))
    decreases |s|
  {
    if |s| > 0 && IsSpace(s[0]) {
      assert Lower(s)[1..] == Lower(s[1..]);
      TrimStartLower(s[1..]);
    }
  }

  lemma {:induction false} TrimEndLower(s: string)
    ensures TrimEnd(Lower(s)) == Lower(TrimEnd(s))
    decreases |s|
  {
    if |s| > 0 && IsSpace(s[|s| - 1]) {
      assert Lower(s)[..|s| - 1] == Lower(s[..|s| - 1]);
      TrimEndLower(s[..|s| - 1]);
    }
  }

  /** Lower-casing never creates or removes whitespace, so it commutes with strip. */
  lemma StripLower(s: string)
    ensures Strip(Lower(s)) == Lower(Strip(s))
  {
    TrimStartLower(s);
    TrimEndLower(TrimStart(s));
  }

  // ---------------------------------------------------------------
  // split / join
  // ---------------------------------------------------------------

  function CountChar(s: string, d: char): nat {
    if |s| == 0 then 0 else (if s[0] == d then 1 else 0) + CountChar(s[1..], d)
  }

  /** Python's `s.split(d)` for a one-character separator: always at least one
      part, and no part contains the separator. */
  function Split(s: string, d: char): (parts: seq<string>)
    ensures |parts| == CountChar(s, d) + 1
  {
    if |s| == 0 then [""]
    else
      var rest := Split(s[1..], d);
      if s[0] == d then [""] + rest
      else [[s[0]] + rest[0]] + rest[1..]
  }

  /** Python's `sep.join(parts)`. */
  function Join(parts: seq<string>, sep: string): string {
    if |parts| == 0 then ""
    else if |parts| == 1 then parts[0]
    else parts[0] + sep + Join(parts[1..], sep)
  }

  lemma {:induction false} SplitParts(s: string, d: char)
    ensures |Split(s, d)| == CountChar(s, d) + 1
    ensures forall k, i :: 0 <= k < |Split(s, d)| && 0 <= i < |Split(s, d)[k]| ==> Split(s, d)[k][i] != d
  {
    if |s| > 0 {
      SplitParts(s[1..], d);
    }
  }

  /** Splitting and re-joining with the same separator gives the input back. */
  lemma {:induction false} JoinSplit(s: string, d: char)
    ensures Join(Split(s, d), [d]) == s
  {
    if |s| > 0 {
      var rest := Split(s[1..], d);
      JoinSplit(s[1..], d);
      if s[0] == d {
        assert ([""] + rest)[1..] == rest;
      } else {
        var parts := [[s[0]] + rest[0]] + rest[1..];
        if |rest| == 1 {
          assert parts == [[s[0]] + rest[0]];
        } else {
          assert parts[1..] == rest[1..];
          assert Join(rest, [d]) == rest[0] + [d] + Join(rest[1..], [d]);
        }
      }
    }
  }

  /** Joining parts that do not contain the separator and splitting again
      gives the parts back. */
  lemma {:induction false} SplitJoin(parts: seq<string>, d: char)
    requires |parts| >= 1
    requires forall k :: 0 <= k < |parts| ==> d !in parts[k]
    ensures Split(Join(parts, [d]), d) == parts
    decreases |parts|, |parts[0]|
  {
    if |parts| == 1 {
      SplitNoSeparator(parts[0], d);
    } else if |parts[0]| == 0 {
      var rest := Join(parts[1..], [d]);
      assert Join(parts, [d]) == [d] + rest;
      assert ([d] + rest)[1..] == rest;
      SplitJoin(parts[1..], d);
      assert parts == [""] + parts[1..];
    } else {
      var p0 := parts[0];
      var parts' := [p0[1..]] + parts[1..];
      assert parts'[1..] == parts[1..];
      assert forall k :: 0 <= k < |parts'| ==> d !in parts'[k] by {
        assert forall c :: c in p0[1..] ==> c in p0;
      }
      SplitJoin(parts', d);
      var j := Join(parts, [d]);
      assert j == p0 + [d] + Join(parts[1..], [d]);
      assert j[1..] == Join(parts', [d]);
      assert j[0] == p0[0] && p0[0] != d;
      assert p0 == [p0[0]] + p0[1..];
      assert parts == [p0] + parts[1..];
    }
  }

  lemma {:induction false} SplitNoSeparator(s: string, d: char)
    requires d !in s
    ensures Split(s, d) == [s]
  {
    if |s| > 0 {
      assert forall c :: c in s[1..] ==> c in s;
      SplitNoSeparator(s[1..], d);
      assert s == [s[0]] + s[1..];
    }
  }

  lemma {:induction false} JoinLength(parts: seq<string>, sep: string)
    requires |parts| >= 1
    ensures |Join(parts, sep)| == SumLengths(parts) + (|parts| - 1) * |sep|
  {
    if |parts| > 1 {
      JoinLength(parts[1..], sep);
    }
  }

  function SumLengths(parts: seq<string>): nat {
    if |parts| == 0 then 0 else |parts[0]| + SumLengths(parts[1..])
  }

  // ---------------------------------------------------------------
  // substring test (`sub in s`)
  // ---------------------------------------------------------------

  predicate Contains(s: string, sub: string) {
    sub <= s || (|s| > 0 && Contains(s[1..], sub))
  }

  /** `sub` occurs in `s` starting at position `i`. */
  predicate OccursAt(s: string, sub: string, i: int) {
    0 <= i <= |s| - |sub| && s[i..i + |sub|] == sub
  }

  /** `Contains` holds exactly when `sub` occurs at some position of `s`. */
  lemma {:induction false} ContainsIff(s: string, sub: string)
    ensures Contains(s, sub) <==> exists i :: OccursAt(s, sub, i)
  {
    if |s| > 0 {
      ContainsIff(s[1..], sub);
      if Contains(s[1..], sub) && !(sub <= s) {
        var i :| OccursAt(s[1..], sub, i);
        assert s[1..][i..i + |sub|] == s[i + 1..i + 1 + |sub|];
        assert OccursAt(s, sub, i + 1);
      }
      if sub <= s {
        assert OccursAt(s, sub, 0);
      }
      if exists i :: OccursAt(s, sub, i) {
        var i :| OccursAt(s, sub, i);
        if i > 0 {
          assert s[1..][i - 1..i - 1 + |sub|] == s[i..i + |sub|];
          assert OccursAt(s[1..], sub, i - 1);
        } else {
          assert sub <= s;
        }
      }
    } else if sub == [] {
      assert OccursAt(s, sub, 0);
    }
  }

  // ---------------------------------------------------------------
  // lexicographic order (Python's `<` on str)
  // ---------------------------------------------------------------

  predicate StrLess(a: string, b: string) {
    if |a| == 0 then |b| > 0
    else if |b| == 0 then false
    else if a[0] < b[0] then true
    else if a[0] == b[0] then StrLess(a[1..], b[1..])
    else false
  }

  lemma {:induction false} StrLessIrreflexive(a: string)
    ensures !StrLess(a, a)
  {
    if |a| > 0 {
      StrLessIrreflexive(a[1..]);
    }
  }

  lemma {:induction false} StrLessTransitive(a: string, b: string, c: string)
    requires StrLess(a, b) && StrLess(b, c)
    ensures StrLess(a, c)
  {
    if |a| > 0 && |b| > 0 && |c| > 0 && a[0] == b[0] == c[0] {
      StrLessTransitive(a[1..], b[1..], c[1..]);
    }
  }

  lemma {:induction false} StrLessTotal(a: string, b: string)
    ensures a == b || StrLess(a, b) || StrLess(b, a)
  {
    if |a| > 0 && |b| > 0 && a[0] == b[0] {
      StrLessTotal(a[1..], b[1..]);
      if a[1..] == b[1..] {
        assert a == [a[0]] + a[1..] && b == [b[0]] + b[1..];
      }
    }
  }

  /** For two strings of equal length, `<` is decided at the first position
      where they differ. */
  lemma {:induction false} StrLessFirstDifference(a: string, b: string, k: nat)
    requires |a| == |b| && k < |a|
    requires a[..k] == b[..k] && a[k] != b[k]
    ensures StrLess(a, b) <==> a[k] < b[k]
  {
    if k > 0 {
      assert a[1..][..k - 1] == a[..k][1..];
      assert b[1..][..k - 1] == b[..k][1..];
      StrLessFirstDifference(a[1..], b[1..], k - 1);
    }
  }

  // ---------------------------------------------------------------
  // zfill
  // ---------------------------------------------------------------

  function Zeros(n: nat): (r: string)
    ensures |r| == n && forall i :: 0 <= i < n ==> r[i] == '0'
  {
    seq(n, i => '0')
  }

  /** Python's `s.zfill(width)`: pads with '0' on the left up to `width`
      characters, keeping a leading '+' or '-' in front of the padding. */
  function ZFill(s: string, width: nat): (r: string)
    ensures |r| == if |s| >= width then |s| else width
    ensures |s| >= width ==> r == s
  {
    if |s| >= width then s
    else if |s| > 0 && (s[0] == '+' || s[0] == '-') then [s[0]] + Zeros(width - |s|) + s[1..]
    else Zeros(width - |s|) + s
  }

  /** An unsigned string keeps its characters at the end of the padded result. */
  lemma ZFillUnsigned(s: string, width: nat)
    requires s == [] || (s[0] != '+' && s[0] != '-')
    ensures ZFill(s, width) == Zeros(|ZFill(s, width)| - |s|) + s
  {
  }

  lemma ZFillIdempotent(s: string, width: nat)
    ensures ZFill(ZFill(s, width), width) == ZFill(s, width)
  {
  }
}

=== FILE: vecinos.dfy ===
/** Neighbour selection shared by `obtener_similares`
    (`src/analisis/analisis_matriz_completa.py`) and `construir_grafo_knn`
    (`src/utils/grafo.py`): take the row of an id in a labelled similarity
    matrix, drop the id itself, order the rest from the most similar to the
    least, and keep a prefix. */
module Vecinos {
  import opened Matrices
  import opened Seqs
  import opened MatrizGral

  /** A column label with its similarity. */
  type Puntuado = (string, real)

  /** `df.loc[cve]`: the row of `cve`, one entry per column label. */
  function Fila(df: Etiquetada, cve: string): (es: seq<Puntuado>)
    requires Valida(df) && cve in df.index
    ensures |es| == |df.index|
    ensures forall k :: 0 <= k < |es| ==> es[k] == (df.index[k], df.valores[IndexOf(df.index, cve)][k])
  {
    var r := IndexOf(df.index, cve);
    seq(|df.index|, k requires 0 <= k < |df.index| => (df.index[k], df.valores[r][k]))
  }

  /** `Series.drop(x)`: every entry labelled `x` removed, the rest in order. */
  function Quitar(es: seq<Puntuado>, x: string): (r: seq<Puntuado>)
    ensures |r| <= |es|
    ensures forall e :: e in r <==> e in es && e.0 != x
  {
    if |es| == 0 then []
    else
      var resto := Quitar(es[1..], x);
      assert forall e :: e in es <==> e == es[0] || e in es[1..];
      if es[0].0 == x then resto else [es[0]] + resto
  }

  /** Dropping a label that occurs once removes exactly one entry. */
  lemma {:induction false} QuitarUnico(es: seq<Puntuado>, x: string, p: nat)
    requires p < |es| && es[p].0 == x
    requires forall k :: 0 <= k < |es| && k != p ==> es[k].0 != x
    ensures |Quitar(es, x)| == |es| - 1
  {
    if p == 0 {
      QuitarAusente(es[1..], x);
    } else {
      QuitarUnico(es[1..], x, p - 1);
    }
  }

  lemma {:induction false} QuitarAusente(es: seq<Puntuado>, x: string)
    requires forall k :: 0 <= k < |es| ==> es[k].0 != x
    ensures Quitar(es, x) == es
  {
    if |es| > 0 {
      QuitarAusente(es[1..], x);
    }
  }

  /** Dropping keeps the labels free of repeats. */
  lemma {:induction false} QuitarDistinto(es: seq<Puntuado>, x: string)
    requires Distinct(Primeros(es))
    ensures Distinct(Primeros(Quitar(es, x)))
  {
    if |es| > 0 {
      assert Primeros(es[1..]) == Primeros(es)[1..];
      QuitarDistinto(es[1..], x);
      var resto := Quitar(es[1..], x);
      if es[0].0 != x {
        forall e | e in resto
          ensures e.0 != es[0].0
        {
          var k :| 0 <= k < |es[1..]| && es[1..][k] == e;
          assert Primeros(es)[k + 1] == e.0;
        }
        var r := [es[0]] + resto;
        forall i, j | 0 <= i < j < |r|
          ensures Primeros(r)[i] != Primeros(r)[j]
        {
          if i == 0 {
            assert r[j] in resto;
          } else {
            assert Primeros(resto)[i - 1] != Primeros(resto)[j - 1];
          }
        }
      }
    }
  }

  /** `df.loc[cve].drop(cve)`: the other ids with their similarity to `cve`. */
  function Candidatos(df: Etiquetada, cve: string): (es: seq<Puntuado>)
    requires Valida(df) && cve in df.index
  {
    Quitar(Fila(df, cve), cve)
  }

  /** With unique labels the candidates are exactly the other `n - 1` ids,
      each once, each with its similarity to `cve`. */
  lemma CandidatosPropiedades(df: Etiquetada, cve: string)
    requires Valida(df) && Distinct(df.index) && cve in df.index
    ensures |Candidatos(df, cve)| == |df.index| - 1
    ensures forall e :: e in Candidatos(df, cve) ==>
      e.0 in df.index && e.0 != cve && e.1 == Loc(df, cve, e.0)
    ensures forall x :: x in df.index && x != cve ==> (x, Loc(df, cve, x)) in Candidatos(df, cve)
    ensures Distinct(Primeros(Candidatos(df, cve)))
  {
    var f := Fila(df, cve);
    var p := IndexOf(df.index, cve);
    forall k | 0 <= k < |df.index|
      ensures IndexOf(df.index, df.index[k]) == k
    {
      var q := IndexOf(df.index, df.index[k]);
      assert !(q < k) && !(k < q);
    }
    QuitarUnico(f, cve, p);
    forall x | x in df.index && x != cve
      ensures (x, Loc(df, cve, x)) in Candidatos(df, cve)
    {
      var k := IndexOf(df.index, x);
      assert f[k] == (x, Loc(df, cve, x));
    }
    forall e | e in Candidatos(df, cve)
      ensures e.0 in df.index && e.0 != cve && e.1 == Loc(df, cve, e.0)
    {
      var k :| 0 <= k < |f| && f[k] == e;
    }
    assert Primeros(f) == df.index;
    QuitarDistinto(f, cve);
  }

  /** `sort_values(ascending=False).head(m)`: the first `m` entries from the
      highest similarity down (`head` with a negative `m` drops the last `-m`). */
  function Mejores(es: seq<Puntuado>, m: int): (r: seq<Puntuado>)
    ensures r <= SortDesc(es)
    ensures m >= 0 ==> |r| == if m < |es| then m else |es|
    ensures m < 0 ==> |r| == if |es| + m > 0 then |es| + m else 0
  {
    Head(SortDesc(es), m)
  }

  /** The chosen entries come from the candidates, in non-increasing order,
      without repeated labels when the candidates have none, and no entry
      left out scores higher than any entry chosen. */
  lemma MejoresPropiedades(es: seq<Puntuado>, m: int)
    ensures NonIncreasing(Mejores(es, m))
    ensures forall e :: e in Mejores(es, m) ==> e in es
    ensures forall e, c :: e in es && e.0 !in Primeros(Mejores(es, m)) && c in Mejores(es, m) ==> e.1 <= c.1
    ensures Distinct(Primeros(es)) ==> Distinct(Primeros(Mejores(es, m)))
  {
    MejoresDeCandidatos(es, m);
    MejoresOrdenados(es, m);
    forall e, c | e in es && e.0 !in Primeros(Mejores(es, m)) && c in Mejores(es, m)
      ensures e.1 <= c.1
    {
      assert e in multiset(SortDesc(es));
      ExcluidoNoSupera(SortDesc(es), Mejores(es, m), e, c);
    }
    if Distinct(Primeros(es)) {
      PermutacionDistinta(es, SortDesc(es));
      PrefijoDistinto(SortDesc(es), Mejores(es, m));
    }
  }

  lemma MejoresOrdenados(es: seq<Puntuado>, m: int)
    ensures NonIncreasing(Mejores(es, m))
  {
    var s, r := SortDesc(es), Mejores(es, m);
    assert forall t :: 0 <= t < |r| ==> r[t] == s[t];
  }

  lemma PrefijoDistinto(s: seq<Puntuado>, r: seq<Puntuado>)
    requires r <= s && Distinct(Primeros(s))
    ensures Distinct(Primeros(r))
  {
    assert forall t :: 0 <= t < |r| ==> Primeros(r)[t] == Primeros(s)[t];
  }

  lemma MejoresDeCandidatos(es: seq<Puntuado>, m: int)
    ensures forall e :: e in Mejores(es, m) ==> e in es
  {
    forall e | e in Mejores(es, m)
      ensures e in es
    {
      assert e in multiset(SortDesc(es));
    }
  }

  /** In a non-increasing sequence, an entry whose label is not in the
      prefix `r` scores at most any entry of `r`. */
  lemma ExcluidoNoSupera(s: seq<Puntuado>, r: seq<Puntuado>, e: Puntuado, c: Puntuado)
    requires NonIncreasing(s) && r <= s
    requires e in s && e.0 !in Primeros(r) && c in r
    ensures e.1 <= c.1
  {
    var p :| 0 <= p < |s| && s[p] == e;
    var q :| 0 <= q < |r| && r[q] == c;
    assert forall t :: 0 <= t < |r| ==> Primeros(r)[t] == s[t].0;
    assert s[q] == c;
  }

  /** A reordering of entries with distinct labels has distinct labels. */
  lemma PermutacionDistinta(a: seq<Puntuado>, b: seq<Puntuado>)
    requires multiset(a) == multiset(b) && Distinct(Primeros(a))
    ensures Distinct(Primeros(b))
  {
    forall i, j | 0 <= i < j < |b|
      ensures Primeros(b)[i] != Primeros(b)[j]
    {
      if b[i].0 == b[j].0 {
        assert b[i] in multiset(a) && b[j] in multiset(a);
        var p :| 0 <= p < |a| && a[p] == b[i];
        var q :| 0 <= q < |a| && a[q] == b[j];
        assert Primeros(a)[p] == Primeros(a)[q];
        assert p == q;
        RepetidoCuentaDos(b, i, j);
        UnicoCuentaUno(a, p);
      }
    }
  }

  lemma RepetidoCuentaDos<T>(s: seq<T>, i: nat, j: nat)
    requires i < j < |s| && s[i] == s[j]
    ensures multiset(s)[s[i]] >= 2
  {
    assert s == s[..j] + s[j..];
    assert s[i] in s[..j] && s[j] in s[j..];
  }

  lemma UnicoCuentaUno(s: seq<Puntuado>, p: nat)
    requires p < |s| && Distinct(Primeros(s))
    ensures multiset(s)[s[p]] == 1
  {
    var resto := s[..p] + s[p + 1..];
    assert s == s[..p] + [s[p]] + s[p + 1..];
    forall e | e in resto
      ensures e != s[p]
    {
      var k :| 0 <= k < |resto| && resto[k] == e;
      if k < p {
        assert Primeros(s)[k] != Primeros(s)[p];
      } else {
        assert Primeros(s)[k + 1] != Primeros(s)[p];
      }
    }
    assert s[p] !in multiset(resto);
    assert multiset(s) == multiset(resto) + multiset{s[p]};
  }
}

=== FILE: wrappers.dfy ===
/** Failure-compatible wrappers shared by every module of the model.

    The source signals failure by raising Python exceptions; the model returns
    them as values so that the error paths are part of each contract. */
module Wrappers {

  /** An optional value: `None` stands for Python's None, a missing dictionary
      entry or a NaN, depending on the caller. */
  datatype Option<+T> = None | Some(value: T) {
    function GetOr(default: T): T {
      match this
      case Some(v) => v
      case None => default
    }
  }

  /** The exceptions the modelled code can raise. */
  datatype Error =
    | ValueError(msg: string)
    | KeyError(key: string)
    | ZeroDivisionError
    | AssertionError(msg: string)
    | ShapeError
    | IndexError

  /** A computation that either returns a value or raises one of `Error`. */
  datatype Result<+T> = Ok(value: T) | Err(error: Error) {
    predicate IsFailure() {
      Err?
    }

    function PropagateFailure<U>(): Result<U>
      requires Err?
    {
      Err(error)
    }

    function Extract(): T
      requires Ok?
    {
      value
    }
  }
}
